=== FILE: README.md ===
# Mental-health map: a Dafny model of the graph and style engine

The mental-health-map app lets a person build a map of mental-health factors.
A factor is a node. A causal link between two factors is a directed edge.
A wizard collects four kinds of input:

- the selected factors;
- two causal chains;
- two vicious cycles;
- the most influential factor (the "target").

The map is a Cytoscape element list and a stylesheet of selector/style rules.
The app colours and sizes the nodes by:

- severity scores;
- degree centrality (out-degree, in-degree, or their ratio);
- a uniform scheme.

The target gets a red border. Each edge can get its own opacity.

This project models that engine as pure functions over immutable data.

| module | file | what it models |
|---|---|---|
| `Seqs` | `seqs.dfy` | generic sequence helpers: filters, subsequences, dictionary-order deduplication, min/max |
| `Graph` | `graph.dfy` | the data model: `Element` (node or edge), `Rule` (a selector and an optional-field style record), `factor_exists`, the default stylesheet, the scheme names |
| `Encoding` | `encoding.dfy` | `normalize`, `get_color`, `normalize_size` and the opacity formula, over exact reals |
| `Centrality` | `centrality.dfy` | `calculate_degree_centrality`, the out-degree loop of the earlier revisions, and the centrality metrics |
| `Styles` | `styles.dfy` | the stylesheet operations of `functions.py`: the uniform, severity and centrality schemes, `color_scheme`, `node_sizing`, the target border, `graph_color`, `update_edge_opacity` |
| `EditEngine` | `edit_engine.dfy` | the element-list engine of `functions.py`: `map_add_factors`, `map_add_chains`, `map_add_cycles`, their removal passes, `add_edge_new`, `delete_edge` |
| `Keyed` | `keyed.dfy` | the string-keyed engine shared by `app_ver01.py`, `app_ver02.py` and `app_02.py`, plus node editing, the edge-editing callbacks and the wizard step counter |
| `Ver01` | `ver01.dfy` | `app_ver01.py`: a `graph_color` that builds a fresh stylesheet on every call, and its `delete_node` |
| `Ver02` | `ver02.dfy` | `app_ver02.py`: its `color_scheme`, its unguarded `node_sizing`, an accumulating `graph_color`, and its `delete_node` |
| `App02` | `app02.dfy` | `app_02.py`: the step panels, the dropdown options, the one-shot `generate_graph` |

Modelling conventions:

- Python's in-place list mutation becomes returning the new sequence.
- A dictionary becomes a sequence in insertion order, or a map when only lookup matters.
- A dropdown value of `None` is the empty list. Every reader of such a value (`or []`, `if chain is not None`, `range(len(chain) - 1)`) treats the two alike.
- `n_clicks` truthiness is a boolean `clicked`. An empty or missing name is `""`.
- `int()` of a float is truncation toward zero (`Encoding.Trunc`).
- A `KeyError` the code can raise either becomes `None` (where a finding below is about it) or is excluded by a precondition named after the condition (`EndpointsKnown`, `SizingDefined`, `SeverityDefined`).

## Model

| member | source | states |
|---|---|---|
| Graph.Ids | functions.py:650-651 | the ids that the degree dictionary is built from are exactly the factors `factor_exists` finds |
| Graph.NodesAreKnown | functions.py:592-600 | a map whose edges run between node elements meets the degree counter's need that every endpoint is a known id |
| Graph.FactorNodesIds | functions.py:423-424 | the nodes drawn for a selection carry exactly the selected names as ids, in selection order, and their node names are exactly the selection |
| Graph.FactorExistsById | functions.py:467-468 | `factor_exists` holds for every node id and for the id an edge carries; appending an id-less edge never makes a factor exist |
| Encoding.Trunc | app_ver01.py:275-276 | `int()` truncates toward zero: for a non-negative value it is the floor, for a negative value the ceiling |
| Encoding.Normalize | functions.py:578-582 | equal bounds give exactly 0.5; otherwise the result t satisfies min + t·(max − min) = value, and lies in [0, 1] for values between the bounds |
| Encoding.NormalizeEndpoints | functions.py:578-582 | with distinct bounds the minimum normalises to 0 and the maximum to 1 |
| Encoding.GetColor | functions.py:585-589 | blue is always 255; red and green stay within 0..173 and 0..216 for t in [0, 1]; t = 0 gives rgb(173,216,255) and t = 1 gives rgb(0,0,255) |
| Encoding.GetColorMidpoint | functions.py:585-589 | t = 0.5, the equal-bounds value, gives rgb(86,108,255) |
| Encoding.GetColorDarkens | functions.py:585-589 | a larger normalised value never gives a larger red or green component |
| Encoding.NormalizeSize | functions.py:711-718 | equal bounds give the midpoint (30 for 10..50); the minimum maps to min_size and the maximum to max_size; values between the bounds stay within the size range |
| Encoding.NormalizeSizeIsScaledNormalize | functions.py:711-718 | the size is the colour normalisation stretched onto [min_size, max_size], in the equal-bounds case too |
| Encoding.Opacity | functions.py:858 | opacity times 5 is the strength, so strengths 1..5 give opacities 0.2..1 |
| Centrality.CalculateDegreeCentrality | functions.py:592-600 | starting from the id dictionary, the loop ends with exactly the ids as keys, each holding the number of edges leaving it and the number entering it |
| Centrality.TallyDegree | functions.py:593-599 | one iteration: an edge bumps `out` of its source and `in` of its target, and nothing else changes |
| Centrality.CountOutDegrees | app_ver01.py:253-259 | the out-degree loop ends with the ids, then the unknown edge sources added by `.get(source, 0)`, in first-appearance order; each maps to its number of outgoing edges |
| Centrality.TallyOut | app_ver01.py:256-259 | one iteration of the out-degree loop: an edge's source gains one, and is appended to the keys when it is new |
| Centrality.OutKeyOrderIsDedup | app_ver01.py:253-259 | the loop's key order is the first occurrence of every id and then of every edge source |
| Centrality.DegreeSumsMatch | functions.py:592-600 | without dangling edges, the sum of the `out` counts and the sum of the `in` counts both equal the number of edge elements |
| Centrality.SelfLoopCountsBothWays | functions.py:593-599 | a self-loop adds one to both counts of its factor |
| Centrality.TwoEdgesFromA | functions.py:592-600 | for A→B, A→C: A has out 2 and in 0, and B and C have out 0 and in 1 |
| Centrality.Ratio | functions.py:663-667 | the out/in ratio is 0 when nothing enters; otherwise ratio × in = out; it is never negative |
| Centrality.Bounds | functions.py:668-673 | with values, the bounds are a smallest and a largest value; without values they are (0, 1) |
| Styles.ApplyUniformColor | functions.py:603-616 | every rule with a background colour is dropped, the others keep their order, and the blue labelled node rule is appended as the one background rule |
| Styles.ApplyUniformColorIdempotent | functions.py:603-616 | applying the uniform colour scheme twice equals applying it once |
| Styles.ApplyUniformSize | functions.py:721-731 | every rule with a width is dropped, the others keep their order, and the 25×25 node rule is appended as the one width rule |
| Styles.ApplyUniformSizeIdempotent | functions.py:721-731 | applying the uniform sizing scheme twice equals applying it once |
| Styles.SeverityBounds | functions.py:622-627 | `Severity` uses the smallest and largest score, both actual scores bounding all of them; `Severity (abs)` uses the fixed lower bound and 10 |
| Styles.SeverityColorRules | functions.py:630-641 | one colour rule per scored factor in dictionary order, shaded by its normalised score; the top score is darkest and the bottom score lightest |
| Styles.ApplySeverityColor | functions.py:619-646 | with scores, the earlier rules stay as a prefix and one shaded rule per factor follows; without scores the stylesheet resets to the two default rules |
| Styles.SeveritySizeRules | functions.py:749-758 | one size rule per scored factor in dictionary order, sized by `normalize_size`; scores within the bounds get sizes within 10..50 |
| Styles.ApplySeveritySize | functions.py:734-764 | with scores, the earlier rules stay as a prefix and one size rule per factor follows; without scores the stylesheet resets to the two default rules |
| Styles.SeverityExtremes | functions.py:619-764 | under `Severity` the most severe factor is darkest, the least severe lightest, and every size lies in 10..50 |
| Styles.AbsSeverityStaysInGradient | functions.py:625-627 | corrected: with the slider's own bounds 0..10, every slider score gets a gradient colour and a size in 10..50 |
| Styles.AbsSeverityAsWrittenLeavesGradient | functions.py:625-627 | with the written lower bound 1, a score of 0 normalises to −1/9, gets rgb(192,240,255) (outside the gradient), and is sized below 10 |
| Styles.ShadeRules | functions.py:675-690 | one colour rule per key, shaded by its normalised value: darkest at the maximum, lightest at the minimum, rgb(86,108,255) for all keys when the bounds are equal |
| Styles.ScaleRules | functions.py:797-806 | one size rule per key: 50 at the maximum, 10 at the minimum, 30 for all when the bounds are equal, and within 10..50 in between |
| Styles.CentralityExtremes | functions.py:649-808 | each id's value is its centrality metric; the centrality colour rule is darkest at the largest metric, lightest at the smallest, and the middle shade when all are equal; the size lies in 10..50 |
| Styles.CentralityColorRules | functions.py:649-692 | one rule per id of the degree dictionary, in key order, whose shade is that id's metric normalised between the smallest and largest metric |
| Styles.CentralitySizeRules | functions.py:767-808 | one rule per id of the degree dictionary, in key order, whose size is that id's metric scaled onto 10..50 between the smallest and largest metric |
| Styles.ColorScheme | functions.py:695-708 | Uniform leaves one background rule, the blue node rule last; a severity scheme without scores resets to the defaults, and with scores appends, after the earlier rules, the rule of each scored factor shaded between the smallest and largest score (`Severity`) or between 1 and 10 (`Severity (abs)`); a centrality scheme appends, after the earlier rules, exactly the rules of `apply_centrality_color_styles`; an unknown name changes nothing |
| Styles.NodeSizing | functions.py:811-824 | the same dispatch for sizes: Uniform leaves one width rule; a severity scheme appends each factor's size rule scaled onto 10..50 between the same bounds as the colours, 1..10 for `Severity (abs)`; a centrality scheme appends exactly the rules of `apply_centrality_size_styles`; an unknown name changes nothing |
| Styles.ColorSchemeAbsZero | functions.py:625-627 | through `color_scheme`, a factor scored 0 under `Severity (abs)` gets rgb(192,240,255), outside the blue gradient |
| Styles.ColorTarget | functions.py:827-836 | with a target, the 2px red border of its first entry is appended last and the red-border count grows by one; without a target nothing changes |
| Styles.ResetTarget | functions.py:839-844 | no red-border rule remains, and every other rule stays in order |
| Styles.ResetUndoesColorTarget | functions.py:827-844 | resetting after colouring the target gives back the reset stylesheet |
| Styles.GraphColor | functions.py:847-854 | at most one red border remains; with scores it is exactly the chosen target's, every earlier rule that is not a red border survives, and after the marked stylesheet come exactly one `Severity` size rule per scored factor, in dictionary order, scaled between the smallest and largest score; without scores the stylesheet falls back to the two default rules |
| Styles.SizingBySeverity | functions.py:852 | `node_sizing("Severity")` with scores appends exactly the severity size rules to the stylesheet it is given |
| Styles.UpdateEdgeOpacity | functions.py:857-866 | exactly one rule for the edge remains, the last, with opacity strength/5; every rule for another selector is kept in order |
| Styles.UpdateEdgeOpacityOverrides | functions.py:857-866 | setting a second strength gives the same stylesheet as setting only that strength |
| EditEngine.DeleteEdge | functions.py:459-461 | every edge from source to target goes; every other element stays, in order |
| EditEngine.DeleteEdgeIdempotent | functions.py:459-461 | deleting twice equals deleting once |
| EditEngine.AddEdgeNewAsWritten | functions.py:485-488 | an edge from source to target is present afterwards; the list is unchanged when the id-less edge already was, and otherwise exactly that id-less edge is appended, whatever edges with an id join the same pair |
| EditEngine.AddEdgeNewAsWrittenIdempotent | functions.py:485-488 | adding the same edge twice equals adding it once |
| EditEngine.AddEdgeNewAsWrittenAgrees | functions.py:485-488 | the written insertion equals the corrected one exactly when the pair has no edge, or has its id-less edge |
| EditEngine.AddEdgeNewAsWrittenDuplicates | functions.py:485-488 | the edge A→B restored by `map_add_factors` (id "A->B") gets an id-less twin, so A→B is drawn twice |
| EditEngine.AddEdgeNew | functions.py:485-488 | corrected: an edge from source to target is present afterwards; the list is unchanged when one already was; otherwise exactly that edge is appended |
| EditEngine.AddEdgeNewIdempotent | functions.py:485-488 | corrected: adding the same edge twice equals adding it once |
| EditEngine.AddEdgeNewKeepsSimple | functions.py:485-488 | corrected: a map without parallel edges stays without them |
| EditEngine.ConsecutivePairs | functions.py:474-478 | the pairs (xs[i], xs[i+1]) of a chain, one fewer than its entries |
| EditEngine.CyclePairs | functions.py:529-532 | the consecutive pairs followed by the closing pair from the last entry to the first; for one entry that is the self-loop |
| EditEngine.ChainPairsInCycle | functions.py:529-532 | every consecutive pair of a sequence is among its cycle pairs |
| EditEngine.DeleteEachIsRemovePairs | functions.py:477-481 | the pass-per-pair deletion loop equals one filter that drops the edges of all listed pairs |
| EditEngine.Unprotected | functions.py:477-480 | the group pairs that the shield does not list, and only those |
| EditEngine.RemoveGroupEdges | functions.py:477-481 | an element survives exactly when it is not an edge of an unshielded group pair; the survivors keep their order |
| EditEngine.RemoveGroupEdgesKeepsNodes | functions.py:477-481 | removal keeps every node, so a map whose edges run between nodes stays one |
| EditEngine.RemoveChainEdgesAsWritten | functions.py:471-481 | the chain's pairs lose their edges unless they are consecutive pairs of a stored cycle |
| EditEngine.RemoveChainEdgesAsWrittenDropsClosingEdge | functions.py:472-475 | with the cycle A→B→A stored, replacing the chain B→A deletes the cycle's closing edge B→A |
| EditEngine.RemoveChainEdges | functions.py:471-481 | corrected: the chain's pairs lose their edges unless the pair is implied by a stored cycle, closing pair included |
| EditEngine.RemoveChainEdgesKeepsCycles | functions.py:471-481 | corrected: no edge of a stored cycle is lost when a chain is replaced |
| EditEngine.RemoveGroupEdgesKeepsSimple | functions.py:478-481 | the removal loop never makes two edges parallel |
| EditEngine.RemoveCycleEdges | functions.py:520-537 | the closed cycle's pairs, closing pair included, lose their edges unless a stored chain implies them |
| EditEngine.AddIfKnown | functions.py:509-510 | when both endpoints pass `factor_exists` the pair gets an edge (through the written `add_edge_new`); the ids and nodes stay; any new element is the id-less edge of the pair |
| EditEngine.AddPairs | functions.py:505-510 | the insertion loop only appends: the old list stays a prefix |
| EditEngine.AddPairsKeepsIds | functions.py:505-510 | the insertion loop keeps the ids and the nodes |
| EditEngine.AddPairsDrawsKnown | functions.py:505-510 | every listed pair whose endpoints are known ids ends with an edge |
| EditEngine.AddPairsAddsOnly | functions.py:505-510 | each new element is an id-less edge of a listed pair with known endpoints |
| EditEngine.AddPairsKeepsKnown | functions.py:505-510 | edges keep running between known ids |
| EditEngine.AddIfKnownIntended | functions.py:509-510 | corrected: the old list stays a prefix, a pair with known endpoints gets an edge, and a map without parallel edges stays without them |
| EditEngine.AddPairsIntended | functions.py:505-510 | corrected: the insertion loop with the corrected `add_edge_new` only appends |
| EditEngine.AddPairsIntendedKeepsSimple | functions.py:505-510 | corrected: with the corrected `add_edge_new` the insertion loop never creates a parallel edge |
| EditEngine.MapAddChains | functions.py:491-517 | only the elements and the two chain dropdowns change, and the dropdowns hold the new chains |
| EditEngine.MapAddChainsSpec | functions.py:491-517 | nodes stay; an element disappears only if it is an edge of a previous chain pair that is not a consecutive pair of a stored cycle; each new chain pair between two nodes gets an edge; each new element is an id-less edge of a new chain pair; endpoints stay known |
| EditEngine.MapAddChainsDropsClosingEdge | functions.py:491-503 | with the cycle A→B→A stored and the previous chain [B, A], clearing the chains deletes the cycle's edge B→A |
| EditEngine.MapAddChainsDrawsTwin | functions.py:505-510 | with the edge A→B restored with its id, drawing the chain [A, B] leaves A→B drawn twice |
| EditEngine.MapAddChainsIntended | functions.py:491-517 | corrected: only the elements and the two chain dropdowns change, and the dropdowns hold the new chains |
| EditEngine.MapAddChainsIntendedKeepsCycles | functions.py:491-517 | corrected: every stored edge a stored cycle implies, closing edge included, survives, and a map without parallel edges stays without them |
| EditEngine.MapAddCycles | functions.py:540-575 | only the elements and the two cycle dropdowns change, and the dropdowns hold the new cycles |
| EditEngine.MapAddCyclesSpec | functions.py:540-575 | as for chains, with the closed cycle pairs: previous cycle edges go unless a stored chain implies them, and every new cycle pair between two nodes, closing pair included, gets an edge |
| EditEngine.MapAddCyclesSelfLoop | functions.py:559-562 | a one-entry cycle on a node draws its self-loop |
| EditEngine.MapAddCyclesIntended | functions.py:540-575 | corrected: only the elements and the two cycle dropdowns change, and the dropdowns hold the new cycles |
| EditEngine.MapAddCyclesIntendedKeepsSimple | functions.py:540-575 | corrected: with the corrected `add_edge_new`, replacing the cycles never draws a pair twice |
| EditEngine.KeyedEdges | functions.py:437-442 | each stored key is redrawn as an edge element carrying the key as its id |
| EditEngine.RestoredMap | functions.py:419-443 | the rebuilt map is the selected factors' nodes followed by the kept edges, all of which run between those nodes |
| EditEngine.MapAddFactors | functions.py:411-448 | a stored edge survives iff both ends are selected; the map is the selected nodes then the surviving edges; a deselected factor loses its score; an empty selection empties the map and keeps the edges and scores; the selection is recorded |
| EditEngine.MapAddFactorsIdempotent | functions.py:411-448 | selecting the same factors again changes nothing |
| Keyed.AddEdge | app_ver02.py:233-238 | the key is present afterwards; when it already was nothing changes; otherwise the id-less edge is appended and its key added |
| Keyed.AddEdgeTwice | app_ver02.py:233-238 | a second identical call changes nothing |
| Keyed.LastJoining | app_ver02.py:244-247 | the backwards search finds the last element joining source to target, or reports that none does |
| Keyed.DeleteEdge | app_ver02.py:241-249 | the key is removed; when it was absent nothing changes; when it was present only the last element joining the pair is removed and the rest keep their order |
| Keyed.DeleteUndoesAdd | app_ver02.py:233-249 | deleting a newly added edge restores the map and key set |
| Keyed.AddEdgeKeepsConsistent | app_ver02.py:233-238 | adding keeps the key set equal to the keys of the drawn edges, with no two edges sharing a key |
| Keyed.DeleteEdgeKeepsConsistent | app_ver02.py:241-249 | deleting keeps the key set in step with the drawn edges, provided no other pair shares the key |
| Keyed.ConsistentIsSimple | app_ver02.py:234-237 | a map whose key set is in step draws no two edges for the same ordered pair |
| Keyed.AddEdges | app_02.py:257-276 | a run of `add_edge` calls appends only id-less edges and adds the keys of all listed pairs |
| Keyed.AddEdgesSpec | app_02.py:257-276 | each new element is an edge of a listed pair; the ids stay; consistency is kept |
| Keyed.KeyedEdgesDrawn | app_02.py:257-276 | after the run, every listed pair's key names a drawn edge |
| Keyed.ChainPairIsConsecutive | app_ver02.py:257-260 | a two-entry chain contributes exactly its consecutive pair, and a shorter one nothing, as in functions.py's general loop |
| Keyed.BothWaysIsCycle | app_ver02.py:271-273 | a two-entry cycle contributes exactly its closed cycle pairs, both directions |
| Keyed.TriangleIsCycle | app_ver02.py:274-277 | a three-entry cycle contributes exactly its closed cycle pairs, the triangle |
| Keyed.MapAddChains | app_ver02.py:252-263 | the chain pairs' keys are added and the old elements stay as a prefix |
| Keyed.MapAddCycles | app_ver02.py:266-280 | the cycle pairs' keys are added and the old elements stay as a prefix |
| Keyed.OtherLengthsAddNothing | app_ver02.py:257-277 | chains not of length 2, a first cycle not of length 2 and a second cycle not of length 3 change nothing |
| Keyed.ChainsIgnoreNodes | app_ver02.py:252-263 | a chain between two names that are not nodes is drawn anyway |
| Keyed.MapAddFactorsAsWritten | app_ver01.py:182-186 | the map becomes the selected nodes and the key set is left as it was |
| Keyed.StaleKeysBlockRedraw | app_ver01.py:182-219 | after re-selecting the factors, confirming the same chain again draws no edge, because its key is still stored |
| Keyed.MapAddFactors | app_ver01.py:182-186 | corrected: the map becomes the selected nodes and the key set stays in step with it |
| Keyed.RebuildThenRedraw | app_ver01.py:182-219 | corrected: after the rebuild, confirming a chain again draws its edge |
| Keyed.AnyIdIs | app_ver01.py:560 | the `any` scan, when it does not fail, reports a match only if some element has the name as id, and no match only if none has |
| Keyed.AddNodeAsWritten | app_ver01.py:556-565 | when it does not fail, a new name is appended as a node and a used name changes nothing; without a click or name nothing changes |
| Keyed.AddNodeAsWrittenFails | app_ver01.py:560 | once an id-less edge is drawn, adding a node with a new name raises `KeyError` |
| Keyed.AddNode | app_ver02.py:759-768 | corrected: the name is an id afterwards; a new name is appended as a node, a used one changes nothing |
| Keyed.AddNodeAgrees | app_ver02.py:759-768 | where the written body does not fail, it equals the corrected one |
| Keyed.AddNodeKeepsIdsDistinct | app_ver02.py:761-768 | corrected: adding a node never gives two elements the same id |
| Keyed.NodeNames | app_ver02.py:771 | the name list holds exactly the ids shorter than 30 characters |
| Keyed.LimitToTwo | app_ver01.py:600-612 | a list longer than two is cut to its first two entries; a shorter one is returned unchanged |
| Keyed.LimitToTwoIdempotent | app_ver02.py:808-811 | limiting twice equals limiting once, and the result is a prefix of the input |
| Keyed.AddEdgeOutputAsWritten | app_ver01.py:625-632 | a one-entry selection raises `IndexError`; two or more entries add the edge of the first two; no click or no selection changes nothing |
| Keyed.DeleteEdgeOutputAsWritten | app_ver01.py:645-652 | the same for deletion |
| Keyed.EdgeOutputsAsWrittenFail | app_ver01.py:600-652 | the limiter lets a one-entry selection through, and both edge callbacks then fail on it |
| Keyed.AddEdgeOutput | app_ver02.py:823-831 | only a click with exactly two entries adds the edge; anything else changes nothing |
| Keyed.DeleteEdgeOutput | app_ver02.py:843-851 | only a click with exactly two entries deletes the edge; anything else changes nothing |
| Keyed.EdgeOutputsAgree | app_ver02.py:823-851 | on limited selections where the first revision's callbacks do not fail, they equal the second revision's |
| Keyed.EdgeOutputsRoundTrip | app_ver02.py:823-851 | adding a new edge through the edit tab and deleting it again restores the map |
| Keyed.UpdateStep | app_ver02.py:603-620 | back gives max(step − 1, 0); next gives step + 1 below 5 and wraps to 0 from 5 or more; any other trigger leaves the step; a step in 0..5 stays in 0..5 |
| Keyed.StepCycle | app_ver01.py:450-458 | six presses of next bring every step back to itself, and back undoes next below the last step |
| Ver01.TargetRules | app_ver01.py:292-301 | the red border of the first target when one is chosen, and nothing otherwise |
| Ver01.GraphColor | app_ver01.py:246-304 | the two default rules, then one background rule per out-degree key in dictionary order, each shaded `get_color(normalize(out-degree))` between the smallest and largest out-degree, then the target's red border last; it is the only red border, and nothing of an earlier stylesheet survives |
| Ver01.GraphColorShades | app_ver01.py:262-289 | all equal out-degrees give every node rgb(86,108,255); otherwise the largest out-degree gives rgb(0,0,255) and the smallest rgb(173,216,255) |
| Ver01.GraphColorKnownSources | app_ver01.py:253-259 | when every edge starts at a known id, the keys are exactly the ids, so with distinct ids the stylesheet length is 2 + ids (+1 with a target) |
| Ver01.DeleteNode | app_ver01.py:585-587 | the elements with that id go; every other element, the node's edges included, stays in order |
| Ver01.DeleteNodeLeavesDanglingEdge | app_ver01.py:585-587 | deleting node A from A, B, A→B leaves the edge A→B pointing at nothing |
| Ver02.ColorScheme | app_ver02.py:312-359 | a centrality scheme appends one background rule per id, in dictionary order, after the earlier rules; any other name appends nothing |
| Ver02.NormalizeSizeUnguarded | app_ver02.py:362-365 | where the bounds differ, the unguarded size equals the guarded one |
| Ver02.UnguardedSizeBounds | app_ver02.py:362-365 | the minimum maps to 10, the maximum to 50, and values in between stay in 10..50 |
| Ver02.UnguardedScaleRules | app_ver02.py:393-401 | one size rule per id, sized by `normalize_size` |
| Ver02.NodeSizing | app_ver02.py:367-404 | a centrality scheme appends one size rule per id after the earlier rules; any other name appends nothing |
| Ver02.NodeSizingExtremes | app_ver02.py:367-404 | where defined, the smallest metric gets size 10, the largest 50, and every size lies in between |
| Ver02.EqualDegreesUndefined | app_ver02.py:362-365 | two unconnected nodes have equal out-degrees, so out-degree sizing divides by zero |
| Ver02.GraphColor | app_ver02.py:426-435 | exactly one red border remains, the target's and last, or none without a target; every other rule of the coloured stylesheet is kept |
| Ver02.GraphColorAccumulates | app_ver02.py:426-435 | colouring again grows the stylesheet by one rule per id, so repeated calls accumulate |
| Ver02.DeleteNode | app_ver02.py:788-794 | the node goes, and so does every edge from or to it; all other elements stay in order |
| Ver02.DeleteNodeKeepsEndpoints | app_ver02.py:788-794 | a map whose edges run between nodes stays one after a node is deleted |
| App02.StepVisibility | app_02.py:182-196 | for a click count in 0..5 exactly the matching panel is shown; for any other count, or none, all six are hidden |
| App02.AtMostOnePanel | app_02.py:182-196 | no two panels are shown together, and none past the last step |
| App02.DropdownOptions | app_02.py:207-209 | five identical option lists |
| App02.OptionsAreNodes | app_02.py:207-209 | each dropdown offers exactly the factors that `generate_graph` draws as nodes (app_02.py:252-253) |
| App02.GenerateGraph | app_02.py:232-338 | the selected factors' nodes come first, in order, then only id-less edges; the stylesheet is app_ver01.py's `graph_color` of the drawn map: the two defaults, each out-degree key shaded `get_color(normalize(out-degree))`, and the target's border last, its only red border |
| App02.GenerateGraphDrawsGroupsOnce | app_02.py:255-276 | every pair of the chains and cycles is drawn (keyed by "source->target"), and no ordered pair is drawn twice, however the groups overlap |
| App02.GenerateGraphEmpty | app_02.py:232-338 | with nothing selected the map is empty and the stylesheet is the two default rules |

## Left out

- User-interface construction, page routing and Dash plumbing are not modelled, because none of it computes graph data. This covers the layouts, `create_*` and `generate_step_content`, `display_page`, `update_page_and_buttons`, callback decorators, `dcc.Store`, the JSON round-trip of the hidden div, base64 upload and JSON download, and `assets/index.js`. Which input fired a callback (`callback_context.triggered`) becomes the `Keyed.Trigger` parameter of `Keyed.UpdateStep`.
- callbacks.py is entirely commented out. constants.py holds only static lists, whose scheme names become the `Graph.Scheme` constructors.
- Floating point: normalised values, sizes and opacities are exact reals, not IEEE doubles. Colours and selectors are structured values, not formatted strings.
- The string-keyed `edges` list of functions.py is modelled only as far as `map_add_factors` uses it. Three things are not modelled:
  - its `split('->')` (functions.py:438) is assumed to invert `EdgeKey`, so names containing "->" are not modelled;
  - `existing_edges.discard((source, target))` (functions.py:464, 537) never matches a string key, so it is modelled as doing nothing;
  - `remove_chain_edges` calls `.get` on string entries (functions.py:482), which raises `AttributeError` as soon as an unshielded chain pair is removed while keys are stored; the model leaves the key list untouched instead.
- `map_add_cycles` stores the keys back through `list(set(...))` (functions.py:542, 571), which can reorder them and also drops duplicate keys. `EditEngine.MapAddCycles` keeps them as they were, in their old order and with any duplicates.
- The grey style attached to a node added by `add_node`/`map_add_node` is not modelled, because nothing reads it.
- The return values of the in-place helpers and the callbacks' extra outputs (the duplicated node-name lists) are not modelled beyond `Keyed.NodeNames`.
- The `isinstance` check on severity scores (functions.py:623) is not modelled, because scores are reals by type.
- `set_color_scheme` (app_ver02.py:862-870) is not modelled as a member of its own. Its dropdown is `multi=True` (app_ver02.py:213), so the value it passes to `color_scheme` is a list. No string comparison at app_ver02.py:324-328 matches a list, and nothing is appended. The callback therefore amounts to `Ver02.ColorScheme(Unrecognised, …)`, whose contract leaves the stylesheet unchanged. The source marks the callback as not working (app_ver02.py:853).
- `generate_graph` with `selected_factors` equal to `None` raises `TypeError` at app_02.py:252; the model takes the empty list.
- Styles.ColorScheme: requires `SchemeDefined`, because `Severity` with all scores equal raises `ZeroDivisionError` (functions.py:631) and the centrality schemes raise `KeyError` on an edge endpoint that is not an id. The exceptions are preconditions, not modelled paths.
- Styles.ApplySeverityColor: requires `SeverityDefined`, for the same division by zero.
- Styles.ApplySeverityColor, Styles.ApplySeveritySize, Styles.ColorScheme, Styles.NodeSizing, Styles.GraphColor: do not model a severity dictionary that is `None`. The source tells it apart from `{}`: for `None` both `if severity_scores` and `elif severity_scores == {}` fail, so the stylesheet comes back unchanged (functions.py:621 and 643, 740 and 760). The scores type holds only dictionaries, so only `{}` is modelled, and it resets to the default rules.
- Styles.CentralityColorRules, Styles.CentralitySizeRules, Styles.NodeSizing, Ver02.ColorScheme, Ver02.GraphColor, Centrality.CalculateDegreeCentrality: require `EndpointsKnown`, since `degrees[source]` raises `KeyError` for a dangling endpoint.
- Ver02.NodeSizing: requires `SizingDefined`, since the unguarded `normalize_size` divides by zero when all metrics are equal.
- EditEngine.MapAddChainsSpec and EditEngine.MapAddCyclesSpec: state the "every new pair is drawn" clause only for endpoints that are node elements, which is weaker than the code's `factor_exists`. An id-bearing edge also passes `factor_exists`, but `AddPairsDrawsKnown` covers that case. They state endpoint knowledge afterwards only for maps whose edges run between nodes.
- Keyed.DeleteEdgeKeepsConsistent: requires that no other pair shares the key, because two different pairs can share a key when names contain "->".
- Ver02.ColorScheme: states the rule selectors and the background's presence, not the shade itself; `Styles.CentralityExtremes` states the shades of the same rules.

## Findings

| source | as written | input that shows it | evidently intended | confidence | as-written member | corrected member |
|---|---|---|---|---|---|---|
| functions.py:471-482 | `remove_chain_edges` shields only the consecutive pairs of the stored cycles, not their closing pair | cycle A→B→A stored, previous chain [B, A]: replacing the chain deletes the cycle edge B→A | every pair a stored cycle implies, the closing pair included, is shielded, as `remove_cycle_edges` does for chains | not executed | EditEngine.MapAddChainsDropsClosingEdge | EditEngine.MapAddChainsIntendedKeepsCycles |
| app_ver01.py:625-652 | `add_edge_output`/`delete_edge_output` index `new_edge[1]` whenever the selection is non-empty | a one-entry selection ["A"], which `limit_dropdown_add_edge` lets through: `IndexError` | act only on exactly two entries, as app_ver02.py:824 and 844 do | not executed | Keyed.EdgeOutputsAsWrittenFail | Keyed.EdgeOutputsAgree |
| app_ver01.py:560 | `add_node` (and `map_add_node`, app_ver02.py:763) reads `node['data']['id']` on every element | elements A, B, A→B (an id-less edge), new name "C": `KeyError` | look the id up with `.get('id')`, as `delete_node` does | not executed | Keyed.AddNodeAsWrittenFails | Keyed.AddNodeKeepsIdsDistinct |
| functions.py:625-627 | `Severity (abs)` normalises against the fixed range 1..10 although the severity slider runs 0..10 (also at 744-746) | score 0: normalised −1/9, colour rgb(192,240,255) and size below 10, outside the gradient and the size range | the slider's range 0..10 | not executed | Styles.AbsSeverityAsWrittenLeavesGradient | Styles.AbsSeverityStaysInGradient |
| functions.py:485-488 | `add_edge_new` compares the whole `data` dictionary, so an edge that carries an id does not count as present | map A, B with the restored edge A→B (id "A->B"), then a chain [A, B]: A→B is drawn twice | treat an edge as present when its source and target match | not executed | EditEngine.MapAddChainsDrawsTwin | EditEngine.MapAddChainsIntendedKeepsCycles |
| app_ver01.py:182-186 | `map_add_factors` rebuilds the nodes but keeps every stored edge key (also app_ver02.py:226-230) | factors A, B with chain A→B drawn, then re-selecting A, B and confirming the chain: the edge is gone and is not redrawn | drop the keys of edges the rebuild discards | not executed | Keyed.StaleKeysBlockRedraw | Keyed.RebuildThenRedraw |

=== FILE: app02.dfy ===
/** The one-shot prototype app_02.py: the wizard panels, the dropdown
    options of steps 2–4, and `generate_graph`, which draws the whole map
    from the current selections on every change. */
module App02 {
  import opened Seqs
  import opened Graph
  import opened Encoding
  import opened Centrality
  import opened Styles
  import opened Keyed
  import Ver01

  /** `update_step_visibility`: which of the six step panels is shown for the
      click count (`None` when Dash passes no count). */
  function StepVisibility(clicks: Option<int>): (shown: seq<bool>)
    ensures |shown| == 6
    ensures forall i :: 0 <= i < 6 ==> (shown[i] <==> clicks == Some(i))
  {
    if clicks == Some(0) then [true, false, false, false, false, false]
    else if clicks == Some(1) then [false, true, false, false, false, false]
    else if clicks == Some(2) then [false, false, true, false, false, false]
    else if clicks == Some(3) then [false, false, false, true, false, false]
    else if clicks == Some(4) then [false, false, false, false, true, false]
    else if clicks == Some(5) then [false, false, false, false, false, true]
    else [false, false, false, false, false, false]
  }

  /** At most one panel is ever visible, and none past the last step. */
  lemma AtMostOnePanel(clicks: Option<int>)
    ensures forall i, j :: 0 <= i < j < 6 ==> !(StepVisibility(clicks)[i] && StepVisibility(clicks)[j])
    ensures clicks.Some? && clicks.value > 5 ==> forall i :: 0 <= i < 6 ==> !StepVisibility(clicks)[i]
  {
  }

  /** The options of one dropdown: one choice per selected factor. */
  function FactorChoices(selected: seq<string>): (options: seq<Choice>)
    ensures |options| == |selected|
    ensures forall i :: 0 <= i < |selected| ==> options[i] == Choice(selected[i], selected[i])
  {
    seq(|selected|, i requires 0 <= i < |selected| => Choice(selected[i], selected[i]))
  }

  /** `update_step2_dropdown_options`: the same list for all five dropdowns. */
  function DropdownOptions(selected: seq<string>): (lists: seq<seq<Choice>>)
    ensures |lists| == 5
    ensures forall k :: 0 <= k < 5 ==> lists[k] == FactorChoices(selected)
  {
    var options := FactorChoices(selected);
    [options, options, options, options, options]
  }

  /** A map that starts with the selection's nodes and continues with edges
      only has exactly the selected factors as nodes. */
  lemma NodesThenEdges(selected: seq<string>, elements: seq<Element>)
    requires |selected| <= |elements| && elements[..|selected|] == FactorNodes(selected)
    requires forall i :: |selected| <= i < |elements| ==> elements[i].Edge?
    ensures forall x :: NodeExists(x, elements) <==> x in selected
  {
    FactorNodesIds(selected);
    PrefixMembers(FactorNodes(selected), elements);
    forall x | NodeExists(x, elements) ensures x in selected {
      var e :| e in elements && e.Node? && e.id == x;
      var j :| 0 <= j < |elements| && elements[j] == e;
      assert elements[j] == FactorNodes(selected)[j];
    }
  }

  /** Every dropdown offers exactly the factors that `generate_graph` draws as
      nodes, so a chain or cycle picked from them names drawn nodes only. */
  lemma OptionsAreNodes(selected: seq<string>, k: nat, s2d1: seq<string>, s2d2: seq<string>, s3d1: seq<string>, s3d2: seq<string>, target: seq<string>)
    requires k < 5
    ensures var options := DropdownOptions(selected)[k];
      var elements := GenerateGraph(selected, s2d1, s2d2, s3d1, s3d2, target).0;
      forall x :: (exists c :: c in options && c.value == x) <==> NodeExists(x, elements)
  {
    ChoicesAreSelection(selected);
    NodesThenEdges(selected, GenerateGraph(selected, s2d1, s2d2, s3d1, s3d2, target).0);
  }

  /** A dropdown built from the selection offers exactly the selected factors. */
  lemma ChoicesAreSelection(selected: seq<string>)
    ensures forall x :: (exists c :: c in FactorChoices(selected) && c.value == x) <==> x in selected
  {
    var options := FactorChoices(selected);
    forall x ensures (exists c :: c in options && c.value == x) <==> x in selected {
      if c :| c in options && c.value == x {
        var i :| 0 <= i < |options| && options[i] == c;
      }
      if x in selected {
        var j :| 0 <= j < |selected| && selected[j] == x;
        assert options[j] in options;
      }
    }
  }

  /** The pairs `generate_graph` draws, in its order: the two chains, the
      two-entry cycle both ways, the three-entry cycle as a triangle. */
  function GroupPairs(s2d1: seq<string>, s2d2: seq<string>, s3d1: seq<string>, s3d2: seq<string>): seq<(string, string)> {
    ChainPair(s2d1) + ChainPair(s2d2) + BothWays(s3d1) + Triangle(s3d2)
  }

  /** `generate_graph`: one node per selected factor, then the group edges
      deduplicated by key, and the out-degree stylesheet of app_ver01.py's
      `graph_color`. */
  function GenerateGraph(selected: seq<string>, s2d1: seq<string>, s2d2: seq<string>, s3d1: seq<string>, s3d2: seq<string>, target: seq<string>): (r: (seq<Element>, seq<Rule>))
    ensures |selected| <= |r.0| && r.0[..|selected|] == FactorNodes(selected)
    ensures forall i :: |selected| <= i < |r.0| ==> r.0[i].Edge? && r.0[i].eid == None
    ensures |r.1| == 2 + |OutDegreeKeys(r.0)| + (if target == [] then 0 else 1)
    ensures r.1[..2] == DefaultStyle
    ensures RedBorders(r.1) == if target == [] then 0 else 1
    ensures target != [] ==> r.1[|r.1| - 1] == TargetRule(target[0])
    ensures var keys := OutDegreeKeys(r.0); var vals := Ver01.OutValues(r.0, keys); var b := Bounds(vals);
      forall i :: 0 <= i < |keys| ==> r.1[2 + i] == ColorRule(keys[i], GetColor(Normalize(vals[i], b.1, b.0)))
    ensures r.1 == Ver01.GraphColor(r.0, target)
  {
    var start := KeyedMap(FactorNodes(selected), {});
    var pairs := GroupPairs(s2d1, s2d2, s3d1, s3d2);
    var drawn := AddEdges(start, pairs);
    (drawn.elements, Ver01.GraphColor(drawn.elements, target))
  }

  /** Every pair of the groups is drawn (up to key collisions between
      names containing "->"), and no ordered pair is drawn twice, however the
      groups overlap. */
  lemma GenerateGraphDrawsGroupsOnce(selected: seq<string>, s2d1: seq<string>, s2d2: seq<string>, s3d1: seq<string>, s3d2: seq<string>, target: seq<string>)
    ensures var elements := GenerateGraph(selected, s2d1, s2d2, s3d1, s3d2, target).0;
      && Simple(elements)
      && forall p :: p in GroupPairs(s2d1, s2d2, s3d1, s3d2) ==>
           exists e :: e in elements && e.Edge? && EdgeKey(e.src, e.tgt) == EdgeKey(p.0, p.1)
  {
    var start := KeyedMap(FactorNodes(selected), {});
    var pairs := GroupPairs(s2d1, s2d2, s3d1, s3d2);
    assert Consistent(start) by {
      assert forall e :: e in start.elements ==> e.Node?;
    }
    AddEdgesSpec(start, pairs);
    KeyedEdgesDrawn(start, pairs);
    ConsistentIsSimple(AddEdges(start, pairs));
  }

  /** With no factors and no groups the degree dictionary is empty and the
      stylesheet is the two default rules. */
  lemma GenerateGraphEmpty()
    ensures GenerateGraph([], [], [], [], [], []) == ([], DefaultStyle)
  {
    assert GroupPairs([], [], [], []) == [];
    assert OutDegreeKeys([]) == [];
  }
}

=== FILE: centrality.dfy ===
/** Degree centrality: how many causal edges leave (`out`) and enter (`in`)
    each factor, as counted by `calculate_degree_centrality` (functions.py and
    app_ver02.py) and by the out-degree loop of app_ver01.py and app_02.py. */
module Centrality {
  import opened Seqs
  import opened Graph

  /** The `{'out': n, 'in': m}` record of one factor. */
  datatype Degree = Degree(out: nat, inn: nat)

  /** Edges of `elements` leaving `k`. */
  function OutCount(elements: seq<Element>, k: string): nat {
    if elements == [] then 0
    else
      var last := elements[|elements| - 1];
      OutCount(elements[..|elements| - 1], k) + (if last.Edge? && last.src == k then 1 else 0)
  }

  /** Edges of `elements` entering `k`. */
  function InCount(elements: seq<Element>, k: string): nat {
    if elements == [] then 0
    else
      var last := elements[|elements| - 1];
      InCount(elements[..|elements| - 1], k) + (if last.Edge? && last.tgt == k then 1 else 0)
  }

  function EdgeCount(elements: seq<Element>): nat {
    if elements == [] then 0
    else EdgeCount(elements[..|elements| - 1]) + (if elements[|elements| - 1].Edge? then 1 else 0)
  }

  function DegreeOf(elements: seq<Element>, k: string): Degree {
    Degree(OutCount(elements, k), InCount(elements, k))
  }

  /** The keys of `{element['data']['id']: ... for element in elements if 'id' in element['data']}`, in dictionary order. */
  function DegreeKeys(elements: seq<Element>): seq<string> {
    Dedup(Ids(elements))
  }

  /** The sources of the edges of `elements`, in list order. */
  function Sources(elements: seq<Element>): seq<string> {
    if elements == [] then []
    else
      var init := elements[..|elements| - 1];
      var last := elements[|elements| - 1];
      if last.Edge? then Sources(init) + [last.src] else Sources(init)
  }

  /** `Sources` holds exactly the sources of the edges. */
  lemma {:induction false} SourcesOfEdges(elements: seq<Element>)
    ensures forall x :: x in Sources(elements) <==> exists e :: e in elements && e.Edge? && e.src == x
  {
    if elements != [] {
      var init := elements[..|elements| - 1];
      var last := elements[|elements| - 1];
      assert elements == init + [last];
      assert forall e :: e in elements <==> e in init || e == last;
      SourcesOfEdges(init);
    }
  }

  /** The key order of the out-degree dictionary of app_ver01.py and app_02.py:
      every id first, then (through `.get(source, 0)`) each edge source that is
      not an id, in order of appearance. */
  function OutDegreeKeys(elements: seq<Element>): seq<string> {
    Dedup(Ids(elements) + Sources(elements))
  }

  /** How the counts change when one element is appended. */
  lemma CountsSnoc(prefix: seq<Element>, e: Element)
    ensures forall k :: OutCount(prefix + [e], k) == OutCount(prefix, k) + (if e.Edge? && e.src == k then 1 else 0)
    ensures forall k :: InCount(prefix + [e], k) == InCount(prefix, k) + (if e.Edge? && e.tgt == k then 1 else 0)
    ensures EdgeCount(prefix + [e]) == EdgeCount(prefix) + (if e.Edge? then 1 else 0)
    ensures Sources(prefix + [e]) == Sources(prefix) + (if e.Edge? then [e.src] else [])
  {
    assert (prefix + [e])[..|prefix + [e]| - 1] == prefix;
  }

  /** The degree of one key after one more element. */
  lemma DegreeSnoc(prefix: seq<Element>, e: Element, k: string)
    ensures OutCount(prefix + [e], k) == OutCount(prefix, k) + (if e.Edge? && e.src == k then 1 else 0)
    ensures InCount(prefix + [e], k) == InCount(prefix, k) + (if e.Edge? && e.tgt == k then 1 else 0)
  {
    assert (prefix + [e])[..|prefix + [e]| - 1] == prefix;
  }

  lemma SourcesSnoc(prefix: seq<Element>, e: Element)
    ensures Sources(prefix + [e]) == Sources(prefix) + (if e.Edge? then [e.src] else [])
  {
    assert (prefix + [e])[..|prefix + [e]| - 1] == prefix;
  }

  /** The degree dictionary of `ids` after counting the edges of `done`. */
  function Counted(ids: seq<string>, done: seq<Element>): map<string, Degree> {
    map k | k in ids :: DegreeOf(done, k)
  }

  /** Counting one more edge bumps `out` of its source, then `in` of its target. */
  lemma CountedSnoc(ids: seq<string>, done: seq<Element>, e: Element)
    requires e.Edge? ==> e.src in ids && e.tgt in ids
    ensures e.Edge? ==>
      var c := Counted(ids, done);
      var c1 := c[e.src := Degree(c[e.src].out + 1, c[e.src].inn)];
      Counted(ids, done + [e]) == c1[e.tgt := Degree(c1[e.tgt].out, c1[e.tgt].inn + 1)]
    ensures !e.Edge? ==> Counted(ids, done + [e]) == Counted(ids, done)
  {
    var c := Counted(ids, done);
    var n := Counted(ids, done + [e]);
    if e.Edge? {
      var c1 := c[e.src := Degree(c[e.src].out + 1, c[e.src].inn)];
      var c2 := c1[e.tgt := Degree(c1[e.tgt].out, c1[e.tgt].inn + 1)];
      assert n.Keys == c2.Keys;
      forall k | k in n ensures n[k] == c2[k] {
        DegreeSnoc(done, e, k);
        if k == e.tgt {
          assert c2[k] == Degree(c1[k].out, c1[k].inn + 1);
        } else if k == e.src {
          assert c2[k] == c1[k] == Degree(c[k].out + 1, c[k].inn);
        } else {
          assert c2[k] == c[k];
        }
      }
      assert n == c2;
    } else {
      assert n.Keys == c.Keys;
      forall k | k in n ensures n[k] == c[k] {
        DegreeSnoc(done, e, k);
      }
      assert n == c;
    }
  }

  /** The id dictionary followed by `calculate_degree_centrality`: every id gets
      exactly the number of edges leaving and entering it. */
  method CalculateDegreeCentrality(elements: seq<Element>) returns (degrees: map<string, Degree>)
    requires EndpointsKnown(elements)
    ensures forall k :: k in degrees <==> FactorExists(k, elements)
    ensures forall k :: k in degrees ==> degrees[k] == DegreeOf(elements, k)
  {
    var ids := Ids(elements);
    degrees := map k | k in ids :: Degree(0, 0);
    ghost var done: seq<Element> := [];
    CountedStart(ids);
    var i := 0;
    while i < |elements|
      invariant 0 <= i <= |elements|
      invariant done == elements[..i]
      invariant degrees == Counted(ids, done)
    {
      assert elements[i] in elements;
      degrees := TallyDegree(ids, done, elements[i], degrees);
      done := done + [elements[i]];
      i := i + 1;
    }
    assert done == elements;
  }

  lemma CountedStart(ids: seq<string>)
    ensures Counted(ids, []) == map k | k in ids :: Degree(0, 0)
  {
  }

  /** One iteration of `calculate_degree_centrality`: an edge bumps `out` of its
      source, then `in` of its target. */
  method TallyDegree(ghost ids: seq<string>, ghost done: seq<Element>, e: Element, degrees: map<string, Degree>)
    returns (degrees': map<string, Degree>)
    requires e.Edge? ==> e.src in ids && e.tgt in ids
    requires degrees == Counted(ids, done)
    ensures degrees' == Counted(ids, done + [e])
  {
    CountedSnoc(ids, done, e);
    degrees' := degrees;
    if e.Edge? {
      var ds := degrees'[e.src];
      degrees' := degrees'[e.src := Degree(ds.out + 1, ds.inn)];
      var dt := degrees'[e.tgt];
      degrees' := degrees'[e.tgt := Degree(dt.out, dt.inn + 1)];
    }
  }

  /** The key order of the out-degree dictionary of app_ver01.py and app_02.py
      once the loop has seen `done`: the ids, then each edge source that is not
      yet a key. */
  function OutKeyOrder(ids: seq<string>, done: seq<Element>): seq<string> {
    if done == [] then Dedup(ids)
    else
      var prior := OutKeyOrder(ids, done[..|done| - 1]);
      var last := done[|done| - 1];
      if last.Edge? && last.src !in prior then prior + [last.src] else prior
  }

  /** The out-degree dictionary once the loop has seen `done`. */
  function OutCounted(ids: seq<string>, done: seq<Element>): map<string, nat> {
    map k | k in OutKeyOrder(ids, done) :: OutCount(done, k)
  }

  lemma OutKeyOrderSnoc(ids: seq<string>, done: seq<Element>, e: Element)
    ensures OutKeyOrder(ids, done + [e])
         == OutKeyOrder(ids, done) + (if e.Edge? && e.src !in OutKeyOrder(ids, done) then [e.src] else [])
  {
    assert (done + [e])[..|done + [e]| - 1] == done;
  }

  /** A factor that never became a key has no outgoing edge. */
  lemma {:induction false} NotKeyNoOut(ids: seq<string>, done: seq<Element>, k: string)
    requires k !in OutKeyOrder(ids, done)
    ensures OutCount(done, k) == 0
  {
    if done != [] {
      var init := done[..|done| - 1];
      var last := done[|done| - 1];
      assert done == init + [last];
      OutKeyOrderSnoc(ids, init, last);
      CountsSnoc(init, last);
      NotKeyNoOut(ids, init, k);
    }
  }

  /** Counting one more edge with `.get(source, 0) + 1`. */
  lemma OutCountedSnoc(ids: seq<string>, done: seq<Element>, e: Element)
    ensures e.Edge? ==>
      var c := OutCounted(ids, done);
      OutCounted(ids, done + [e]) == c[e.src := (if e.src in c then c[e.src] else 0) + 1]
    ensures !e.Edge? ==> OutCounted(ids, done + [e]) == OutCounted(ids, done)
  {
    OutKeyOrderSnoc(ids, done, e);
    var c := OutCounted(ids, done);
    var n := OutCounted(ids, done + [e]);
    if e.Edge? {
      var c1 := c[e.src := (if e.src in c then c[e.src] else 0) + 1];
      if e.src !in OutKeyOrder(ids, done) {
        NotKeyNoOut(ids, done, e.src);
      }
      assert n.Keys == c1.Keys;
      forall k | k in n ensures n[k] == c1[k] {
        DegreeSnoc(done, e, k);
      }
      assert n == c1;
    } else {
      assert n.Keys == c.Keys;
      forall k | k in n ensures n[k] == c[k] {
        DegreeSnoc(done, e, k);
      }
      assert n == c;
    }
  }

  /** The loop's key order is the first occurrence of every id and every source. */
  lemma {:induction false} OutKeyOrderIsDedup(ids: seq<string>, done: seq<Element>)
    ensures OutKeyOrder(ids, done) == Dedup(ids + Sources(done))
  {
    if done == [] {
      assert ids + Sources(done) == ids;
    } else {
      var init := done[..|done| - 1];
      var last := done[|done| - 1];
      assert done == init + [last];
      OutKeyOrderIsDedup(ids, init);
      OutKeyOrderSnoc(ids, init, last);
      SourcesSnoc(init, last);
      var seen := ids + Sources(init);
      if last.Edge? {
        assert ids + Sources(done) == seen + [last.src];
        DedupSnoc(seen, last.src);
      } else {
        assert ids + Sources(done) == seen;
      }
    }
  }

  /** The out-degree loop of app_ver01.py and app_02.py, which starts from the
      ids and adds unknown sources with `.get(source, 0) + 1`: it ends with the
      keys in `OutDegreeKeys` order, each mapped to its number of outgoing edges. */
  method CountOutDegrees(elements: seq<Element>) returns (keys: seq<string>, outDegrees: map<string, nat>)
    ensures keys == OutDegreeKeys(elements)
    ensures forall k :: k in outDegrees <==> k in keys
    ensures forall k :: k in outDegrees ==> outDegrees[k] == OutCount(elements, k)
  {
    var ids := Ids(elements);
    keys := Dedup(ids);
    outDegrees := map k | k in keys :: 0;
    ghost var done: seq<Element> := [];
    var i := 0;
    while i < |elements|
      invariant 0 <= i <= |elements|
      invariant done == elements[..i]
      invariant keys == OutKeyOrder(ids, done)
      invariant outDegrees == OutCounted(ids, done)
    {
      keys, outDegrees := TallyOut(ids, done, elements[i], keys, outDegrees);
      done := done + [elements[i]];
      i := i + 1;
    }
    assert done == elements;
    OutKeyOrderIsDedup(ids, elements);
  }

  /** One iteration of the out-degree loop. */
  method TallyOut(ghost ids: seq<string>, ghost done: seq<Element>, e: Element, keys: seq<string>, m: map<string, nat>)
    returns (keys': seq<string>, m': map<string, nat>)
    requires keys == OutKeyOrder(ids, done)
    requires m == OutCounted(ids, done)
    ensures keys' == OutKeyOrder(ids, done + [e])
    ensures m' == OutCounted(ids, done + [e])
  {
    OutKeyOrderSnoc(ids, done, e);
    OutCountedSnoc(ids, done, e);
    keys', m' := keys, m;
    if e.Edge? {
      var prior := if e.src in m then m[e.src] else 0;
      if e.src !in m {
        keys' := keys + [e.src];
      }
      m' := m[e.src := prior + 1];
    }
  }

  /** The sum of the out-degrees of `keys`. */
  function SumOut(elements: seq<Element>, keys: seq<string>): nat {
    if keys == [] then 0 else OutCount(elements, keys[0]) + SumOut(elements, keys[1..])
  }

  /** The sum of the in-degrees of `keys`. */
  function SumIn(elements: seq<Element>, keys: seq<string>): nat {
    if keys == [] then 0 else InCount(elements, keys[0]) + SumIn(elements, keys[1..])
  }

  lemma {:induction false} SumsOfNothing(keys: seq<string>)
    ensures SumOut([], keys) == 0 && SumIn([], keys) == 0
  {
    if keys != [] {
      SumsOfNothing(keys[1..]);
    }
  }

  /** Appending one element raises the sums by one exactly when it is an edge
      whose endpoint is among the (distinct) keys. */
  lemma {:induction false} SumsSnoc(elements: seq<Element>, e: Element, keys: seq<string>)
    requires Distinct(keys)
    ensures SumOut(elements + [e], keys) == SumOut(elements, keys) + (if e.Edge? && e.src in keys then 1 else 0)
    ensures SumIn(elements + [e], keys) == SumIn(elements, keys) + (if e.Edge? && e.tgt in keys then 1 else 0)
  {
    if keys != [] {
      assert (elements + [e])[..|elements + [e]| - 1] == elements;
      assert Distinct(keys[1..]);
      SumsSnoc(elements, e, keys[1..]);
      assert forall x :: x in keys <==> x == keys[0] || x in keys[1..];
      assert keys[0] !in keys[1..];
    }
  }

  /** When distinct keys cover every endpoint, the out-degrees and the
      in-degrees both add up to the number of edges. */
  lemma {:induction false} SumsAreEdgeCount(elements: seq<Element>, keys: seq<string>)
    requires Distinct(keys)
    requires forall e :: e in elements && e.Edge? ==> e.src in keys && e.tgt in keys
    ensures SumOut(elements, keys) == EdgeCount(elements)
    ensures SumIn(elements, keys) == EdgeCount(elements)
  {
    if elements == [] {
      SumsOfNothing(keys);
    } else {
      var init := elements[..|elements| - 1];
      var last := elements[|elements| - 1];
      assert elements == init + [last];
      assert forall e :: e in init ==> e in elements;
      SumsAreEdgeCount(init, keys);
      SumsSnoc(init, last, keys);
      assert last in elements;
    }
  }

  /** Over the degree dictionary of a graph without dangling edges, the sum of all
      `out` counts equals the sum of all `in` counts equals the number of edges. */
  lemma DegreeSumsMatch(elements: seq<Element>)
    requires EndpointsKnown(elements)
    ensures SumOut(elements, DegreeKeys(elements)) == EdgeCount(elements)
    ensures SumIn(elements, DegreeKeys(elements)) == EdgeCount(elements)
  {
    SumsAreEdgeCount(elements, DegreeKeys(elements));
  }

  /** A self-loop adds one to both counts of its factor. */
  lemma SelfLoopCountsBothWays(elements: seq<Element>, x: string, eid: Option<string>)
    ensures DegreeOf(elements + [Edge(x, x, eid)], x) == Degree(OutCount(elements, x) + 1, InCount(elements, x) + 1)
  {
    CountsSnoc(elements, Edge(x, x, eid));
  }

  /** The graph A→B, A→C: A has out 2 and in 0, B and C have out 0 and in 1. */
  lemma TwoEdgesFromA()
    ensures var g := [Node("A", "A"), Node("B", "B"), Node("C", "C"), Edge("A", "B", None), Edge("A", "C", None)];
      && DegreeOf(g, "A") == Degree(2, 0)
      && DegreeOf(g, "B") == Degree(0, 1)
      && DegreeOf(g, "C") == Degree(0, 1)
  {
    var g0: seq<Element> := [];
    var g1 := g0 + [Node("A", "A")];
    var g2 := g1 + [Node("B", "B")];
    var g3 := g2 + [Node("C", "C")];
    var g4 := g3 + [Edge("A", "B", None)];
    var g5 := g4 + [Edge("A", "C", None)];
    CountsSnoc(g0, Node("A", "A"));
    CountsSnoc(g1, Node("B", "B"));
    CountsSnoc(g2, Node("C", "C"));
    CountsSnoc(g3, Edge("A", "B", None));
    CountsSnoc(g4, Edge("A", "C", None));
    assert g5 == [Node("A", "A"), Node("B", "B"), Node("C", "C"), Edge("A", "B", None), Edge("A", "C", None)];
  }

  /** `out / in`, or 0 when nothing enters the factor. */
  function Ratio(d: Degree): (r: real)
    ensures d.inn == 0 ==> r == 0.0
    ensures d.inn != 0 ==> r * (d.inn as real) == d.out as real
    ensures r >= 0.0
  {
    if d.inn != 0 then (d.out as real) / (d.inn as real) else 0.0
  }

  /** The value `computed_degrees[id]` of a centrality scheme. */
  function Metric(kind: Scheme, d: Degree): real
    requires IsCentrality(kind)
  {
    if kind == OutDegree then d.out as real
    else if kind == InDegree then d.inn as real
    else Ratio(d)
  }

  /** `computed_degrees.values()`, in key order. */
  function MetricValues(kind: Scheme, elements: seq<Element>, keys: seq<string>): (vals: seq<real>)
    requires IsCentrality(kind)
  {
    seq(|keys|, i requires 0 <= i < |keys| => Metric(kind, DegreeOf(elements, keys[i])))
  }

  /** `(min, max)` of the values, or `(0, 1)` when there are none. */
  function Bounds(vals: seq<real>): (b: (real, real))
    ensures |vals| > 0 ==> b.0 in vals && b.1 in vals
    ensures forall x :: x in vals ==> b.0 <= x <= b.1
    ensures |vals| == 0 ==> b == (0.0, 1.0)
  {
    if |vals| > 0 then (Min(vals), Max(vals)) else (0.0, 1.0)
  }
}

=== FILE: edit_engine.dfy ===
/** The edit engine of functions.py: rebuilding the map from the selected
    factors, and replacing the causal chains and vicious cycles of the
    wizard while protecting the edges the other kind of group still implies.

    Python mutates the element list in place; here every operation returns the
    new list. A dropdown value that is `None` is modelled as the empty list,
    which every reader of it (`... or []`, `if chain is not None`,
    `range(len(chain) - 1)`) treats the same way. */
module EditEngine {
  import opened Seqs
  import opened Graph

  /** A directed pair `(source, target)`. */
  type Pair = (string, string)

  /** The parts of the session store the engine reads and writes. `edges` holds
      the stored `"source->target"` keys, split into their two names. */
  datatype Session = Session(
    elements: seq<Element>,
    edges: seq<Pair>,
    initial: seq<string>,
    chain1: seq<string>,
    chain2: seq<string>,
    cycle1: seq<string>,
    cycle2: seq<string>)

  function NotJoining(source: string, target: string): Element -> bool {
    e => !Joins(e, source, target)
  }

  /** `delete_edge`: every edge element from `source` to `target` goes, every
      other element stays, in order. (Its `existing_edges.discard((source, target))`
      looks for a pair in a set of strings and never removes anything.) */
  function DeleteEdge(source: string, target: string, elements: seq<Element>): (r: seq<Element>)
    ensures forall e :: e in r <==> e in elements && !Joins(e, source, target)
    ensures IsSubseq(r, elements)
    ensures !HasEdge(r, source, target)
  {
    FilterIsSubseq(elements, NotJoining(source, target));
    Filter(elements, NotJoining(source, target))
  }

  /** Deleting twice is deleting once. */
  lemma DeleteEdgeIdempotent(source: string, target: string, elements: seq<Element>)
    ensures DeleteEdge(source, target, DeleteEdge(source, target, elements)) == DeleteEdge(source, target, elements)
  {
    FilterIdempotent(elements, NotJoining(source, target));
  }

  /** `add_edge_new` as written: it compares the whole `data` dictionary, so
      only an edge without an id blocks the insertion, and an edge restored by
      `map_add_factors` (which carries an id) does not. */
  function AddEdgeNewAsWritten(source: string, target: string, elements: seq<Element>): (r: seq<Element>)
    ensures Edge(source, target, None) in r
    ensures HasEdge(r, source, target)
    ensures Edge(source, target, None) in elements ==> r == elements
    ensures Edge(source, target, None) !in elements ==>
      |r| == |elements| + 1 && r[..|elements|] == elements && r[|elements|] == Edge(source, target, None)
  {
    if Edge(source, target, None) in elements then
      assert Joins(Edge(source, target, None), source, target);
      elements
    else
      var r := elements + [Edge(source, target, None)];
      assert r[..|elements|] == elements;
      assert Joins(r[|elements|], source, target);
      r
  }

  /** Adding the same edge twice as written is adding it once. */
  lemma AddEdgeNewAsWrittenIdempotent(source: string, target: string, elements: seq<Element>)
    ensures AddEdgeNewAsWritten(source, target, AddEdgeNewAsWritten(source, target, elements)) == AddEdgeNewAsWritten(source, target, elements)
  {
  }

  /** The written and the intended insertion differ exactly when an edge from
      `source` to `target` is present but none of them is the id-less one. */
  lemma AddEdgeNewAsWrittenAgrees(source: string, target: string, elements: seq<Element>)
    ensures AddEdgeNewAsWritten(source, target, elements) == AddEdgeNew(source, target, elements) <==>
      (HasEdge(elements, source, target) ==> Edge(source, target, None) in elements)
  {
    if !HasEdge(elements, source, target) {
      assert Joins(Edge(source, target, None), source, target);
    }
  }

  /** The id-bearing edge A→B that `map_add_factors` restores gets an id-less
      twin from `add_edge_new`: the map then draws A→B twice. */
  lemma AddEdgeNewAsWrittenDuplicates()
    ensures var before := [Node("A", "A"), Node("B", "B"), Edge("A", "B", Some(EdgeKey("A", "B")))];
      && Simple(before)
      && HasEdge(before, "A", "B")
      && !Simple(AddEdgeNewAsWritten("A", "B", before))
  {
    var before := [Node("A", "A"), Node("B", "B"), Edge("A", "B", Some(EdgeKey("A", "B")))];
    assert Joins(before[2], "A", "B");
    assert Edge("A", "B", None) != before[2];
    assert Edge("A", "B", None) !in before;
    var after := AddEdgeNewAsWritten("A", "B", before);
    assert after[2].Edge? && after[3].Edge? && (after[2].src, after[2].tgt) == (after[3].src, after[3].tgt);
  }

  /** `add_edge_new` as intended: an edge from `source` to `target` is appended
      only when none exists yet, so afterwards exactly the old elements plus at
      most that one edge are present. */
  function AddEdgeNew(source: string, target: string, elements: seq<Element>): (r: seq<Element>)
    ensures HasEdge(r, source, target)
    ensures HasEdge(elements, source, target) ==> r == elements
    ensures !HasEdge(elements, source, target) ==> |r| == |elements| + 1 && r[..|elements|] == elements && r[|elements|] == Edge(source, target, None)
  {
    if HasEdge(elements, source, target) then elements
    else
      assert Joins((elements + [Edge(source, target, None)])[|elements|], source, target);
      assert (elements + [Edge(source, target, None)])[..|elements|] == elements;
      elements + [Edge(source, target, None)]
  }

  /** Adding the same edge twice is adding it once. */
  lemma AddEdgeNewIdempotent(source: string, target: string, elements: seq<Element>)
    ensures AddEdgeNew(source, target, AddEdgeNew(source, target, elements)) == AddEdgeNew(source, target, elements)
  {
  }

  /** A map without parallel edges stays without them. */
  lemma AddEdgeNewKeepsSimple(source: string, target: string, elements: seq<Element>)
    ensures Simple(elements) ==> Simple(AddEdgeNew(source, target, elements))
  {
    if Simple(elements) && !HasEdge(elements, source, target) {
      var r := AddEdgeNew(source, target, elements);
      forall i, j | 0 <= i < j < |r| && r[i].Edge? && r[j].Edge?
        ensures (r[i].src, r[i].tgt) != (r[j].src, r[j].tgt)
      {
        if j == |elements| {
          assert r[i] == elements[i];
          assert !Joins(elements[i], source, target);
        } else {
          assert r[i] == elements[i] && r[j] == elements[j];
        }
      }
    }
  }

  /** The consecutive pairs `(xs[i], xs[i + 1])` of a chain. */
  function ConsecutivePairs(xs: seq<string>): (ps: seq<Pair>)
    ensures |ps| == if |xs| == 0 then 0 else |xs| - 1
    ensures forall i :: 0 <= i < |ps| ==> ps[i] == (xs[i], xs[i + 1])
  {
    if |xs| < 2 then [] else seq(|xs| - 1, i requires 0 <= i < |xs| - 1 => (xs[i], xs[i + 1]))
  }

  /** The pairs of a closed cycle: the consecutive pairs and the closing pair
      from the last entry back to the first, which for one entry is the self-loop. */
  function CyclePairs(xs: seq<string>): (ps: seq<Pair>)
    ensures |ps| == |xs|
    ensures forall i :: 0 <= i < |xs| - 1 ==> ps[i] == (xs[i], xs[i + 1])
    ensures |xs| > 0 ==> ps[|xs| - 1] == (xs[|xs| - 1], xs[0])
  {
    seq(|xs|, i requires 0 <= i < |xs| => (xs[i], if i == |xs| - 1 then xs[0] else xs[i + 1]))
  }

  /** A cycle implies every pair the same entries would imply as a chain. */
  lemma ChainPairsInCycle(xs: seq<string>)
    ensures forall p :: p in ConsecutivePairs(xs) ==> p in CyclePairs(xs)
  {
    var cs := ConsecutivePairs(xs);
    var ys := CyclePairs(xs);
    forall p | p in cs ensures p in ys {
      var i :| 0 <= i < |cs| && cs[i] == p;
      assert ys[i] == p;
    }
  }

  /** The edge elements whose pair is listed. */
  predicate Outside(e: Element, pairs: seq<Pair>) {
    !(e.Edge? && (e.src, e.tgt) in pairs)
  }

  function OutsideOf(pairs: seq<Pair>): Element -> bool {
    e => Outside(e, pairs)
  }

  /** The reference for a batch of deletions: drop, in one pass, every edge whose pair is listed. */
  function RemovePairs(elements: seq<Element>, pairs: seq<Pair>): (r: seq<Element>)
    ensures forall e :: e in r <==> e in elements && Outside(e, pairs)
    ensures IsSubseq(r, elements)
  {
    FilterIsSubseq(elements, OutsideOf(pairs));
    Filter(elements, OutsideOf(pairs))
  }

  /** The deletion loop of the group removals: one `elements[:] = [...]` pass per pair, in order. */
  function DeleteEach(elements: seq<Element>, pairs: seq<Pair>): seq<Element>
    decreases |pairs|
  {
    if pairs == [] then elements
    else DeleteEach(DeleteEdge(pairs[0].0, pairs[0].1, elements), pairs[1..])
  }

  /** Deleting pair after pair is one filter by all of them. */
  lemma {:induction false} DeleteEachIsRemovePairs(elements: seq<Element>, pairs: seq<Pair>)
    ensures DeleteEach(elements, pairs) == RemovePairs(elements, pairs)
    decreases |pairs|
  {
    if pairs == [] {
      FilterKeepsAll(elements, OutsideOf(pairs));
    } else {
      var p, rest := pairs[0], pairs[1..];
      DeleteEachIsRemovePairs(DeleteEdge(p.0, p.1, elements), rest);
      assert forall q :: q in pairs <==> q == p || q in rest by {
        assert pairs == [p] + rest;
      }
      FilterFilter(elements, NotJoining(p.0, p.1), OutsideOf(rest), OutsideOf(pairs));
    }
  }

  /** The pairs of `group` that `shielded` does not protect, in group order. */
  function Unprotected(group: seq<Pair>, shielded: seq<Pair>): (r: seq<Pair>)
    ensures forall p :: p in r <==> p in group && p !in shielded
  {
    Filter(group, p => p !in shielded)
  }

  /** The loop shared by `remove_chain_edges` and `remove_cycle_edges`: every
      pair of `group` outside `shielded` loses all its edge elements. */
  function RemoveGroupEdges(group: seq<Pair>, elements: seq<Element>, shielded: seq<Pair>): (r: seq<Element>)
    ensures forall e :: e in r <==> e in elements && (Outside(e, group) || !Outside(e, shielded))
    ensures IsSubseq(r, elements)
    ensures r == RemovePairs(elements, Unprotected(group, shielded))
  {
    var doomed := Unprotected(group, shielded);
    DeleteEachIsRemovePairs(elements, doomed);
    DeleteEach(elements, doomed)
  }

  /** Dropping elements never makes two edges parallel. */
  lemma {:induction false} FilterKeepsSimple(elements: seq<Element>, p: Element -> bool)
    requires Simple(elements)
    ensures Simple(Filter(elements, p))
    decreases |elements|
  {
    if elements != [] {
      var tail := elements[1..];
      SimpleSplit(elements);
      FilterKeepsSimple(tail, p);
      var rest := Filter(tail, p);
      if p(elements[0]) {
        assert Filter(elements, p) == [elements[0]] + rest;
        SimpleCons(elements[0], rest);
      }
    }
  }

  /** The tail of a simple map is simple, and its edges all differ from the head's. */
  lemma SimpleSplit(elements: seq<Element>)
    requires Simple(elements) && elements != []
    ensures Simple(elements[1..])
    ensures forall x :: x in elements[1..] && x.Edge? && elements[0].Edge? ==> (x.src, x.tgt) != (elements[0].src, elements[0].tgt)
  {
    var tail := elements[1..];
    forall i, j | 0 <= i < j < |tail| && tail[i].Edge? && tail[j].Edge?
      ensures (tail[i].src, tail[i].tgt) != (tail[j].src, tail[j].tgt)
    {
      assert tail[i] == elements[i + 1] && tail[j] == elements[j + 1];
    }
    forall x | x in tail && x.Edge? && elements[0].Edge?
      ensures (x.src, x.tgt) != (elements[0].src, elements[0].tgt)
    {
      var k :| 0 <= k < |tail| && tail[k] == x;
      assert elements[k + 1] == x;
    }
  }

  /** Putting in front of a simple map an element whose pair none of its edges
      has keeps it simple. */
  lemma SimpleCons(e: Element, rest: seq<Element>)
    requires Simple(rest)
    requires forall x :: x in rest && x.Edge? && e.Edge? ==> (x.src, x.tgt) != (e.src, e.tgt)
    ensures Simple([e] + rest)
  {
    var r := [e] + rest;
    forall i, j | 0 <= i < j < |r| && r[i].Edge? && r[j].Edge?
      ensures (r[i].src, r[i].tgt) != (r[j].src, r[j].tgt)
    {
      assert r[j] == rest[j - 1];
      if i > 0 {
        assert r[i] == rest[i - 1];
      }
    }
  }

  /** A group removal keeps a map without parallel edges without them. */
  lemma RemoveGroupEdgesKeepsSimple(group: seq<Pair>, elements: seq<Element>, shielded: seq<Pair>)
    requires Simple(elements)
    ensures Simple(RemoveGroupEdges(group, elements, shielded))
  {
    FilterKeepsSimple(elements, OutsideOf(Unprotected(group, shielded)));
  }

  /** Removing edges keeps every node, hence a map whose edges run between nodes stays one. */
  lemma RemoveGroupEdgesKeepsNodes(group: seq<Pair>, elements: seq<Element>, shielded: seq<Pair>)
    ensures forall x :: NodeExists(x, RemoveGroupEdges(group, elements, shielded)) <==> NodeExists(x, elements)
    ensures EndpointsAreNodes(elements) ==> EndpointsAreNodes(RemoveGroupEdges(group, elements, shielded))
  {
    var r := RemoveGroupEdges(group, elements, shielded);
    forall x | NodeExists(x, elements) ensures NodeExists(x, r) {
      var n :| n in elements && n.Node? && n.id == x;
      assert n in r;
    }
  }

  /** `remove_chain_edges` as written: the cycles shield only their consecutive
      pairs, not the closing pair from the last entry back to the first. */
  function RemoveChainEdgesAsWritten(chain: seq<string>, elements: seq<Element>, cycle1: seq<string>, cycle2: seq<string>): (r: seq<Element>)
    ensures forall e :: e in r <==>
      e in elements && (Outside(e, ConsecutivePairs(chain)) || !Outside(e, ConsecutivePairs(cycle1) + ConsecutivePairs(cycle2)))
    ensures IsSubseq(r, elements)
  {
    RemoveGroupEdges(ConsecutivePairs(chain), elements, ConsecutivePairs(cycle1) + ConsecutivePairs(cycle2))
  }

  /** With the cycle A→B→A stored, replacing a chain B→A deletes the cycle's
      closing edge B→A, although the cycle still implies it. */
  lemma RemoveChainEdgesAsWrittenDropsClosingEdge()
    ensures var elements := [Node("A", "A"), Node("B", "B"), Edge("A", "B", None), Edge("B", "A", None)];
      && Edge("B", "A", None) in elements
      && ("B", "A") in CyclePairs(["A", "B"])
      && Edge("B", "A", None) !in RemoveChainEdgesAsWritten(["B", "A"], elements, ["A", "B"], [])
  {
    var cycle := CyclePairs(["A", "B"]);
    assert cycle[1] == ("B", "A");
    assert ConsecutivePairs(["B", "A"]) == [("B", "A")];
    assert ConsecutivePairs(["A", "B"]) == [("A", "B")];
    assert ConsecutivePairs([]) == [];
    assert ("B", "A") !in [("A", "B")];
  }

  /** `remove_chain_edges` as intended: every pair a stored cycle implies,
      the closing pair included, is shielded. */
  function RemoveChainEdges(chain: seq<string>, elements: seq<Element>, cycle1: seq<string>, cycle2: seq<string>): (r: seq<Element>)
    ensures forall e :: e in r <==>
      e in elements && (Outside(e, ConsecutivePairs(chain)) || !Outside(e, CyclePairs(cycle1) + CyclePairs(cycle2)))
    ensures IsSubseq(r, elements)
  {
    RemoveGroupEdges(ConsecutivePairs(chain), elements, CyclePairs(cycle1) + CyclePairs(cycle2))
  }

  /** No edge a stored cycle implies is lost when a chain is replaced. */
  lemma RemoveChainEdgesKeepsCycles(chain: seq<string>, elements: seq<Element>, cycle1: seq<string>, cycle2: seq<string>)
    ensures forall e :: e in elements && e.Edge? && (e.src, e.tgt) in CyclePairs(cycle1) + CyclePairs(cycle2) ==>
      e in RemoveChainEdges(chain, elements, cycle1, cycle2)
  {
  }

  /** `remove_cycle_edges`: the closed cycle's pairs lose their edges, except
      those a stored chain implies. */
  function RemoveCycleEdges(cycle: seq<string>, elements: seq<Element>, chain1: seq<string>, chain2: seq<string>): (r: seq<Element>)
    ensures forall e :: e in r <==>
      e in elements && (Outside(e, CyclePairs(cycle)) || !Outside(e, ConsecutivePairs(chain1) + ConsecutivePairs(chain2)))
    ensures IsSubseq(r, elements)
  {
    RemoveGroupEdges(CyclePairs(cycle), elements, ConsecutivePairs(chain1) + ConsecutivePairs(chain2))
  }

  /** One step of the insertion loops: `add_edge_new` when both endpoints pass `factor_exists`. */
  function AddIfKnown(p: Pair, elements: seq<Element>): (r: seq<Element>)
    ensures |elements| <= |r| && r[..|elements|] == elements
    ensures Ids(r) == Ids(elements)
    ensures forall x :: NodeExists(x, r) <==> NodeExists(x, elements)
    ensures FactorExists(p.0, elements) && FactorExists(p.1, elements) ==> HasEdge(r, p.0, p.1)
    ensures forall e :: e in r && e !in elements ==>
      e == Edge(p.0, p.1, None) && FactorExists(p.0, elements) && FactorExists(p.1, elements)
  {
    if FactorExists(p.0, elements) && FactorExists(p.1, elements) then
      var r := AddEdgeNewAsWritten(p.0, p.1, elements);
      assert r == elements || (r[..|r| - 1] == elements && r[|r| - 1] == Edge(p.0, p.1, None));
      assert forall e :: e in r ==> e in elements || e == Edge(p.0, p.1, None);
      r
    else elements
  }

  /** The step with the intended `add_edge_new`. */
  function AddIfKnownIntended(p: Pair, elements: seq<Element>): (r: seq<Element>)
    ensures |elements| <= |r| && r[..|elements|] == elements
    ensures FactorExists(p.0, elements) && FactorExists(p.1, elements) ==> HasEdge(r, p.0, p.1)
    ensures Simple(elements) ==> Simple(r)
  {
    if FactorExists(p.0, elements) && FactorExists(p.1, elements) then
      AddEdgeNewKeepsSimple(p.0, p.1, elements);
      AddEdgeNew(p.0, p.1, elements)
    else elements
  }

  /** The insertion loops of `map_add_chains` and `map_add_cycles`. */
  function AddPairs(elements: seq<Element>, pairs: seq<Pair>): (r: seq<Element>)
    ensures |elements| <= |r| && r[..|elements|] == elements
    decreases |pairs|
  {
    if pairs == [] then elements
    else
      var next := AddIfKnown(pairs[0], elements);
      var r := AddPairs(next, pairs[1..]);
      assert r[..|elements|] == next[..|elements|];
      r
  }

  /** The insertion loops keep the ids and the nodes. */
  lemma {:induction false} AddPairsKeepsIds(elements: seq<Element>, pairs: seq<Pair>)
    ensures Ids(AddPairs(elements, pairs)) == Ids(elements)
    ensures forall x :: NodeExists(x, AddPairs(elements, pairs)) <==> NodeExists(x, elements)
    decreases |pairs|
  {
    if pairs != [] {
      var next := AddIfKnown(pairs[0], elements);
      assert AddPairs(elements, pairs) == AddPairs(next, pairs[1..]);
      AddPairsKeepsIds(next, pairs[1..]);
    }
  }

  /** Adding never changes which factors exist. */
  lemma AddPairsKeepsFactors(elements: seq<Element>, pairs: seq<Pair>)
    ensures forall x :: FactorExists(x, AddPairs(elements, pairs)) <==> FactorExists(x, elements)
  {
    AddPairsKeepsIds(elements, pairs);
    assert forall x :: x in Ids(AddPairs(elements, pairs)) <==> x in Ids(elements);
  }

  /** Every listed pair whose endpoints are known gets an edge. */
  lemma {:induction false} AddPairsDrawsKnown(elements: seq<Element>, pairs: seq<Pair>)
    ensures forall p :: p in pairs && FactorExists(p.0, elements) && FactorExists(p.1, elements) ==>
      HasEdge(AddPairs(elements, pairs), p.0, p.1)
    decreases |pairs|
  {
    if pairs != [] {
      var p, rest := pairs[0], pairs[1..];
      var next := AddIfKnown(p, elements);
      var r := AddPairs(elements, pairs);
      assert r == AddPairs(next, rest);
      AddPairsDrawsKnown(next, rest);
      AddPairsKeepsFactors(elements, [p]);
      assert AddPairs(elements, [p]) == AddPairs(next, []);
      assert forall q :: q in pairs ==> q == p || q in rest by {
        assert pairs == [p] + rest;
      }
      PrefixMembers(next, r);
    }
  }

  /** Each new element is an id-less edge of a listed pair with known endpoints. */
  lemma {:induction false} AddPairsAddsOnly(elements: seq<Element>, pairs: seq<Pair>)
    ensures forall e :: e in AddPairs(elements, pairs) && e !in elements ==>
      e.Edge? && e.eid == None && (e.src, e.tgt) in pairs && FactorExists(e.src, elements) && FactorExists(e.tgt, elements)
    decreases |pairs|
  {
    if pairs != [] {
      var p, rest := pairs[0], pairs[1..];
      var next := AddIfKnown(p, elements);
      assert AddPairs(elements, pairs) == AddPairs(next, rest);
      AddPairsAddsOnly(next, rest);
      AddPairsKeepsFactors(elements, [p]);
      assert AddPairs(elements, [p]) == AddPairs(next, []);
      assert forall q :: q in rest ==> q in pairs by {
        assert pairs == [p] + rest;
      }
    }
  }

  /** Edges keep running between known ids. */
  lemma {:induction false} AddPairsKeepsKnown(elements: seq<Element>, pairs: seq<Pair>)
    requires EndpointsKnown(elements)
    ensures EndpointsKnown(AddPairs(elements, pairs))
    decreases |pairs|
  {
    if pairs != [] {
      var next := AddIfKnown(pairs[0], elements);
      assert AddPairs(elements, pairs) == AddPairs(next, pairs[1..]);
      AddPairsKeepsFactors(elements, [pairs[0]]);
      assert AddPairs(elements, [pairs[0]]) == AddPairs(next, []);
      assert EndpointsKnown(next);
      AddPairsKeepsKnown(next, pairs[1..]);
    }
  }

  /** The insertion loops with the intended `add_edge_new`. */
  function AddPairsIntended(elements: seq<Element>, pairs: seq<Pair>): (r: seq<Element>)
    ensures |elements| <= |r| && r[..|elements|] == elements
    decreases |pairs|
  {
    if pairs == [] then elements
    else
      var next := AddIfKnownIntended(pairs[0], elements);
      var r := AddPairsIntended(next, pairs[1..]);
      assert r[..|elements|] == next[..|elements|];
      r
  }

  /** With the intended insertion, adding pairs never creates a parallel edge. */
  lemma {:induction false} AddPairsIntendedKeepsSimple(elements: seq<Element>, pairs: seq<Pair>)
    requires Simple(elements)
    ensures Simple(AddPairsIntended(elements, pairs))
    decreases |pairs|
  {
    if pairs != [] {
      AddPairsIntendedKeepsSimple(AddIfKnownIntended(pairs[0], elements), pairs[1..]);
    }
  }

  /** `map_add_chains`: the previous chains lose their edges (except those a
      stored cycle implies), the pairs of the new chains are added between
      known factors, and the dropdowns remember the new chains. */
  function MapAddChains(s: Session, chain1: seq<string>, chain2: seq<string>): (r: Session)
    ensures r == s.(elements := r.elements, chain1 := chain1, chain2 := chain2)
  {
    var cleared := RemoveChainEdgesAsWritten(s.chain2, RemoveChainEdgesAsWritten(s.chain1, s.elements, s.cycle1, s.cycle2), s.cycle1, s.cycle2);
    s.(elements := AddPairs(cleared, ConsecutivePairs(chain1) + ConsecutivePairs(chain2)), chain1 := chain1, chain2 := chain2)
  }

  /** What replacing the chains does to the map: the nodes stay; an element
      disappears only when it is an edge of a previous chain that no stored
      cycle implies; every new chain pair between two nodes gets an edge; each
      new element is an id-less edge of a new chain pair; and a map whose edges
      run between nodes keeps every endpoint known. */
  lemma MapAddChainsSpec(s: Session, chain1: seq<string>, chain2: seq<string>)
    ensures var r := MapAddChains(s, chain1, chain2).elements;
      var previous := ConsecutivePairs(s.chain1) + ConsecutivePairs(s.chain2);
      var implied := ConsecutivePairs(s.cycle1) + ConsecutivePairs(s.cycle2);
      var added := ConsecutivePairs(chain1) + ConsecutivePairs(chain2);
      && (forall x :: NodeExists(x, r) <==> NodeExists(x, s.elements))
      && (forall e :: e in s.elements && e !in r ==> !Outside(e, previous) && Outside(e, implied))
      && (forall p :: p in added && NodeExists(p.0, s.elements) && NodeExists(p.1, s.elements) ==> HasEdge(r, p.0, p.1))
      && (forall e :: e in r && e !in s.elements ==> e.Edge? && e.eid == None && !Outside(e, added))
      && (EndpointsAreNodes(s.elements) ==> EndpointsKnown(r))
  {
    var first := RemoveChainEdgesAsWritten(s.chain1, s.elements, s.cycle1, s.cycle2);
    var cleared := RemoveChainEdgesAsWritten(s.chain2, first, s.cycle1, s.cycle2);
    var added := ConsecutivePairs(chain1) + ConsecutivePairs(chain2);
    var r := AddPairs(cleared, added);
    RegroupKeepsNodes(s.elements, first, cleared, r, added);
  }

  /** With the cycle A→B→A stored and the previous chain B→A, clearing the
      chains deletes the cycle's closing edge B→A. */
  lemma MapAddChainsDropsClosingEdge()
    ensures var s := Session([Node("A", "A"), Node("B", "B"), Edge("A", "B", None), Edge("B", "A", None)],
        [], [], ["B", "A"], [], ["A", "B"], []);
      && Edge("B", "A", None) in s.elements
      && ("B", "A") in CyclePairs(s.cycle1)
      && Edge("B", "A", None) !in MapAddChains(s, [], []).elements
  {
    var s := Session([Node("A", "A"), Node("B", "B"), Edge("A", "B", None), Edge("B", "A", None)],
      [], [], ["B", "A"], [], ["A", "B"], []);
    RemoveChainEdgesAsWrittenDropsClosingEdge();
    var first := RemoveChainEdgesAsWritten(s.chain1, s.elements, s.cycle1, s.cycle2);
    var cleared := RemoveChainEdgesAsWritten(s.chain2, first, s.cycle1, s.cycle2);
    assert ConsecutivePairs([]) + ConsecutivePairs([]) == [];
    assert MapAddChains(s, [], []).elements == AddPairs(cleared, []);
  }

  /** Clearing an empty chain removes nothing. */
  lemma RemoveNoChain(elements: seq<Element>, cycle1: seq<string>, cycle2: seq<string>)
    ensures RemoveChainEdgesAsWritten([], elements, cycle1, cycle2) == elements
  {
    var shielded := ConsecutivePairs(cycle1) + ConsecutivePairs(cycle2);
    assert Unprotected([], shielded) == [];
    FilterKeepsAll(elements, OutsideOf([]));
  }

  /** Drawing the single pair A→B over a map whose only A→B edge carries an id. */
  lemma DrawOverKeyedEdge(elements: seq<Element>)
    requires elements == [Node("A", "A"), Node("B", "B"), Edge("A", "B", Some(EdgeKey("A", "B")))]
    ensures AddPairs(elements, [("A", "B")]) == elements + [Edge("A", "B", None)]
  {
    assert ElementId(elements[0]) == Some("A") && ElementId(elements[1]) == Some("B");
    assert Edge("A", "B", None) != elements[2];
    var next := AddIfKnown(("A", "B"), elements);
    assert next == elements + [Edge("A", "B", None)];
    assert AddPairs(elements, [("A", "B")]) == AddPairs(next, []);
  }

  /** With no chains or cycles stored, drawing the chain A→B only runs the insertion loop. */
  lemma ChainOverEmptySession(s: Session)
    requires s.chain1 == s.chain2 == s.cycle1 == s.cycle2 == []
    ensures MapAddChains(s, ["A", "B"], []).elements == AddPairs(s.elements, [("A", "B")])
  {
    RemoveNoChain(s.elements, [], []);
    assert ConsecutivePairs(["A", "B"]) + ConsecutivePairs([]) == [("A", "B")];
  }

  /** With the edge A→B restored with its id, drawing the chain A→B adds an
      id-less twin: the map draws A→B twice. */
  lemma MapAddChainsDrawsTwin()
    ensures var s := Session([Node("A", "A"), Node("B", "B"), Edge("A", "B", Some(EdgeKey("A", "B")))],
        [("A", "B")], ["A", "B"], [], [], [], []);
      && Simple(s.elements)
      && !Simple(MapAddChains(s, ["A", "B"], []).elements)
  {
    var s := Session([Node("A", "A"), Node("B", "B"), Edge("A", "B", Some(EdgeKey("A", "B")))],
      [("A", "B")], ["A", "B"], [], [], [], []);
    ChainOverEmptySession(s);
    DrawOverKeyedEdge(s.elements);
    TwinNotSimple(s.elements);
  }

  /** A map whose last two elements are both A→B is not simple. */
  lemma TwinNotSimple(elements: seq<Element>)
    requires elements == [Node("A", "A"), Node("B", "B"), Edge("A", "B", Some(EdgeKey("A", "B")))]
    ensures Simple(elements) && !Simple(elements + [Edge("A", "B", None)])
  {
    var r := elements + [Edge("A", "B", None)];
    assert r[2].Edge? && r[3].Edge? && (r[2].src, r[2].tgt) == (r[3].src, r[3].tgt);
  }

  /** `map_add_chains` as intended: the cycles shield their closing pairs and
      the insertion skips pairs that already have an edge. */
  function MapAddChainsIntended(s: Session, chain1: seq<string>, chain2: seq<string>): (r: Session)
    ensures r == s.(elements := r.elements, chain1 := chain1, chain2 := chain2)
  {
    var cleared := RemoveChainEdges(s.chain2, RemoveChainEdges(s.chain1, s.elements, s.cycle1, s.cycle2), s.cycle1, s.cycle2);
    s.(elements := AddPairsIntended(cleared, ConsecutivePairs(chain1) + ConsecutivePairs(chain2)), chain1 := chain1, chain2 := chain2)
  }

  /** Replacing the chains as intended keeps every stored edge a stored cycle
      implies, closing edges included, and never draws a pair twice. */
  lemma MapAddChainsIntendedKeepsCycles(s: Session, chain1: seq<string>, chain2: seq<string>)
    ensures var r := MapAddChainsIntended(s, chain1, chain2).elements;
      && (forall e :: e in s.elements && e.Edge? && (e.src, e.tgt) in CyclePairs(s.cycle1) + CyclePairs(s.cycle2) ==> e in r)
      && (Simple(s.elements) ==> Simple(r))
  {
    var first := RemoveChainEdges(s.chain1, s.elements, s.cycle1, s.cycle2);
    var cleared := RemoveChainEdges(s.chain2, first, s.cycle1, s.cycle2);
    var r := AddPairsIntended(cleared, ConsecutivePairs(chain1) + ConsecutivePairs(chain2));
    PrefixMembers(cleared, r);
    if Simple(s.elements) {
      RemoveGroupEdgesKeepsSimple(ConsecutivePairs(s.chain1), s.elements, CyclePairs(s.cycle1) + CyclePairs(s.cycle2));
      RemoveGroupEdgesKeepsSimple(ConsecutivePairs(s.chain2), first, CyclePairs(s.cycle1) + CyclePairs(s.cycle2));
      AddPairsIntendedKeepsSimple(cleared, ConsecutivePairs(chain1) + ConsecutivePairs(chain2));
    }
  }

  /** The common tail of the chain and cycle replacements: two removal passes
      that keep every node, then the insertion loop. */
  lemma RegroupKeepsNodes(elements: seq<Element>, first: seq<Element>, cleared: seq<Element>, r: seq<Element>, added: seq<Pair>)
    requires forall e :: e in first ==> e in elements
    requires forall e :: e in cleared ==> e in first
    requires forall e: Element :: e.Node? ==> (e in first <==> e in elements)
    requires forall e: Element :: e.Node? ==> (e in cleared <==> e in first)
    requires r == AddPairs(cleared, added)
    ensures forall x :: NodeExists(x, r) <==> NodeExists(x, elements)
    ensures forall e :: e in elements && e !in r ==> e !in cleared
    ensures forall p :: p in added && NodeExists(p.0, elements) && NodeExists(p.1, elements) ==> HasEdge(r, p.0, p.1)
    ensures forall e :: e in r && e !in elements ==> e.Edge? && e.eid == None && !Outside(e, added)
    ensures EndpointsAreNodes(elements) ==> EndpointsKnown(r)
  {
    AddPairsKeepsIds(cleared, added);
    AddPairsDrawsKnown(cleared, added);
    AddPairsAddsOnly(cleared, added);
    PrefixMembers(cleared, r);
    assert forall x :: NodeExists(x, cleared) <==> NodeExists(x, elements) by {
      forall x | NodeExists(x, elements) ensures NodeExists(x, cleared) {
        var n :| n in elements && n.Node? && n.id == x;
        assert n in cleared;
      }
    }
    forall x | NodeExists(x, cleared) ensures FactorExists(x, cleared) {
      var n :| n in cleared && n.Node? && n.id == x;
      assert ElementId(n) == Some(x);
    }
    if EndpointsAreNodes(elements) {
      forall e | e in cleared && e.Edge?
        ensures NodeExists(e.src, cleared) && NodeExists(e.tgt, cleared)
      {
        assert e in elements;
      }
      NodesAreKnown(cleared);
      AddPairsKeepsKnown(cleared, added);
    }
  }

  /** `map_add_cycles`: the previous cycles lose their edges (except those a
      stored chain implies), every pair of the new closed cycles is added
      between known factors, and the dropdowns remember the new cycles. */
  function MapAddCycles(s: Session, cycle1: seq<string>, cycle2: seq<string>): (r: Session)
    ensures r == s.(elements := r.elements, cycle1 := cycle1, cycle2 := cycle2)
  {
    var cleared := RemoveCycleEdges(s.cycle2, RemoveCycleEdges(s.cycle1, s.elements, s.chain1, s.chain2), s.chain1, s.chain2);
    s.(elements := AddPairs(cleared, CyclePairs(cycle1) + CyclePairs(cycle2)), cycle1 := cycle1, cycle2 := cycle2)
  }

  /** What replacing the cycles does to the map, as for the chains; a one-entry
      cycle contributes its self-loop and a longer one its closing edge. */
  lemma MapAddCyclesSpec(s: Session, cycle1: seq<string>, cycle2: seq<string>)
    ensures var r := MapAddCycles(s, cycle1, cycle2).elements;
      var previous := CyclePairs(s.cycle1) + CyclePairs(s.cycle2);
      var implied := ConsecutivePairs(s.chain1) + ConsecutivePairs(s.chain2);
      var added := CyclePairs(cycle1) + CyclePairs(cycle2);
      && (forall x :: NodeExists(x, r) <==> NodeExists(x, s.elements))
      && (forall e :: e in s.elements && e !in r ==> !Outside(e, previous) && Outside(e, implied))
      && (forall p :: p in added && NodeExists(p.0, s.elements) && NodeExists(p.1, s.elements) ==> HasEdge(r, p.0, p.1))
      && (forall e :: e in r && e !in s.elements ==> e.Edge? && e.eid == None && !Outside(e, added))
      && (EndpointsAreNodes(s.elements) ==> EndpointsKnown(r))
  {
    var first := RemoveCycleEdges(s.cycle1, s.elements, s.chain1, s.chain2);
    var cleared := RemoveCycleEdges(s.cycle2, first, s.chain1, s.chain2);
    var added := CyclePairs(cycle1) + CyclePairs(cycle2);
    var r := AddPairs(cleared, added);
    RegroupKeepsNodes(s.elements, first, cleared, r, added);
  }

  /** `map_add_cycles` with the intended insertion. */
  function MapAddCyclesIntended(s: Session, cycle1: seq<string>, cycle2: seq<string>): (r: Session)
    ensures r == s.(elements := r.elements, cycle1 := cycle1, cycle2 := cycle2)
  {
    var cleared := RemoveCycleEdges(s.cycle2, RemoveCycleEdges(s.cycle1, s.elements, s.chain1, s.chain2), s.chain1, s.chain2);
    s.(elements := AddPairsIntended(cleared, CyclePairs(cycle1) + CyclePairs(cycle2)), cycle1 := cycle1, cycle2 := cycle2)
  }

  /** Replacing the cycles as intended never draws a pair twice. */
  lemma MapAddCyclesIntendedKeepsSimple(s: Session, cycle1: seq<string>, cycle2: seq<string>)
    requires Simple(s.elements)
    ensures Simple(MapAddCyclesIntended(s, cycle1, cycle2).elements)
  {
    var first := RemoveCycleEdges(s.cycle1, s.elements, s.chain1, s.chain2);
    var cleared := RemoveCycleEdges(s.cycle2, first, s.chain1, s.chain2);
    RemoveGroupEdgesKeepsSimple(CyclePairs(s.cycle1), s.elements, ConsecutivePairs(s.chain1) + ConsecutivePairs(s.chain2));
    RemoveGroupEdgesKeepsSimple(CyclePairs(s.cycle2), first, ConsecutivePairs(s.chain1) + ConsecutivePairs(s.chain2));
    AddPairsIntendedKeepsSimple(cleared, CyclePairs(cycle1) + CyclePairs(cycle2));
  }

  /** A one-entry cycle on a node draws its self-loop. */
  lemma MapAddCyclesSelfLoop(s: Session, x: string, cycle2: seq<string>)
    requires NodeExists(x, s.elements)
    ensures HasEdge(MapAddCycles(s, [x], cycle2).elements, x, x)
  {
    MapAddCyclesSpec(s, [x], cycle2);
    assert CyclePairs([x])[0] == (x, x);
  }

  /** Keeps a stored edge whose two ends are both selected. */
  function BothSelected(value: seq<string>): Pair -> bool {
    (p: Pair) => p.0 in value && p.1 in value
  }

  /** Keeps a severity entry unless its factor was selected before and is not now. */
  function StillScored(previous: seq<string>, value: seq<string>): ((string, real)) -> bool {
    (sc: (string, real)) => sc.0 !in previous || sc.0 in value
  }

  /** The edge elements restored from stored keys, each carrying its key as id. */
  function KeyedEdges(pairs: seq<Pair>): (r: seq<Element>)
    ensures |r| == |pairs|
    ensures forall i :: 0 <= i < |pairs| ==> r[i] == Edge(pairs[i].0, pairs[i].1, Some(EdgeKey(pairs[i].0, pairs[i].1)))
  {
    seq(|pairs|, i requires 0 <= i < |pairs| => Edge(pairs[i].0, pairs[i].1, Some(EdgeKey(pairs[i].0, pairs[i].1))))
  }

  /** The edges restored after the nodes run between two of them. */
  lemma RestoredEdgesJoinNodes(value: seq<string>, kept: seq<Pair>)
    requires forall p :: p in kept ==> p.0 in value && p.1 in value
    ensures EndpointsAreNodes(FactorNodes(value) + KeyedEdges(kept))
  {
    var nodes := FactorNodes(value);
    var r := nodes + KeyedEdges(kept);
    forall e | e in r && e.Edge?
      ensures NodeExists(e.src, r) && NodeExists(e.tgt, r)
    {
      var k :| 0 <= k < |r| && r[k] == e;
      var p := kept[k - |value|];
      assert p in kept;
      var i :| 0 <= i < |value| && value[i] == p.0;
      var j :| 0 <= j < |value| && value[j] == p.1;
      assert r[i] == nodes[i] && r[j] == nodes[j];
    }
  }

  /** The map `map_add_factors` draws: the selected factors, then the kept edges. */
  function RestoredMap(value: seq<string>, kept: seq<Pair>): (r: seq<Element>)
    requires forall p :: p in kept ==> p.0 in value && p.1 in value
    ensures |r| == |value| + |kept|
    ensures forall i :: 0 <= i < |value| ==> r[i] == Node(value[i], value[i])
    ensures forall i :: 0 <= i < |kept| ==> r[|value| + i] == Edge(kept[i].0, kept[i].1, Some(EdgeKey(kept[i].0, kept[i].1)))
    ensures EndpointsAreNodes(r)
  {
    RestoredEdgesJoinNodes(value, kept);
    FactorNodes(value) + KeyedEdges(kept)
  }

  /** `map_add_factors`: the map is rebuilt from the selected factors; the
      stored edges between two selected factors survive and are redrawn
      after the nodes; deselected factors lose their severity score; an empty
      selection empties the map and touches nothing else. */
  function MapAddFactors(s: Session, value: seq<string>, scores: Scores): (r: (Session, Scores))
    ensures r.0 == s.(elements := r.0.elements, edges := r.0.edges, initial := value)
    ensures value == [] ==> r.0.elements == [] && r.0.edges == s.edges && r.1 == scores
    ensures value != [] ==> forall p :: p in r.0.edges <==> p in s.edges && p.0 in value && p.1 in value
    ensures value != [] ==> IsSubseq(r.0.edges, s.edges)
    ensures value != [] ==> r.0.elements == RestoredMap(value, r.0.edges)
    ensures value != [] ==> forall sc :: sc in r.1 <==> sc in scores && (sc.0 !in s.initial || sc.0 in value)
    ensures value != [] ==> IsSubseq(r.1, scores)
    ensures EndpointsAreNodes(r.0.elements)
  {
    if value == [] then (s.(elements := [], initial := value), scores)
    else
      var kept := Filter(s.edges, BothSelected(value));
      FilterIsSubseq(s.edges, BothSelected(value));
      FilterIsSubseq(scores, StillScored(s.initial, value));
      (s.(elements := RestoredMap(value, kept), edges := kept, initial := value), Filter(scores, StillScored(s.initial, value)))
  }

  /** Selecting the same factors again changes nothing. */
  lemma MapAddFactorsIdempotent(s: Session, value: seq<string>, scores: Scores)
    ensures var once := MapAddFactors(s, value, scores);
      MapAddFactors(once.0, value, once.1) == once
  {
    if value != [] {
      FilterIdempotent(s.edges, BothSelected(value));
      var once := MapAddFactors(s, value, scores);
      FilterKeepsAll(once.1, StillScored(value, value));
    }
  }
}

=== FILE: encoding.dfy ===
/** The numeric visual encoding shared by every revision: min–max
    normalisation, the light-to-dark blue gradient, the 10..50 node-size
    scale and edge opacity. Python floats are modelled as exact reals. */
module Encoding {
  import opened Graph

  /** Python's `int()` on a float: truncation toward zero. */
  function Trunc(x: real): (n: int)
    ensures x >= 0.0 ==> n as real <= x < n as real + 1.0
    ensures x < 0.0 ==> n as real - 1.0 < x <= n as real
  {
    if x >= 0.0 then x.Floor else -((-x).Floor)
  }

  /** `normalize(value, max_degree, min_degree)`. */
  function Normalize(value: real, maxDegree: real, minDegree: real): (t: real)
    ensures maxDegree == minDegree ==> t == 0.5
    ensures maxDegree != minDegree ==> minDegree + t * (maxDegree - minDegree) == value
    ensures minDegree < maxDegree && minDegree <= value <= maxDegree ==> 0.0 <= t <= 1.0
  {
    if maxDegree - minDegree == 0.0 then 0.5
    else
      if minDegree < maxDegree && minDegree <= value <= maxDegree then
        UnitQuotient(value - minDegree, maxDegree - minDegree);
        (value - minDegree) / (maxDegree - minDegree)
      else
        (value - minDegree) / (maxDegree - minDegree)
  }

  lemma UnitQuotient(a: real, b: real)
    requires 0.0 <= a <= b && b > 0.0
    ensures 0.0 <= a / b <= 1.0
  {
  }

  /** The bounds themselves normalise to 0 and 1. */
  lemma NormalizeEndpoints(maxDegree: real, minDegree: real)
    requires maxDegree != minDegree
    ensures Normalize(minDegree, maxDegree, minDegree) == 0.0
    ensures Normalize(maxDegree, maxDegree, minDegree) == 1.0
  {
    var d := maxDegree - minDegree;
    assert d != 0.0;
    assert (minDegree - minDegree) / d == 0.0 / d == 0.0;
    assert (maxDegree - minDegree) / d == d / d == 1.0;
  }

  /** `get_color`: red and green fade with `t`, blue stays at 255. */
  function GetColor(t: real): (c: Color)
    ensures c.Rgb? && c.b == 255
    ensures 0.0 <= t <= 1.0 ==> 0 <= c.r <= 173 && 0 <= c.g <= 216
    ensures t == 0.0 ==> c == Rgb(173, 216, 255)
    ensures t == 1.0 ==> c == Rgb(0, 0, 255)
  {
    Rgb(Trunc(173.0 * (1.0 - t)), Trunc(216.0 * (1.0 - t)), 255)
  }

  /** `t = 0.5`, the value every node gets when all metrics are equal. */
  lemma GetColorMidpoint()
    ensures GetColor(0.5) == Rgb(86, 108, 255)
  {
    assert 173.0 * (1.0 - 0.5) == 86.5;
    assert 216.0 * (1.0 - 0.5) == 108.0;
  }

  /** A higher normalised value never gives a lighter colour. */
  lemma GetColorDarkens(t1: real, t2: real)
    requires 0.0 <= t1 <= t2 <= 1.0
    ensures GetColor(t2).r <= GetColor(t1).r
    ensures GetColor(t2).g <= GetColor(t1).g
  {
    assert 173.0 * (1.0 - t2) <= 173.0 * (1.0 - t1);
    assert 216.0 * (1.0 - t2) <= 216.0 * (1.0 - t1);
  }

  /** The node-size range of every sizing scheme. */
  const MinSize: real := 10.0
  const MaxSize: real := 50.0

  /** `normalize_size` of functions.py, with its equal-bounds guard. */
  function NormalizeSize(value: real, maxValue: real, minValue: real, minSize: real, maxSize: real): (size: real)
    ensures maxValue == minValue ==> size == (maxSize + minSize) / 2.0
    ensures maxValue != minValue && value == minValue ==> size == minSize
    ensures maxValue != minValue && value == maxValue ==> size == maxSize
    ensures minValue < maxValue && minValue <= value <= maxValue && minSize <= maxSize ==> minSize <= size <= maxSize
  {
    if maxValue == minValue then (maxSize + minSize) / 2.0
    else
      var normalized := (value - minValue) / (maxValue - minValue);
      NormalizeEndpoints(maxValue, minValue);
      assert normalized == Normalize(value, maxValue, minValue);
      Stretch(normalized, minSize, maxSize);
      normalized * (maxSize - minSize) + minSize
  }

  /** Stretching [0, 1] onto [lo, hi]. */
  lemma Stretch(t: real, lo: real, hi: real)
    ensures t == 0.0 ==> t * (hi - lo) + lo == lo
    ensures t == 1.0 ==> t * (hi - lo) + lo == hi
    ensures 0.0 <= t <= 1.0 && lo <= hi ==> lo <= t * (hi - lo) + lo <= hi
  {
    if 0.0 <= t <= 1.0 && lo <= hi {
      assert 0.0 <= t * (hi - lo);
      assert t * (hi - lo) <= 1.0 * (hi - lo) by {
        assert (1.0 - t) * (hi - lo) >= 0.0;
      }
    }
  }

  /** The size scale is the colour normalisation stretched onto [minSize, maxSize],
      including the equal-bounds case, where both pick the midpoint. */
  lemma NormalizeSizeIsScaledNormalize(value: real, maxValue: real, minValue: real, minSize: real, maxSize: real)
    ensures NormalizeSize(value, maxValue, minValue, minSize, maxSize)
         == minSize + Normalize(value, maxValue, minValue) * (maxSize - minSize)
  {
  }

  /** `update_edge_opacity`: `strength / 5`. */
  function Opacity(strength: real): (o: real)
    ensures o * 5.0 == strength
    ensures 1.0 <= strength <= 5.0 ==> 0.2 <= o <= 1.0
  {
    strength / 5.0
  }
}

=== FILE: graph.dfy ===
/** Shared data model of the mental-health map: Cytoscape-style elements
    (factor nodes and causal edges) and the style rules that the graph widget
    consumes. Every revision of the app builds the same two kinds of records;
    the dictionaries `{'data': {...}}` and `{'selector': ..., 'style': {...}}`
    become the datatypes below.
 */
module Graph {
  import opened Seqs

  datatype Option<T> = None | Some(value: T)

  /** A graph element: a factor node `{'id', 'label'}`, or a directed edge
      `{'source', 'target'}` whose data carries an `'id'` only when the
      engine gave it one. */
  datatype Element =
    | Node(id: string, caption: string)
    | Edge(src: string, tgt: string, eid: Option<string>)

  /** `element['data'].get('id')`. */
  function ElementId(e: Element): Option<string> {
    match e
    case Node(id, _) => Some(id)
    case Edge(_, _, eid) => eid
  }

  /** The string key `f"{source}->{target}"` the app uses to remember edges. */
  function EdgeKey(source: string, target: string): string {
    source + "->" + target
  }

  /** `factor_exists`: some element's data has this id (edges with an id count too). */
  predicate FactorExists(factor: string, elements: seq<Element>) {
    exists e :: e in elements && ElementId(e) == Some(factor)
  }

  /** `factor_exists` looks at ids only: every node counts, an edge counts only
      through an id it carries, so appending an id-less edge never makes a
      factor exist. */
  lemma FactorExistsById(x: string, elements: seq<Element>, a: string, b: string)
    ensures NodeExists(x, elements) ==> FactorExists(x, elements)
    ensures FactorExists(x, elements + [Edge(a, b, None)]) <==> FactorExists(x, elements)
    ensures FactorExists(x, elements + [Edge(a, b, Some(x))])
  {
    if NodeExists(x, elements) {
      var n :| n in elements && n.Node? && n.id == x;
      assert ElementId(n) == Some(x);
    }
    assert forall e :: e in elements + [Edge(a, b, None)] <==> e in elements || e == Edge(a, b, None);
    assert Edge(a, b, Some(x)) in elements + [Edge(a, b, Some(x))];
  }

  /** The ids of the id-bearing elements, in list order (duplicates kept). */
  function Ids(elements: seq<Element>): (r: seq<string>)
    ensures forall x :: x in r <==> FactorExists(x, elements)
  {
    if elements == [] then []
    else
      var init := Ids(elements[..|elements| - 1]);
      var last := elements[|elements| - 1];
      assert elements == elements[..|elements| - 1] + [last];
      assert forall e :: e in elements <==> e in elements[..|elements| - 1] || e == last;
      match ElementId(last)
      case Some(x) => init + [x]
      case None => init
  }

  /** Every edge endpoint is the id of some element: without it the degree
      counting of the later revisions raises `KeyError`. */
  predicate EndpointsKnown(elements: seq<Element>) {
    forall e :: e in elements && e.Edge? ==> FactorExists(e.src, elements) && FactorExists(e.tgt, elements)
  }

  /** Some node element has this id. */
  predicate NodeExists(x: string, elements: seq<Element>) {
    exists e :: e in elements && e.Node? && e.id == x
  }

  /** Every edge runs between two node elements. */
  predicate EndpointsAreNodes(elements: seq<Element>) {
    forall e :: e in elements && e.Edge? ==> NodeExists(e.src, elements) && NodeExists(e.tgt, elements)
  }

  lemma NodesAreKnown(elements: seq<Element>)
    requires EndpointsAreNodes(elements)
    ensures EndpointsKnown(elements)
  {
    forall e | e in elements && e.Edge?
      ensures FactorExists(e.src, elements) && FactorExists(e.tgt, elements)
    {
      var a :| a in elements && a.Node? && a.id == e.src;
      var b :| b in elements && b.Node? && b.id == e.tgt;
      assert ElementId(a) == Some(e.src) && ElementId(b) == Some(e.tgt);
    }
  }

  /** An edge element running from `source` to `target`, whatever its id. */
  predicate Joins(e: Element, source: string, target: string) {
    e.Edge? && e.src == source && e.tgt == target
  }

  /** Some edge element runs from `source` to `target`. */
  predicate HasEdge(elements: seq<Element>, source: string, target: string) {
    exists e :: e in elements && Joins(e, source, target)
  }

  /** No two edge elements join the same ordered pair. */
  predicate Simple(elements: seq<Element>) {
    forall i, j :: 0 <= i < j < |elements| && elements[i].Edge? && elements[j].Edge? ==>
      (elements[i].src, elements[i].tgt) != (elements[j].src, elements[j].tgt)
  }

  /** One node per selected factor, labelled with its own name. */
  function FactorNodes(value: seq<string>): (r: seq<Element>)
    ensures |r| == |value|
    ensures forall i :: 0 <= i < |value| ==> r[i] == Node(value[i], value[i])
  {
    seq(|value|, i requires 0 <= i < |value| => Node(value[i], value[i]))
  }

  /** The nodes drawn for a selection carry exactly the selected names as ids, in order. */
  lemma {:induction false} FactorNodesIds(value: seq<string>)
    ensures Ids(FactorNodes(value)) == value
    ensures forall x :: NodeExists(x, FactorNodes(value)) <==> x in value
    decreases |value|
  {
    var nodes := FactorNodes(value);
    if value != [] {
      var init := value[..|value| - 1];
      FactorNodesIds(init);
      assert nodes[..|value| - 1] == FactorNodes(init);
      assert ElementId(nodes[|value| - 1]) == Some(value[|value| - 1]);
      assert value == init + [value[|value| - 1]];
    }
    forall x | x in value ensures NodeExists(x, nodes) {
      var i :| 0 <= i < |value| && value[i] == x;
      assert nodes[i] in nodes;
    }
  }

  /** The node-selection the widget understands: `'node'`, `'edge'`,
      `node[id="x"]` and `edge[id="x"]`. */
  datatype Selector = AllNodes | AllEdges | NodeId(node: string) | EdgeId(edge: string)

  datatype Color = Blue | Red | Rgb(r: int, g: int, b: int)

  /** The `'style'` dictionary of a rule; a `None` field is a key that is absent. */
  datatype Props = Props(
    background: Option<Color>,
    labelText: Option<string>,
    width: Option<real>,
    height: Option<real>,
    borderColor: Option<Color>,
    borderWidth: Option<string>,
    curveStyle: Option<string>,
    arrowShape: Option<string>,
    opacity: Option<real>)

  datatype Rule = Rule(selector: Selector, props: Props)

  const NoProps := Props(None, None, None, None, None, None, None, None, None)

  /** Blue labelled nodes: the first rule of the default stylesheet, and the uniform colour rule. */
  const NodeDefault := Rule(AllNodes, NoProps.(background := Some(Blue), labelText := Some("data(label)")))

  const EdgeDefault := Rule(AllEdges, NoProps.(curveStyle := Some("bezier"), arrowShape := Some("triangle")))

  /** The stylesheet every revision starts from. */
  const DefaultStyle := [NodeDefault, EdgeDefault]

  function ColorRule(node: string, c: Color): Rule {
    Rule(NodeId(node), NoProps.(background := Some(c)))
  }

  function SizeRule(node: string, size: real): Rule {
    Rule(NodeId(node), NoProps.(width := Some(size), height := Some(size)))
  }

  /** The 2px red border marking the most influential factor. */
  function TargetRule(node: string): Rule {
    Rule(NodeId(node), NoProps.(borderColor := Some(Red), borderWidth := Some("2px")))
  }

  predicate IsRedBorder(r: Rule) {
    r.props.borderColor == Some(Red)
  }

  /** The number of red-border rules in a stylesheet. */
  function RedBorders(sheet: seq<Rule>): nat {
    |Filter(sheet, IsRedBorder)|
  }

  /** The colour and sizing schemes offered by the editing tab (the entries of
      `node_color`/`node_size`); `Unrecognised` stands for any other value. */
  datatype Scheme = Uniform | Severity | SeverityAbs | OutDegree | InDegree | OutInRatio | Unrecognised

  predicate IsCentrality(s: Scheme) {
    s == OutDegree || s == InDegree || s == OutInRatio
  }

  /** The severity dictionary `{factor: score}`, in key order. */
  type Scores = seq<(string, real)>

  /** `severity_scores.values()`. */
  function ScoreValues(scores: Scores): (vals: seq<real>)
    ensures |vals| == |scores|
    ensures forall i :: 0 <= i < |scores| ==> vals[i] == scores[i].1
  {
    seq(|scores|, i requires 0 <= i < |scores| => scores[i].1)
  }

  /** A dropdown option `{'label': f, 'value': f}`. */
  datatype Choice = Choice(caption: string, value: string)
}

=== FILE: keyed.dfy ===
/** The string-keyed edge engine of the earlier revisions (app_ver01.py and
    app_ver02.py, and the local `add_edge` of app_02.py's `generate_graph`):
    next to the element list the session keeps the set of `"source->target"`
    keys of the edges it has drawn, and the key set alone decides whether an
    edge is new. */
module Keyed {
  import opened Seqs
  import opened Graph
  import EditEngine

  /** The element list with the key set `existing_edges` (the session's
      `edges` list, which every caller turns into a set first). */
  datatype KeyedMap = KeyedMap(elements: seq<Element>, keys: set<string>)

  /** The key set lists exactly the keys of the drawn edges, and no two drawn
      edges share a key. */
  predicate Consistent(m: KeyedMap) {
    && (forall k :: k in m.keys ==> exists e :: e in m.elements && e.Edge? && EdgeKey(e.src, e.tgt) == k)
    && (forall e :: e in m.elements && e.Edge? ==> EdgeKey(e.src, e.tgt) in m.keys)
    && (forall i, j :: 0 <= i < j < |m.elements| && m.elements[i].Edge? && m.elements[j].Edge? ==>
          EdgeKey(m.elements[i].src, m.elements[i].tgt) != EdgeKey(m.elements[j].src, m.elements[j].tgt))
  }

  /** `add_edge`: an id-less edge and its key are added when the key is new;
      otherwise nothing changes. */
  function AddEdge(source: string, target: string, m: KeyedMap): (r: KeyedMap)
    ensures EdgeKey(source, target) in r.keys
    ensures EdgeKey(source, target) in m.keys ==> r == m
    ensures EdgeKey(source, target) !in m.keys ==>
      r.elements == m.elements + [Edge(source, target, None)] && r.keys == m.keys + {EdgeKey(source, target)}
  {
    var key := EdgeKey(source, target);
    if key !in m.keys then KeyedMap(m.elements + [Edge(source, target, None)], m.keys + {key})
    else m
  }

  /** A second identical call changes nothing. */
  lemma AddEdgeTwice(source: string, target: string, m: KeyedMap)
    ensures AddEdge(source, target, AddEdge(source, target, m)) == AddEdge(source, target, m)
  {
  }

  /** The position of the last element joining `source` to `target`: the
      backward scan of `delete_edge`. */
  function LastJoining(elements: seq<Element>, source: string, target: string): (i: Option<nat>)
    ensures i.None? ==> forall j :: 0 <= j < |elements| ==> !Joins(elements[j], source, target)
    ensures i.Some? ==> i.value < |elements| && Joins(elements[i.value], source, target)
    ensures i.Some? ==> forall j :: i.value < j < |elements| ==> !Joins(elements[j], source, target)
    decreases |elements|
  {
    if elements == [] then None
    else if Joins(elements[|elements| - 1], source, target) then Some(|elements| - 1)
    else
      var init := elements[..|elements| - 1];
      var i := LastJoining(init, source, target);
      assert forall j :: 0 <= j < |init| ==> init[j] == elements[j];
      i
  }

  function RemoveAt<T>(s: seq<T>, i: nat): (r: seq<T>)
    requires i < |s|
    ensures |r| == |s| - 1
    ensures forall j :: 0 <= j < i ==> r[j] == s[j]
    ensures forall j :: i <= j < |r| ==> r[j] == s[j + 1]
  {
    s[..i] + s[i + 1..]
  }

  /** `delete_edge`: when the key is present, the last element joining
      `source` to `target` (if any) and the key go; every other element stays
      in order. When the key is absent nothing changes. */
  function DeleteEdge(source: string, target: string, m: KeyedMap): (r: KeyedMap)
    ensures r.keys == m.keys - {EdgeKey(source, target)}
    ensures EdgeKey(source, target) !in m.keys ==> r == m
    ensures !HasEdge(m.elements, source, target) ==> r.elements == m.elements
    ensures EdgeKey(source, target) in m.keys && HasEdge(m.elements, source, target) ==>
      exists i :: 0 <= i < |m.elements| && Joins(m.elements[i], source, target)
        && (forall j :: i < j < |m.elements| ==> !Joins(m.elements[j], source, target))
        && r.elements == RemoveAt(m.elements, i)
  {
    var key := EdgeKey(source, target);
    if key in m.keys then
      var at := LastJoining(m.elements, source, target);
      if at.Some? then KeyedMap(RemoveAt(m.elements, at.value), m.keys - {key})
      else
        assert !HasEdge(m.elements, source, target) by {
          forall e | e in m.elements ensures !Joins(e, source, target) {
            var j :| 0 <= j < |m.elements| && m.elements[j] == e;
          }
        }
        KeyedMap(m.elements, m.keys - {key})
    else m
  }

  /** Deleting an edge just added restores the map: the round trip of the edit tab. */
  lemma DeleteUndoesAdd(source: string, target: string, m: KeyedMap)
    requires EdgeKey(source, target) !in m.keys
    ensures DeleteEdge(source, target, AddEdge(source, target, m)) == m
  {
    var a := AddEdge(source, target, m);
    var n := |m.elements|;
    assert a.elements[n] == Edge(source, target, None);
    assert LastJoining(a.elements, source, target) == Some(n);
    assert RemoveAt(a.elements, n) == m.elements;
  }

  /** Adding keeps the key set in step with the drawn edges. */
  lemma AddEdgeKeepsConsistent(source: string, target: string, m: KeyedMap)
    requires Consistent(m)
    ensures Consistent(AddEdge(source, target, m))
  {
    var key := EdgeKey(source, target);
    if key !in m.keys {
      var r := AddEdge(source, target, m);
      var n := |m.elements|;
      assert r.elements[n] == Edge(source, target, None);
      assert forall e :: e in r.elements <==> e in m.elements || e == Edge(source, target, None);
      forall i, j | 0 <= i < j < |r.elements| && r.elements[i].Edge? && r.elements[j].Edge?
        ensures EdgeKey(r.elements[i].src, r.elements[i].tgt) != EdgeKey(r.elements[j].src, r.elements[j].tgt)
      {
        if j == n {
          assert r.elements[i] in m.elements;
        }
      }
    }
  }

  /** The map left by removing the edge at `i` together with its key. */
  function RemoveKeyed(m: KeyedMap, i: nat): KeyedMap
    requires i < |m.elements| && m.elements[i].Edge?
  {
    KeyedMap(RemoveAt(m.elements, i), m.keys - {EdgeKey(m.elements[i].src, m.elements[i].tgt)})
  }

  /** Every other key still names a drawn edge. */
  lemma RemoveKeyedCovers(m: KeyedMap, i: nat)
    requires Consistent(m) && i < |m.elements| && m.elements[i].Edge?
    ensures var r := RemoveKeyed(m, i);
      forall k :: k in r.keys ==> exists e :: e in r.elements && e.Edge? && EdgeKey(e.src, e.tgt) == k
  {
    var r := RemoveKeyed(m, i);
    forall k | k in r.keys
      ensures exists e :: e in r.elements && e.Edge? && EdgeKey(e.src, e.tgt) == k
    {
      var e :| e in m.elements && e.Edge? && EdgeKey(e.src, e.tgt) == k;
      var j :| 0 <= j < |m.elements| && m.elements[j] == e;
      if j < i { assert r.elements[j] == e; } else { assert r.elements[j - 1] == e; }
    }
  }

  /** Every remaining edge keeps its key, since none shared the removed one. */
  lemma RemoveKeyedLists(m: KeyedMap, i: nat)
    requires Consistent(m) && i < |m.elements| && m.elements[i].Edge?
    ensures var r := RemoveKeyed(m, i);
      forall e :: e in r.elements && e.Edge? ==> EdgeKey(e.src, e.tgt) in r.keys
  {
    var r := RemoveKeyed(m, i);
    forall e | e in r.elements && e.Edge? ensures EdgeKey(e.src, e.tgt) in r.keys {
      var j :| 0 <= j < |r.elements| && r.elements[j] == e;
      var jj := if j < i then j else j + 1;
      assert m.elements[jj] == e;
    }
  }

  /** Removing an element keeps the remaining keys pairwise distinct. */
  lemma RemoveKeyedDistinct(m: KeyedMap, i: nat)
    requires Consistent(m) && i < |m.elements| && m.elements[i].Edge?
    ensures var r := RemoveKeyed(m, i);
      forall a, b :: 0 <= a < b < |r.elements| && r.elements[a].Edge? && r.elements[b].Edge? ==>
        EdgeKey(r.elements[a].src, r.elements[a].tgt) != EdgeKey(r.elements[b].src, r.elements[b].tgt)
  {
    var r := RemoveKeyed(m, i);
    forall a, b | 0 <= a < b < |r.elements| && r.elements[a].Edge? && r.elements[b].Edge?
      ensures EdgeKey(r.elements[a].src, r.elements[a].tgt) != EdgeKey(r.elements[b].src, r.elements[b].tgt)
    {
      var aa := if a < i then a else a + 1;
      var bb := if b < i then b else b + 1;
      assert r.elements[a] == m.elements[aa] && r.elements[b] == m.elements[bb];
    }
  }

  /** Deleting keeps the key set in step with the drawn edges, provided no
      drawn edge between two other names happens to spell the same key. */
  lemma DeleteEdgeKeepsConsistent(source: string, target: string, m: KeyedMap)
    requires Consistent(m)
    requires forall e :: e in m.elements && e.Edge? && EdgeKey(e.src, e.tgt) == EdgeKey(source, target) ==> Joins(e, source, target)
    ensures Consistent(DeleteEdge(source, target, m))
  {
    var key := EdgeKey(source, target);
    if key in m.keys {
      var w :| w in m.elements && w.Edge? && EdgeKey(w.src, w.tgt) == key;
      assert HasEdge(m.elements, source, target);
      var i := LastJoining(m.elements, source, target).value;
      assert DeleteEdge(source, target, m) == RemoveKeyed(m, i);
      RemoveKeyedCovers(m, i);
      RemoveKeyedLists(m, i);
      RemoveKeyedDistinct(m, i);
    }
  }

  /** A consistent map never draws two edges for the same ordered pair. */
  lemma ConsistentIsSimple(m: KeyedMap)
    requires Consistent(m)
    ensures Simple(m.elements)
  {
  }

  /** The keys of a list of pairs. */
  function KeysOf(pairs: seq<(string, string)>): set<string> {
    set p | p in pairs :: EdgeKey(p.0, p.1)
  }

  /** A run of `add_edge` calls, in order. */
  function AddEdges(m: KeyedMap, pairs: seq<(string, string)>): (r: KeyedMap)
    ensures |m.elements| <= |r.elements| && r.elements[..|m.elements|] == m.elements
    ensures forall i :: |m.elements| <= i < |r.elements| ==> r.elements[i].Edge? && r.elements[i].eid == None
    ensures r.keys == m.keys + KeysOf(pairs)
    decreases |pairs|
  {
    if pairs == [] then m
    else
      var next := AddEdge(pairs[0].0, pairs[0].1, m);
      var r := AddEdges(next, pairs[1..]);
      assert r.elements[..|m.elements|] == next.elements[..|m.elements|];
      assert forall i :: |m.elements| <= i < |next.elements| ==> r.elements[i] == next.elements[i];
      assert KeysOf(pairs) == {EdgeKey(pairs[0].0, pairs[0].1)} + KeysOf(pairs[1..]) by {
        assert forall p :: p in pairs <==> p == pairs[0] || p in pairs[1..] by {
          assert pairs == [pairs[0]] + pairs[1..];
        }
      }
      r
  }

  /** What a run of `add_edge` calls adds: only id-less edges of listed pairs,
      never a node, and it keeps a consistent map consistent. */
  lemma {:induction false} AddEdgesSpec(m: KeyedMap, pairs: seq<(string, string)>)
    ensures forall e :: e in AddEdges(m, pairs).elements && e !in m.elements ==>
      e.Edge? && e.eid == None && (e.src, e.tgt) in pairs
    ensures Ids(AddEdges(m, pairs).elements) == Ids(m.elements)
    ensures Consistent(m) ==> Consistent(AddEdges(m, pairs))
    decreases |pairs|
  {
    if pairs != [] {
      var p, rest := pairs[0], pairs[1..];
      var next := AddEdge(p.0, p.1, m);
      AddEdgesSpec(next, rest);
      assert forall q :: q in pairs <==> q == p || q in rest by {
        assert pairs == [p] + rest;
      }
      if EdgeKey(p.0, p.1) !in m.keys {
        var n := |m.elements|;
        assert next.elements[..n] == m.elements;
        assert forall e :: e in next.elements <==> e in m.elements || e == Edge(p.0, p.1, None);
      }
      if Consistent(m) {
        AddEdgeKeepsConsistent(p.0, p.1, m);
      }
    }
  }

  /** A consistent map has a drawn edge for every listed key. */
  lemma KeyedEdgesDrawn(m: KeyedMap, pairs: seq<(string, string)>)
    requires Consistent(m)
    ensures forall p :: p in pairs ==>
      exists e :: e in AddEdges(m, pairs).elements && e.Edge? && EdgeKey(e.src, e.tgt) == EdgeKey(p.0, p.1)
  {
    AddEdgesSpec(m, pairs);
    var r := AddEdges(m, pairs);
    forall p | p in pairs
      ensures exists e :: e in r.elements && e.Edge? && EdgeKey(e.src, e.tgt) == EdgeKey(p.0, p.1)
    {
      assert EdgeKey(p.0, p.1) in KeysOf(pairs);
    }
  }

  /** The pair a chain contributes: only a chain of exactly two entries does. */
  function ChainPair(chain: seq<string>): (ps: seq<(string, string)>)
    ensures |chain| == 2 ==> ps == [(chain[0], chain[1])]
    ensures |chain| != 2 ==> ps == []
  {
    if |chain| == 2 then [(chain[0], chain[1])] else []
  }

  /** A two-entry cycle: both directions. */
  function BothWays(cycle: seq<string>): (ps: seq<(string, string)>)
    ensures |cycle| == 2 ==> ps == [(cycle[0], cycle[1]), (cycle[1], cycle[0])]
    ensures |cycle| != 2 ==> ps == []
  {
    if |cycle| == 2 then [(cycle[0], cycle[1]), (cycle[1], cycle[0])] else []
  }

  /** A three-entry cycle: the closed triangle. */
  function Triangle(cycle: seq<string>): (ps: seq<(string, string)>)
    ensures |cycle| == 3 ==> ps == [(cycle[0], cycle[1]), (cycle[1], cycle[2]), (cycle[2], cycle[0])]
    ensures |cycle| != 3 ==> ps == []
  {
    if |cycle| == 3 then [(cycle[0], cycle[1]), (cycle[1], cycle[2]), (cycle[2], cycle[0])] else []
  }

  /** The keyed revisions hard-code the group lengths that functions.py
      generalises: a two-entry chain contributes its consecutive pair, and the
      two- and three-entry cycles their closed cycle pairs. */
  lemma ChainPairIsConsecutive(chain: seq<string>)
    ensures |chain| == 2 ==> ChainPair(chain) == EditEngine.ConsecutivePairs(chain)
    ensures |chain| < 2 ==> ChainPair(chain) == EditEngine.ConsecutivePairs(chain) == []
  {
  }

  lemma BothWaysIsCycle(cycle: seq<string>)
    ensures |cycle| == 2 ==> BothWays(cycle) == EditEngine.CyclePairs(cycle)
  {
    if |cycle| == 2 {
      var ps := EditEngine.CyclePairs(cycle);
      assert ps[0] == (cycle[0], cycle[1]) && ps[1] == (cycle[1], cycle[0]);
    }
  }

  lemma TriangleIsCycle(cycle: seq<string>)
    ensures |cycle| == 3 ==> Triangle(cycle) == EditEngine.CyclePairs(cycle)
  {
    if |cycle| == 3 {
      var ps := EditEngine.CyclePairs(cycle);
      assert ps[0] == (cycle[0], cycle[1]) && ps[1] == (cycle[1], cycle[2]) && ps[2] == (cycle[2], cycle[0]);
    }
  }

  /** `map_add_chains` of the keyed revisions: each chain of exactly two
      entries adds its edge, whether or not its ends are nodes of the map. */
  function MapAddChains(m: KeyedMap, chain1: seq<string>, chain2: seq<string>): (r: KeyedMap)
    ensures r.keys == m.keys + KeysOf(ChainPair(chain1) + ChainPair(chain2))
    ensures |m.elements| <= |r.elements| && r.elements[..|m.elements|] == m.elements
  {
    AddEdges(m, ChainPair(chain1) + ChainPair(chain2))
  }

  /** `map_add_cycles` of the keyed revisions: a two-entry first cycle adds
      both directions, a three-entry second cycle its triangle, and any other
      length nothing. */
  function MapAddCycles(m: KeyedMap, cycle1: seq<string>, cycle2: seq<string>): (r: KeyedMap)
    ensures r.keys == m.keys + KeysOf(BothWays(cycle1) + Triangle(cycle2))
    ensures |m.elements| <= |r.elements| && r.elements[..|m.elements|] == m.elements
  {
    AddEdges(m, BothWays(cycle1) + Triangle(cycle2))
  }

  /** Groups of other lengths change nothing. */
  lemma OtherLengthsAddNothing(m: KeyedMap, chain1: seq<string>, chain2: seq<string>, cycle1: seq<string>, cycle2: seq<string>)
    requires |chain1| != 2 && |chain2| != 2 && |cycle1| != 2 && |cycle2| != 3
    ensures MapAddChains(m, chain1, chain2) == m
    ensures MapAddCycles(m, cycle1, cycle2) == m
  {
    assert ChainPair(chain1) + ChainPair(chain2) == [];
    assert BothWays(cycle1) + Triangle(cycle2) == [];
  }

  /** The keyed chains do not look at the nodes: a chain between two names the
      map does not contain still draws its edge. */
  lemma ChainsIgnoreNodes()
    ensures var r := MapAddChains(KeyedMap([], {}), ["X", "Y"], []);
      && !FactorExists("X", r.elements)
      && r.elements == [Edge("X", "Y", None)]
  {
    var pairs := ChainPair(["X", "Y"]) + ChainPair([]);
    assert pairs == [("X", "Y")] && pairs[1..] == [];
    var r := MapAddChains(KeyedMap([], {}), ["X", "Y"], []);
    assert r == AddEdges(AddEdge("X", "Y", KeyedMap([], {})), []);
    assert r.elements == [Edge("X", "Y", None)];
    assert Ids(r.elements) == [] by {
      assert r.elements[..0] == [];
    }
  }

  /** `map_add_factors` of the keyed revisions as written: the map is
      rebuilt from the selection with no edges, but the key set is kept. */
  function MapAddFactorsAsWritten(m: KeyedMap, selection: seq<string>): (r: KeyedMap)
    ensures r.elements == FactorNodes(selection) && r.keys == m.keys
  {
    KeyedMap(FactorNodes(selection), m.keys)
  }

  /** Selecting the same two factors again erases the chain edge A→B, and
      confirming the same chain then draws nothing: its key is still stored. */
  lemma StaleKeysBlockRedraw()
    ensures var drawn := MapAddChains(KeyedMap(FactorNodes(["A", "B"]), {}), ["A", "B"], []);
      var again := MapAddChains(MapAddFactorsAsWritten(drawn, ["A", "B"]), ["A", "B"], []);
      && HasEdge(drawn.elements, "A", "B")
      && !HasEdge(again.elements, "A", "B")
  {
    var pairs := ChainPair(["A", "B"]) + ChainPair([]);
    assert pairs == [("A", "B")] && pairs[1..] == [];
    var start := KeyedMap(FactorNodes(["A", "B"]), {});
    var drawn := MapAddChains(start, ["A", "B"], []);
    assert drawn == AddEdges(AddEdge("A", "B", start), []);
    assert drawn.elements[2] == Edge("A", "B", None);
    assert Joins(drawn.elements[2], "A", "B");
    var rebuilt := MapAddFactorsAsWritten(drawn, ["A", "B"]);
    var again := MapAddChains(rebuilt, ["A", "B"], []);
    assert EdgeKey("A", "B") in rebuilt.keys;
    assert again == AddEdges(AddEdge("A", "B", rebuilt), []);
    assert again == rebuilt;
    forall e | e in again.elements ensures !Joins(e, "A", "B") {
      var j :| 0 <= j < |again.elements| && again.elements[j] == e;
    }
  }

  /** `map_add_factors` as intended: the key set keeps listing exactly the
      drawn edges, of which the rebuilt map has none. */
  function MapAddFactors(m: KeyedMap, selection: seq<string>): (r: KeyedMap)
    ensures r.elements == FactorNodes(selection)
    ensures Consistent(r)
  {
    var r := KeyedMap(FactorNodes(selection), {});
    assert forall e :: e in r.elements ==> e.Node?;
    r
  }

  /** After the corrected rebuild, confirming a chain again draws its edge. */
  lemma RebuildThenRedraw(m: KeyedMap, selection: seq<string>, chain1: seq<string>, chain2: seq<string>)
    ensures var r := MapAddChains(MapAddFactors(m, selection), chain1, chain2);
      && Consistent(r)
      && forall p :: p in ChainPair(chain1) + ChainPair(chain2) ==>
           exists e :: e in r.elements && e.Edge? && EdgeKey(e.src, e.tgt) == EdgeKey(p.0, p.1)
  {
    var start := MapAddFactors(m, selection);
    AddEdgesSpec(start, ChainPair(chain1) + ChainPair(chain2));
    KeyedEdgesDrawn(start, ChainPair(chain1) + ChainPair(chain2));
  }

  /** Python's `any(node['data']['id'] == name for node in elements)`, which
      raises `KeyError` (here `None`) at the first element without an id it
      reaches before a match. */
  function AnyIdIs(name: string, elements: seq<Element>): (r: Option<bool>)
    ensures r == Some(true) ==> FactorExists(name, elements)
    ensures r == Some(false) ==> !FactorExists(name, elements)
    decreases |elements|
  {
    if elements == [] then Some(false)
    else
      match ElementId(elements[0])
      case None => None
      case Some(x) =>
        if x == name then
          assert ElementId(elements[0]) == Some(name);
          Some(true)
        else
          var rest := AnyIdIs(name, elements[1..]);
          assert forall e :: e in elements ==> e == elements[0] || e in elements[1..];
          rest
  }

  /** The node-adding body of `add_node` (app_ver01.py) and `map_add_node`
      (app_ver02.py) as written; `None` is the `KeyError`. */
  function AddNodeAsWritten(clicked: bool, name: string, elements: seq<Element>): (r: Option<seq<Element>>)
    ensures !clicked || name == "" ==> r == Some(elements)
    ensures r.Some? && clicked && name != "" ==>
      r.value == (if FactorExists(name, elements) then elements else elements + [Node(name, name)])
  {
    if clicked && name != "" then
      match AnyIdIs(name, elements)
      case None => None
      case Some(found) => if found then Some(elements) else Some(elements + [Node(name, name)])
    else Some(elements)
  }

  /** Once an id-less edge is drawn, adding a node with a new name fails. */
  lemma AddNodeAsWrittenFails()
    ensures var elements := [Node("A", "A"), Node("B", "B"), Edge("A", "B", None)];
      AddNodeAsWritten(true, "C", elements).None?
  {
    var elements := [Node("A", "A"), Node("B", "B"), Edge("A", "B", None)];
    assert elements[1..] == [Node("B", "B"), Edge("A", "B", None)];
    assert elements[1..][1..] == [Edge("A", "B", None)];
  }

  /** The node-adding body as intended, looking the id up with `.get`: a
      name not yet used as an id is appended as a new node, and a used one
      changes nothing. */
  function AddNode(clicked: bool, name: string, elements: seq<Element>): (r: seq<Element>)
    ensures clicked && name != "" ==> FactorExists(name, r)
    ensures !clicked || name == "" || FactorExists(name, elements) ==> r == elements
    ensures clicked && name != "" && !FactorExists(name, elements) ==> r == elements + [Node(name, name)]
  {
    if clicked && name != "" && !FactorExists(name, elements) then
      var r := elements + [Node(name, name)];
      assert ElementId(r[|elements|]) == Some(name);
      r
    else elements
  }

  /** Where the written version does not fail it agrees with the intended one. */
  lemma AddNodeAgrees(clicked: bool, name: string, elements: seq<Element>)
    requires AddNodeAsWritten(clicked, name, elements).Some?
    ensures AddNodeAsWritten(clicked, name, elements).value == AddNode(clicked, name, elements)
  {
  }

  /** Adding a node never gives two elements the same id. */
  lemma AddNodeKeepsIdsDistinct(clicked: bool, name: string, elements: seq<Element>)
    requires Distinct(Ids(elements))
    ensures Distinct(Ids(AddNode(clicked, name, elements)))
  {
    var r := AddNode(clicked, name, elements);
    if r != elements {
      assert r[..|r| - 1] == elements;
      assert Ids(r) == Ids(elements) + [name];
    }
  }

  /** The node-name list both revisions rebuild after an edit: the ids shorter
      than 30 characters. */
  function NodeNames(elements: seq<Element>): (names: seq<string>)
    ensures forall x :: x in names <==> FactorExists(x, elements) && |x| < 30
    ensures |names| <= |elements|
    decreases |elements|
  {
    if elements == [] then []
    else
      var rest := NodeNames(elements[1..]);
      assert forall e :: e in elements <==> e == elements[0] || e in elements[1..];
      match ElementId(elements[0])
      case Some(x) => if |x| < 30 then [x] + rest else rest
      case None => rest
  }

  /** `limit_dropdown_add_edge`, `limit_dropdown_delete_edge` and
      `limit_dropdown_edit_edge`: at most the first two entries survive. */
  function LimitToTwo(values: seq<string>): (r: seq<string>)
    ensures |r| <= 2
    ensures |values| <= 2 ==> r == values
    ensures |values| > 2 ==> r == values[..2]
  {
    if |values| > 2 then values[..2] else values
  }

  /** A limited selection is left as it is. */
  lemma LimitToTwoIdempotent(values: seq<string>)
    ensures LimitToTwo(LimitToTwo(values)) == LimitToTwo(values)
    ensures LimitToTwo(values) == values[..|LimitToTwo(values)|]
  {
  }

  /** `add_edge_output` of app_ver01.py as written: any non-empty selection
      is read as `[source, target]`, so a single entry raises `IndexError`
      (here `None`). */
  function AddEdgeOutputAsWritten(clicked: bool, chosen: seq<string>, m: KeyedMap): (r: Option<KeyedMap>)
    ensures !clicked || chosen == [] ==> r == Some(m)
    ensures clicked && |chosen| == 1 ==> r == None
    ensures clicked && |chosen| >= 2 ==> r == Some(AddEdge(chosen[0], chosen[1], m))
  {
    if clicked && chosen != [] then
      if |chosen| < 2 then None else Some(AddEdge(chosen[0], chosen[1], m))
    else Some(m)
  }

  /** `delete_edge_output` of app_ver01.py as written, with the same failure. */
  function DeleteEdgeOutputAsWritten(clicked: bool, chosen: seq<string>, m: KeyedMap): (r: Option<KeyedMap>)
    ensures !clicked || chosen == [] ==> r == Some(m)
    ensures clicked && |chosen| == 1 ==> r == None
    ensures clicked && |chosen| >= 2 ==> r == Some(DeleteEdge(chosen[0], chosen[1], m))
  {
    if clicked && chosen != [] then
      if |chosen| < 2 then None else Some(DeleteEdge(chosen[0], chosen[1], m))
    else Some(m)
  }

  /** The dropdown limiter lets a one-entry selection through, and both
      buttons then fail on it. */
  lemma EdgeOutputsAsWrittenFail(m: KeyedMap)
    ensures LimitToTwo(["A"]) == ["A"]
    ensures AddEdgeOutputAsWritten(true, LimitToTwo(["A"]), m).None?
    ensures DeleteEdgeOutputAsWritten(true, LimitToTwo(["A"]), m).None?
  {
  }

  /** `add_edge_output` as app_ver02.py guards it: only a selection of exactly
      two entries adds an edge, anything else changes nothing. */
  function AddEdgeOutput(clicked: bool, chosen: seq<string>, m: KeyedMap): (r: KeyedMap)
    ensures clicked && |chosen| == 2 ==> r == AddEdge(chosen[0], chosen[1], m)
    ensures !(clicked && |chosen| == 2) ==> r == m
  {
    if clicked && |chosen| == 2 then AddEdge(chosen[0], chosen[1], m) else m
  }

  /** `delete_edge_output` as app_ver02.py guards it. */
  function DeleteEdgeOutput(clicked: bool, chosen: seq<string>, m: KeyedMap): (r: KeyedMap)
    ensures clicked && |chosen| == 2 ==> r == DeleteEdge(chosen[0], chosen[1], m)
    ensures !(clicked && |chosen| == 2) ==> r == m
  {
    if clicked && |chosen| == 2 then DeleteEdge(chosen[0], chosen[1], m) else m
  }

  /** On every limited selection where the written version does not fail,
      the guarded one does the same. */
  lemma EdgeOutputsAgree(clicked: bool, chosen: seq<string>, m: KeyedMap)
    requires |chosen| <= 2
    ensures AddEdgeOutputAsWritten(clicked, chosen, m).Some? ==>
      AddEdgeOutputAsWritten(clicked, chosen, m).value == AddEdgeOutput(clicked, chosen, m)
    ensures DeleteEdgeOutputAsWritten(clicked, chosen, m).Some? ==>
      DeleteEdgeOutputAsWritten(clicked, chosen, m).value == DeleteEdgeOutput(clicked, chosen, m)
  {
  }

  /** Adding a new edge with the edit tab and deleting it again restores the map. */
  lemma EdgeOutputsRoundTrip(chosen: seq<string>, m: KeyedMap)
    requires |chosen| == 2 && EdgeKey(chosen[0], chosen[1]) !in m.keys
    ensures DeleteEdgeOutput(true, chosen, AddEdgeOutput(true, chosen, m)) == m
  {
    DeleteUndoesAdd(chosen[0], chosen[1], m);
  }

  /** Which input fired the step callback: `callback_context.triggered`. */
  datatype Trigger = BackButton | NextButton | OtherInput

  /** The step counter of the wizard (`update_step`): back saturates at 0,
      next wraps from 5 (or beyond) to 0, anything else leaves it alone. */
  function UpdateStep(trigger: Trigger, step: int): (r: int)
    ensures trigger == BackButton ==> r >= 0 && (step >= 1 ==> r + 1 == step) && (step < 1 ==> r == 0)
    ensures trigger == NextButton ==> (step < 5 ==> r == step + 1) && (step >= 5 ==> r == 0)
    ensures trigger == OtherInput ==> r == step
    ensures 0 <= step <= 5 ==> 0 <= r <= 5
  {
    match trigger
    case BackButton => if step - 1 > 0 then step - 1 else 0
    case NextButton => if step >= 5 then 0 else step + 1
    case OtherInput => step
  }

  /** `next` pressed `n` times. */
  function Forward(step: int, n: nat): int
    decreases n
  {
    if n == 0 then step else Forward(UpdateStep(NextButton, step), n - 1)
  }

  /** Six presses of `next` bring every step of 0..5 back to itself, and
      `back` undoes `next` below the last step. */
  lemma {:induction false} StepCycle(step: int)
    requires 0 <= step <= 5
    ensures Forward(step, 6) == step
    ensures step < 5 ==> UpdateStep(BackButton, UpdateStep(NextButton, step)) == step
  {
    var s1 := UpdateStep(NextButton, step);
    var s2 := UpdateStep(NextButton, s1);
    var s3 := UpdateStep(NextButton, s2);
    var s4 := UpdateStep(NextButton, s3);
    var s5 := UpdateStep(NextButton, s4);
    var s6 := UpdateStep(NextButton, s5);
    assert Forward(step, 6) == Forward(s1, 5) == Forward(s2, 4) == Forward(s3, 3) == Forward(s4, 2) == Forward(s5, 1) == Forward(s6, 0);
  }
}

=== FILE: seqs.dfy ===
/** Sequence helpers used by every revision of the map engine.

    Python list comprehensions with an `if` become `Filter`; dictionary key
    order (first insertion wins) becomes `Dedup`; `min`/`max` over a
    dictionary's values become `Min`/`Max`.
 */
module Seqs {

  /** The elements of `s` satisfying `p`, in their original order. */
  function Filter<T(!new)>(s: seq<T>, p: T -> bool): (r: seq<T>)
    ensures |r| <= |s|
    ensures forall x :: x in r <==> x in s && p(x)
  {
    if s == [] then [] else (if p(s[0]) then [s[0]] else []) + Filter(s[1..], p)
  }

  /** `a` can be obtained from `b` by deleting elements: the order of what is kept is unchanged. */
  predicate IsSubseq<T(!new, ==)>(a: seq<T>, b: seq<T>)
    decreases |b|
  {
    if a == [] then true
    else if b == [] then false
    else (a[0] == b[0] && IsSubseq(a[1..], b[1..])) || IsSubseq(a, b[1..])
  }

  lemma {:induction false} SubseqOfItself<T(!new)>(s: seq<T>)
    ensures IsSubseq(s, s)
    decreases |s|
  {
    if s != [] {
      SubseqOfItself(s[1..]);
    }
  }

  lemma {:induction false} FilterIsSubseq<T(!new)>(s: seq<T>, p: T -> bool)
    ensures IsSubseq(Filter(s, p), s)
  {
    if s != [] {
      FilterIsSubseq(s[1..], p);
      var rest := Filter(s[1..], p);
      if p(s[0]) {
        assert Filter(s, p) == [s[0]] + rest;
        assert ([s[0]] + rest)[1..] == rest;
      } else {
        assert Filter(s, p) == rest;
      }
    }
  }

  lemma {:induction false} FilterConcat<T(!new)>(a: seq<T>, b: seq<T>, p: T -> bool)
    ensures Filter(a + b, p) == Filter(a, p) + Filter(b, p)
  {
    if a == [] {
      assert a + b == b;
    } else {
      assert (a + b)[0] == a[0];
      assert (a + b)[1..] == a[1..] + b;
      FilterConcat(a[1..], b, p);
    }
  }

  /** Filtering with a predicate every element already satisfies changes nothing. */
  lemma {:induction false} FilterKeepsAll<T(!new)>(s: seq<T>, p: T -> bool)
    requires forall x :: x in s ==> p(x)
    ensures Filter(s, p) == s
  {
    if s != [] {
      assert s[0] in s;
      assert forall x :: x in s[1..] ==> x in s;
      FilterKeepsAll(s[1..], p);
      assert s == [s[0]] + s[1..];
    }
  }

  /** Filtering with a predicate no element satisfies leaves nothing. */
  lemma {:induction false} FilterNone<T(!new)>(s: seq<T>, p: T -> bool)
    requires forall x :: x in s ==> !p(x)
    ensures Filter(s, p) == []
  {
    if s != [] {
      assert s[0] in s;
      assert forall x :: x in s[1..] ==> x in s;
      FilterNone(s[1..], p);
    }
  }

  lemma FilterIdempotent<T(!new)>(s: seq<T>, p: T -> bool)
    ensures Filter(Filter(s, p), p) == Filter(s, p)
  {
    FilterKeepsAll(Filter(s, p), p);
  }

  /** Two predicates that agree on the elements of `s` filter it the same way. */
  lemma {:induction false} FilterExtensional<T(!new)>(s: seq<T>, p: T -> bool, q: T -> bool)
    requires forall x :: x in s ==> p(x) == q(x)
    ensures Filter(s, p) == Filter(s, q)
  {
    if s != [] {
      assert s[0] in s;
      assert forall x :: x in s[1..] ==> x in s;
      FilterExtensional(s[1..], p, q);
    }
  }

  /** Filtering twice keeps what both predicates accept: the same as filtering
      once with any predicate `pq` that is their conjunction on `s`. */
  lemma {:induction false} FilterFilter<T(!new)>(s: seq<T>, p: T -> bool, q: T -> bool, pq: T -> bool)
    requires forall x :: x in s ==> pq(x) == (p(x) && q(x))
    ensures Filter(Filter(s, p), q) == Filter(s, pq)
  {
    if s != [] {
      assert s[0] in s;
      assert forall x :: x in s[1..] ==> x in s;
      FilterFilter(s[1..], p, q, pq);
      var rest := Filter(s[1..], p);
      if p(s[0]) {
        assert Filter(s, p) == [s[0]] + rest;
        FilterConcat([s[0]], rest, q);
      } else {
        assert Filter(s, p) == rest;
      }
    }
  }

  /** The elements of a prefix occur in the whole sequence. */
  lemma PrefixMembers<T>(a: seq<T>, b: seq<T>)
    requires |a| <= |b| && b[..|a|] == a
    ensures forall x :: x in a ==> x in b
  {
    forall x | x in a ensures x in b {
      var i :| 0 <= i < |a| && a[i] == x;
      assert b[i] == x;
    }
  }

  predicate Distinct<T(!new, ==)>(s: seq<T>) {
    forall i, j :: 0 <= i < j < |s| ==> s[i] != s[j]
  }

  /** The first occurrence of every value of `s`, in order of first occurrence:
      the key order of a Python dictionary built by inserting `s` left to right. */
  function Dedup<T(!new, ==)>(s: seq<T>): (r: seq<T>)
    ensures forall x :: x in r <==> x in s
    ensures Distinct(r)
    ensures |r| <= |s|
  {
    if s == [] then []
    else
      var init := Dedup(s[..|s| - 1]);
      assert forall x :: x in s[..|s| - 1] ==> x in s;
      assert s == s[..|s| - 1] + [s[|s| - 1]];
      if s[|s| - 1] in s[..|s| - 1] then init else init + [s[|s| - 1]]
  }

  /** Inserting values that are already keys does not change the key order. */
  lemma {:induction false} DedupAbsorbs<T(!new)>(s: seq<T>, t: seq<T>)
    requires forall x :: x in t ==> x in s
    ensures Dedup(s + t) == Dedup(s)
    decreases |t|
  {
    if t != [] {
      var init := t[..|t| - 1];
      assert (s + t)[..|s + t| - 1] == s + init;
      assert (s + t)[|s + t| - 1] == t[|t| - 1];
      assert t[|t| - 1] in t;
      assert forall x :: x in init ==> x in t;
      DedupAbsorbs(s, init);
      assert t[|t| - 1] in s + init;
    } else {
      assert s + t == s;
    }
  }

  /** Inserting one more value appends it to the key order unless it is already a key. */
  lemma DedupSnoc<T(!new)>(s: seq<T>, x: T)
    ensures Dedup(s + [x]) == Dedup(s) + (if x in s then [] else [x])
  {
    assert (s + [x])[..|s + [x]| - 1] == s;
  }

  lemma DedupOfDistinct<T(!new)>(s: seq<T>)
    requires Distinct(s)
    ensures Dedup(s) == s
    decreases |s|
  {
    if s != [] {
      var init := s[..|s| - 1];
      assert Distinct(init);
      DedupOfDistinct(init);
      assert s[|s| - 1] !in init;
      assert s == init + [s[|s| - 1]];
    }
  }

  function Min(s: seq<real>): (m: real)
    requires |s| > 0
    ensures m in s
    ensures forall x :: x in s ==> m <= x
  {
    if |s| == 1 then s[0]
    else
      var rest := Min(s[1..]);
      assert forall x :: x in s ==> x == s[0] || x in s[1..];
      if s[0] <= rest then s[0] else rest
  }

  function Max(s: seq<real>): (m: real)
    requires |s| > 0
    ensures m in s
    ensures forall x :: x in s ==> x <= m
  {
    if |s| == 1 then s[0]
    else
      var rest := Max(s[1..]);
      assert forall x :: x in s ==> x == s[0] || x in s[1..];
      if s[0] >= rest then s[0] else rest
  }
}

=== FILE: styles.dfy ===
/** The stylesheet operations of functions.py: the uniform, severity and
    centrality schemes for node colour and node size, their dispatchers
    `color_scheme` and `node_sizing`, the red border of the most influential
    factor, and per-edge opacity. A stylesheet is a sequence of rules and
    every operation returns the new sequence. */
module Styles {
  import opened Seqs
  import opened Graph
  import opened Encoding
  import opened Centrality

  predicate HasBackground(r: Rule) {
    r.props.background.Some?
  }

  predicate NoBackground(r: Rule) {
    !HasBackground(r)
  }

  predicate HasWidth(r: Rule) {
    r.props.width.Some?
  }

  predicate NoWidth(r: Rule) {
    !HasWidth(r)
  }

  predicate NotRedBorder(r: Rule) {
    !IsRedBorder(r)
  }

  /** The 25 by 25 node rule of the uniform sizing scheme. */
  const UniformSizeRule := Rule(AllNodes, NoProps.(width := Some(25.0), height := Some(25.0)))

  /** `apply_uniform_color_styles`: every rule carrying a background colour is
      dropped, and the blue labelled node rule is appended. */
  function ApplyUniformColor(sheet: seq<Rule>): (r: seq<Rule>)
    ensures |r| > 0 && r[|r| - 1] == NodeDefault
    ensures forall x :: x in r[..|r| - 1] <==> x in sheet && !HasBackground(x)
    ensures IsSubseq(r[..|r| - 1], sheet)
    ensures |Filter(r, HasBackground)| == 1
  {
    var kept := Filter(sheet, NoBackground);
    FilterIsSubseq(sheet, NoBackground);
    FilterNone(kept, HasBackground);
    FilterConcat(kept, [NodeDefault], HasBackground);
    assert (kept + [NodeDefault])[..|kept|] == kept;
    kept + [NodeDefault]
  }

  /** Applying the uniform colour scheme a second time changes nothing. */
  lemma {:induction false} ApplyUniformColorIdempotent(sheet: seq<Rule>)
    ensures ApplyUniformColor(ApplyUniformColor(sheet)) == ApplyUniformColor(sheet)
  {
    var kept := Filter(sheet, NoBackground);
    FilterConcat(kept, [NodeDefault], NoBackground);
    FilterKeepsAll(kept, NoBackground);
    assert Filter([NodeDefault], NoBackground) == [];
  }

  /** `apply_uniform_size_styles`: every rule carrying a width is dropped, and
      the 25 by 25 node rule is appended. */
  function ApplyUniformSize(sheet: seq<Rule>): (r: seq<Rule>)
    ensures |r| > 0 && r[|r| - 1] == UniformSizeRule
    ensures forall x :: x in r[..|r| - 1] <==> x in sheet && !HasWidth(x)
    ensures IsSubseq(r[..|r| - 1], sheet)
    ensures |Filter(r, HasWidth)| == 1
  {
    var kept := Filter(sheet, NoWidth);
    FilterIsSubseq(sheet, NoWidth);
    FilterNone(kept, HasWidth);
    FilterConcat(kept, [UniformSizeRule], HasWidth);
    assert (kept + [UniformSizeRule])[..|kept|] == kept;
    kept + [UniformSizeRule]
  }

  /** Applying the uniform sizing scheme a second time changes nothing. */
  lemma {:induction false} ApplyUniformSizeIdempotent(sheet: seq<Rule>)
    ensures ApplyUniformSize(ApplyUniformSize(sheet)) == ApplyUniformSize(sheet)
  {
    var kept := Filter(sheet, NoWidth);
    FilterConcat(kept, [UniformSizeRule], NoWidth);
    FilterKeepsAll(kept, NoWidth);
    assert Filter([UniformSizeRule], NoWidth) == [];
  }

  predicate IsSeverity(kind: Scheme) {
    kind == Severity || kind == SeverityAbs
  }

  /** The upper bound of `Severity (abs)`: the top of the 0..10 severity slider. */
  const AbsHigh: real := 10.0

  /** The lower bound functions.py uses for `Severity (abs)`. */
  const AbsLowAsWritten: real := 1.0

  /** The lower bound of the severity slider, which `Severity (abs)` is meant to use. */
  const AbsLow: real := 0.0

  /** The bounds of the severity schemes: the smallest and largest score for
      `Severity`, the fixed `(absLow, 10)` for `Severity (abs)`. */
  function SeverityBounds(kind: Scheme, scores: Scores, absLow: real): (b: (real, real))
    requires |scores| > 0
    ensures kind == Severity ==> b.0 in ScoreValues(scores) && b.1 in ScoreValues(scores)
    ensures kind == Severity ==> forall i :: 0 <= i < |scores| ==> b.0 <= scores[i].1 <= b.1
    ensures kind != Severity ==> b == (absLow, AbsHigh)
  {
    var vals := ScoreValues(scores);
    if kind == Severity then
      assert forall i :: 0 <= i < |scores| ==> scores[i].1 == vals[i] && vals[i] in vals;
      (Min(vals), Max(vals))
    else (absLow, AbsHigh)
  }

  /** The severity schemes divide by `max - min`: under `Severity` every score
      being equal raises `ZeroDivisionError`. */
  predicate SeverityDefined(kind: Scheme, scores: Scores, absLow: real) {
    |scores| > 0 ==> SeverityBounds(kind, scores, absLow).0 != SeverityBounds(kind, scores, absLow).1
  }

  /** One `background-color` rule per scored factor, in dictionary order. */
  function SeverityColorRules(scores: Scores, lo: real, hi: real): (rules: seq<Rule>)
    requires lo != hi
    ensures |rules| == |scores|
    ensures forall i :: 0 <= i < |scores| ==> rules[i] == ColorRule(scores[i].0, GetColor(Normalize(scores[i].1, hi, lo)))
    ensures forall i :: 0 <= i < |scores| && scores[i].1 == hi ==> rules[i] == ColorRule(scores[i].0, Rgb(0, 0, 255))
    ensures forall i :: 0 <= i < |scores| && scores[i].1 == lo ==> rules[i] == ColorRule(scores[i].0, Rgb(173, 216, 255))
  {
    NormalizeEndpoints(hi, lo);
    seq(|scores|, i requires 0 <= i < |scores| => ColorRule(scores[i].0, GetColor((scores[i].1 - lo) / (hi - lo))))
  }

  /** `r` is what a severity colour scheme makes of `sheet`: the default rules
      when there are no scores, otherwise `sheet` followed by one rule per scored
      factor, shaded between the scheme's bounds. */
  predicate SeverityColored(kind: Scheme, sheet: seq<Rule>, scores: Scores, absLow: real, r: seq<Rule>) {
    if |scores| == 0 then r == DefaultStyle
    else
      var b := SeverityBounds(kind, scores, absLow);
      && |r| == |sheet| + |scores| && r[..|sheet|] == sheet
      && forall i :: 0 <= i < |scores| ==> r[|sheet| + i] == ColorRule(scores[i].0, GetColor(Normalize(scores[i].1, b.1, b.0)))
  }

  /** The same for sizes: one rule per scored factor, scaled onto 10..50. */
  predicate SeveritySized(kind: Scheme, sheet: seq<Rule>, scores: Scores, absLow: real, r: seq<Rule>) {
    if |scores| == 0 then r == DefaultStyle
    else
      var b := SeverityBounds(kind, scores, absLow);
      && |r| == |sheet| + |scores| && r[..|sheet|] == sheet
      && forall i :: 0 <= i < |scores| ==> r[|sheet| + i] == SizeRule(scores[i].0, NormalizeSize(scores[i].1, b.1, b.0, MinSize, MaxSize))
  }

  /** `r` is `sheet` followed by exactly `rules`. */
  predicate Appended(sheet: seq<Rule>, rules: seq<Rule>, r: seq<Rule>) {
    && |r| == |sheet| + |rules| && r[..|sheet|] == sheet
    && forall i :: 0 <= i < |rules| ==> r[|sheet| + i] == rules[i]
  }

  /** `apply_severity_color_styles` with the given lower bound for `Severity (abs)`:
      an empty score dictionary resets the stylesheet to the default rules, any
      other appends one colour rule per scored factor and keeps every existing rule. */
  function ApplySeverityColor(kind: Scheme, sheet: seq<Rule>, scores: Scores, absLow: real): (r: seq<Rule>)
    requires IsSeverity(kind) && SeverityDefined(kind, scores, absLow)
    ensures |scores| == 0 ==> r == DefaultStyle
    ensures |scores| > 0 ==> |r| == |sheet| + |scores| && r[..|sheet|] == sheet
    ensures |scores| > 0 ==> var b := SeverityBounds(kind, scores, absLow);
      forall i :: 0 <= i < |scores| ==> r[|sheet| + i] == ColorRule(scores[i].0, GetColor(Normalize(scores[i].1, b.1, b.0)))
    ensures SeverityColored(kind, sheet, scores, absLow, r)
  {
    if |scores| > 0 then
      var b := SeverityBounds(kind, scores, absLow);
      var rules := SeverityColorRules(scores, b.0, b.1);
      assert (sheet + rules)[..|sheet|] == sheet;
      sheet + rules
    else DefaultStyle
  }

  /** One width-and-height rule per scored factor, in dictionary order. */
  function SeveritySizeRules(scores: Scores, lo: real, hi: real): (rules: seq<Rule>)
    ensures |rules| == |scores|
    ensures forall i :: 0 <= i < |scores| ==> rules[i] == SizeRule(scores[i].0, NormalizeSize(scores[i].1, hi, lo, MinSize, MaxSize))
    ensures forall i :: 0 <= i < |scores| && lo < hi && lo <= scores[i].1 <= hi ==>
      MinSize <= NormalizeSize(scores[i].1, hi, lo, MinSize, MaxSize) <= MaxSize
  {
    seq(|scores|, i requires 0 <= i < |scores| => SizeRule(scores[i].0, NormalizeSize(scores[i].1, hi, lo, MinSize, MaxSize)))
  }

  /** `apply_severity_size_styles` with the given lower bound for `Severity (abs)`.
      `normalize_size` guards equal bounds, so every score dictionary is accepted. */
  function ApplySeveritySize(kind: Scheme, sheet: seq<Rule>, scores: Scores, absLow: real): (r: seq<Rule>)
    requires IsSeverity(kind)
    ensures |scores| == 0 ==> r == DefaultStyle
    ensures |scores| > 0 ==> |r| == |sheet| + |scores| && r[..|sheet|] == sheet
    ensures |scores| > 0 ==> var b := SeverityBounds(kind, scores, absLow);
      forall i :: 0 <= i < |scores| ==> r[|sheet| + i] == SizeRule(scores[i].0, NormalizeSize(scores[i].1, b.1, b.0, MinSize, MaxSize))
    ensures SeveritySized(kind, sheet, scores, absLow, r)
  {
    if |scores| > 0 then
      var b := SeverityBounds(kind, scores, absLow);
      var rules := SeveritySizeRules(scores, b.0, b.1);
      assert (sheet + rules)[..|sheet|] == sheet;
      sheet + rules
    else DefaultStyle
  }

  /** Under `Severity` the most severe factor is drawn darkest and the least
      severe lightest, and every size lies in 10..50. */
  lemma SeverityExtremes(sheet: seq<Rule>, scores: Scores, i: nat)
    requires SeverityDefined(Severity, scores, AbsLowAsWritten) && i < |scores|
    ensures var b := SeverityBounds(Severity, scores, AbsLowAsWritten);
      && (scores[i].1 == b.1 ==> ApplySeverityColor(Severity, sheet, scores, AbsLowAsWritten)[|sheet| + i] == ColorRule(scores[i].0, Rgb(0, 0, 255)))
      && (scores[i].1 == b.0 ==> ApplySeverityColor(Severity, sheet, scores, AbsLowAsWritten)[|sheet| + i] == ColorRule(scores[i].0, Rgb(173, 216, 255)))
      && ApplySeveritySize(Severity, sheet, scores, AbsLowAsWritten)[|sheet| + i].props.width.Some?
      && MinSize <= ApplySeveritySize(Severity, sheet, scores, AbsLowAsWritten)[|sheet| + i].props.width.value <= MaxSize
  {
    var b := SeverityBounds(Severity, scores, AbsLowAsWritten);
    NormalizeEndpoints(b.1, b.0);
    var w := NormalizeSize(scores[i].1, b.1, b.0, MinSize, MaxSize);
    assert ApplySeveritySize(Severity, sheet, scores, AbsLowAsWritten)[|sheet| + i] == SizeRule(scores[i].0, w);
  }

  /** With the slider's own bounds, every score the slider can produce gets a
      colour of the blue gradient and a size in 10..50. */
  lemma AbsSeverityStaysInGradient(score: real)
    requires AbsLow <= score <= AbsHigh
    ensures var c := GetColor(Normalize(score, AbsHigh, AbsLow)); 0 <= c.r <= 173 && 0 <= c.g <= 216
    ensures MinSize <= NormalizeSize(score, AbsHigh, AbsLow, MinSize, MaxSize) <= MaxSize
  {
  }

  /** With the lower bound 1 that functions.py uses, the slider value 0 is
      normalised to -1/9: its colour is lighter than the lightest gradient
      colour and its size is below the 10 pixel minimum. */
  lemma AbsSeverityAsWrittenLeavesGradient()
    ensures Normalize(0.0, AbsHigh, AbsLowAsWritten) == -1.0 / 9.0
    ensures GetColor(Normalize(0.0, AbsHigh, AbsLowAsWritten)) == Rgb(192, 240, 255)
    ensures NormalizeSize(0.0, AbsHigh, AbsLowAsWritten, MinSize, MaxSize) < MinSize
  {
    var t := Normalize(0.0, AbsHigh, AbsLowAsWritten);
    assert t == -1.0 / 9.0;
    assert 173.0 * (1.0 - t) == 1730.0 / 9.0;
    assert 216.0 * (1.0 - t) == 240.0;
    assert (1730.0 / 9.0).Floor == 192;
  }

  /** The metric of every key of the degree dictionary, in key order. */
  function CentralityValues(kind: Scheme, elements: seq<Element>): (vals: seq<real>)
    requires IsCentrality(kind)
    ensures |vals| == |DegreeKeys(elements)|
    ensures forall i :: 0 <= i < |vals| ==> vals[i] == Metric(kind, DegreeOf(elements, DegreeKeys(elements)[i]))
  {
    MetricValues(kind, elements, DegreeKeys(elements))
  }

  /** One colour rule per key, shaded by its normalised value; equal bounds
      give every key the middle shade. */
  function ShadeRules(keys: seq<string>, vals: seq<real>, lo: real, hi: real): (rules: seq<Rule>)
    requires |keys| == |vals|
    ensures |rules| == |keys|
    ensures forall i :: 0 <= i < |keys| ==> rules[i] == ColorRule(keys[i], GetColor(Normalize(vals[i], hi, lo)))
    ensures lo != hi ==> forall i :: 0 <= i < |keys| && vals[i] == hi ==> rules[i] == ColorRule(keys[i], Rgb(0, 0, 255))
    ensures lo != hi ==> forall i :: 0 <= i < |keys| && vals[i] == lo ==> rules[i] == ColorRule(keys[i], Rgb(173, 216, 255))
    ensures lo == hi ==> forall i :: 0 <= i < |keys| ==> rules[i] == ColorRule(keys[i], Rgb(86, 108, 255))
  {
    GetColorMidpoint();
    if lo != hi then NormalizeEndpoints(hi, lo); ShadeRulesOf(keys, vals, lo, hi)
    else ShadeRulesOf(keys, vals, lo, hi)
  }

  function ShadeRulesOf(keys: seq<string>, vals: seq<real>, lo: real, hi: real): (rules: seq<Rule>)
    requires |keys| == |vals|
    ensures |rules| == |keys|
    ensures forall i :: 0 <= i < |keys| ==> rules[i] == ColorRule(keys[i], GetColor(Normalize(vals[i], hi, lo)))
  {
    seq(|keys|, i requires 0 <= i < |keys| => ColorRule(keys[i], GetColor(Normalize(vals[i], hi, lo))))
  }

  /** One size rule per key, from 10 for the smallest value to 50 for the
      largest, 30 for all when the bounds are equal. */
  function ScaleRules(keys: seq<string>, vals: seq<real>, lo: real, hi: real): (rules: seq<Rule>)
    requires |keys| == |vals|
    ensures |rules| == |keys|
    ensures forall i :: 0 <= i < |keys| ==> rules[i] == SizeRule(keys[i], NormalizeSize(vals[i], hi, lo, MinSize, MaxSize))
    ensures lo != hi ==> forall i :: 0 <= i < |keys| && vals[i] == hi ==> rules[i] == SizeRule(keys[i], MaxSize)
    ensures lo != hi ==> forall i :: 0 <= i < |keys| && vals[i] == lo ==> rules[i] == SizeRule(keys[i], MinSize)
    ensures lo == hi ==> forall i :: 0 <= i < |keys| ==> rules[i] == SizeRule(keys[i], 30.0)
    ensures lo < hi ==> forall i :: 0 <= i < |keys| && lo <= vals[i] <= hi ==> MinSize <= NormalizeSize(vals[i], hi, lo, MinSize, MaxSize) <= MaxSize
  {
    seq(|keys|, i requires 0 <= i < |keys| => SizeRule(keys[i], NormalizeSize(vals[i], hi, lo, MinSize, MaxSize)))
  }

  /** `apply_centrality_color_styles`: the ids in dictionary order, shaded by
      their metric between its smallest and largest value. */
  function CentralityColorRules(kind: Scheme, elements: seq<Element>): (rules: seq<Rule>)
    requires IsCentrality(kind) && EndpointsKnown(elements)
    ensures |rules| == |DegreeKeys(elements)|
    ensures var keys := DegreeKeys(elements); var b := Bounds(CentralityValues(kind, elements));
      forall i :: 0 <= i < |keys| ==>
        rules[i] == ColorRule(keys[i], GetColor(Normalize(Metric(kind, DegreeOf(elements, keys[i])), b.1, b.0)))
  {
    var vals := CentralityValues(kind, elements);
    var b := Bounds(vals);
    ShadeRules(DegreeKeys(elements), vals, b.0, b.1)
  }

  /** `apply_centrality_size_styles`: the ids in dictionary order, sized by
      their metric between its smallest and largest value. */
  function CentralitySizeRules(kind: Scheme, elements: seq<Element>): (rules: seq<Rule>)
    requires IsCentrality(kind) && EndpointsKnown(elements)
    ensures |rules| == |DegreeKeys(elements)|
    ensures var keys := DegreeKeys(elements); var b := Bounds(CentralityValues(kind, elements));
      forall i :: 0 <= i < |keys| ==>
        rules[i] == SizeRule(keys[i], NormalizeSize(Metric(kind, DegreeOf(elements, keys[i])), b.1, b.0, MinSize, MaxSize))
  {
    var vals := CentralityValues(kind, elements);
    var b := Bounds(vals);
    ScaleRules(DegreeKeys(elements), vals, b.0, b.1)
  }

  /** Every node of the centrality schemes is shaded darkest when its metric is
      the largest, lightest when it is the smallest, and sized within 10..50. */
  lemma CentralityExtremes(kind: Scheme, elements: seq<Element>, i: nat)
    requires IsCentrality(kind) && EndpointsKnown(elements) && i < |DegreeKeys(elements)|
    ensures var k := DegreeKeys(elements)[i]; var v := CentralityValues(kind, elements)[i];
      var b := Bounds(CentralityValues(kind, elements));
      && v == Metric(kind, DegreeOf(elements, k))
      && (b.0 != b.1 && v == b.1 ==> CentralityColorRules(kind, elements)[i] == ColorRule(k, Rgb(0, 0, 255)))
      && (b.0 != b.1 && v == b.0 ==> CentralityColorRules(kind, elements)[i] == ColorRule(k, Rgb(173, 216, 255)))
      && (b.0 == b.1 ==> CentralityColorRules(kind, elements)[i] == ColorRule(k, Rgb(86, 108, 255)))
      && MinSize <= CentralitySizeRules(kind, elements)[i].props.width.value <= MaxSize
  {
    var vals := CentralityValues(kind, elements);
    assert vals[i] in vals;
  }

  function AppendRules(sheet: seq<Rule>, rules: seq<Rule>): (r: seq<Rule>)
    ensures Appended(sheet, rules, r)
  {
    assert (sheet + rules)[..|sheet|] == sheet;
    sheet + rules
  }

  /** What `color_scheme` and `node_sizing` demand of their inputs: the
      centrality schemes index the degree dictionary by every edge endpoint, and
      the `Severity` colour scheme divides by the spread of the scores. */
  predicate SchemeDefined(scheme: Scheme, elements: seq<Element>, scores: Scores) {
    && (IsCentrality(scheme) ==> EndpointsKnown(elements))
    && (scheme == Severity ==> SeverityDefined(Severity, scores, AbsLowAsWritten))
  }

  /** `color_scheme`. Uniform leaves exactly one background rule, a severity
      scheme with no scores resets to the default rules, every other recognised
      scheme appends one rule per node and keeps the earlier rules, and an
      unrecognised name leaves the stylesheet as it is. `Severity (abs)` uses
      the lower bound 1 of functions.py. */
  function ColorScheme(scheme: Scheme, sheet: seq<Rule>, elements: seq<Element>, scores: Scores): (r: seq<Rule>)
    requires SchemeDefined(scheme, elements, scores)
    ensures scheme == Uniform ==> |Filter(r, HasBackground)| == 1 && r[|r| - 1] == NodeDefault
    ensures IsSeverity(scheme) ==> SeverityColored(scheme, sheet, scores, AbsLowAsWritten, r)
    ensures IsCentrality(scheme) ==> Appended(sheet, CentralityColorRules(scheme, elements), r)
    ensures scheme == Unrecognised ==> r == sheet
  {
    match scheme
    case Uniform => ApplyUniformColor(sheet)
    case Severity => ApplySeverityColor(scheme, sheet, scores, AbsLowAsWritten)
    case SeverityAbs => ApplySeverityColor(scheme, sheet, scores, AbsLowAsWritten)
    case OutDegree => AppendRules(sheet, CentralityColorRules(scheme, elements))
    case InDegree => AppendRules(sheet, CentralityColorRules(scheme, elements))
    case OutInRatio => AppendRules(sheet, CentralityColorRules(scheme, elements))
    case Unrecognised => sheet
  }

  /** `node_sizing`, with the same dispatch and bounds as `color_scheme`. */
  function NodeSizing(scheme: Scheme, sheet: seq<Rule>, elements: seq<Element>, scores: Scores): (r: seq<Rule>)
    requires IsCentrality(scheme) ==> EndpointsKnown(elements)
    ensures scheme == Uniform ==> |Filter(r, HasWidth)| == 1 && r[|r| - 1] == UniformSizeRule
    ensures IsSeverity(scheme) ==> SeveritySized(scheme, sheet, scores, AbsLowAsWritten, r)
    ensures IsCentrality(scheme) ==> Appended(sheet, CentralitySizeRules(scheme, elements), r)
    ensures scheme == Unrecognised ==> r == sheet
  {
    match scheme
    case Uniform => ApplyUniformSize(sheet)
    case Severity => ApplySeveritySize(scheme, sheet, scores, AbsLowAsWritten)
    case SeverityAbs => ApplySeveritySize(scheme, sheet, scores, AbsLowAsWritten)
    case OutDegree => AppendRules(sheet, CentralitySizeRules(scheme, elements))
    case InDegree => AppendRules(sheet, CentralitySizeRules(scheme, elements))
    case OutInRatio => AppendRules(sheet, CentralitySizeRules(scheme, elements))
    case Unrecognised => sheet
  }

  /** Through the dispatcher, a factor scored 0 under `Severity (abs)` gets the
      colour outside the gradient that the lower bound 1 produces. */
  lemma ColorSchemeAbsZero()
    ensures ColorScheme(SeverityAbs, [], [], [("X", 0.0)]) == [ColorRule("X", Rgb(192, 240, 255))]
  {
    AbsSeverityAsWrittenLeavesGradient();
    var r := ColorScheme(SeverityAbs, [], [], [("X", 0.0)]);
    assert |r| == 1;
  }

  /** `color_target`: the first chosen target gets a 2px red border, appended last. */
  function ColorTarget(sheet: seq<Rule>, target: seq<string>): (r: seq<Rule>)
    ensures target == [] ==> r == sheet
    ensures target != [] ==> |r| == |sheet| + 1 && r[..|sheet|] == sheet && r[|sheet|] == TargetRule(target[0])
    ensures RedBorders(r) == RedBorders(sheet) + (if target == [] then 0 else 1)
  {
    if target != [] then
      FilterConcat(sheet, [TargetRule(target[0])], IsRedBorder);
      assert (sheet + [TargetRule(target[0])])[..|sheet|] == sheet;
      sheet + [TargetRule(target[0])]
    else sheet
  }

  /** `reset_target`: every red-border rule goes, every other rule stays in order. */
  function ResetTarget(sheet: seq<Rule>): (r: seq<Rule>)
    ensures RedBorders(r) == 0
    ensures forall x :: x in r <==> x in sheet && !IsRedBorder(x)
    ensures IsSubseq(r, sheet)
  {
    var kept := Filter(sheet, NotRedBorder);
    FilterNone(kept, IsRedBorder);
    FilterIsSubseq(sheet, NotRedBorder);
    kept
  }

  /** Resetting undoes any colouring of the target. */
  lemma {:induction false} ResetUndoesColorTarget(sheet: seq<Rule>, target: seq<string>)
    ensures ResetTarget(ColorTarget(ResetTarget(sheet), target)) == ResetTarget(sheet)
  {
    var kept := ResetTarget(sheet);
    FilterKeepsAll(kept, NotRedBorder);
    if target != [] {
      FilterConcat(kept, [TargetRule(target[0])], NotRedBorder);
      assert Filter([TargetRule(target[0])], NotRedBorder) == [];
    }
  }

  /** `graph_color` of functions.py: reset the border, colour the target, then
      size the nodes by `Severity`. At most one red border remains; with scores
      it is exactly the chosen target's, every earlier rule that is not a red
      border survives, and one `Severity` size rule per scored factor follows
      the marked stylesheet; without scores the stylesheet falls back to the
      default rules. */
  function GraphColor(sheet: seq<Rule>, target: seq<string>, elements: seq<Element>, scores: Scores): (r: seq<Rule>)
    ensures RedBorders(r) <= 1
    ensures |scores| > 0 ==> RedBorders(r) == (if target == [] then 0 else 1)
    ensures |scores| > 0 && target != [] ==> TargetRule(target[0]) in r
    ensures |scores| > 0 ==> forall x :: x in sheet && !IsRedBorder(x) ==> x in r
    ensures |scores| > 0 ==> var m := |ColorTarget(ResetTarget(sheet), target)|;
      var b := SeverityBounds(Severity, scores, AbsLowAsWritten);
      && |r| == m + |scores|
      && forall i :: 0 <= i < |scores| ==> r[m + i] == SizeRule(scores[i].0, NormalizeSize(scores[i].1, b.1, b.0, MinSize, MaxSize))
    ensures |scores| == 0 ==> r == DefaultStyle
  {
    var marked := ColorTarget(ResetTarget(sheet), target);
    if |scores| > 0 then
      SizingMarked(sheet, target, elements, scores);
      NodeSizing(Severity, marked, elements, scores)
    else
      assert RedBorders(DefaultStyle) == 0 by {
        FilterNone(DefaultStyle, IsRedBorder);
      }
      NodeSizing(Severity, marked, elements, scores)
  }

  /** Sizing the marked stylesheet by severity keeps its red borders and every
      rule that survived the reset, and appends exactly the size rules. */
  lemma SizingMarked(sheet: seq<Rule>, target: seq<string>, elements: seq<Element>, scores: Scores)
    requires |scores| > 0
    ensures var marked := ColorTarget(ResetTarget(sheet), target);
      var r := NodeSizing(Severity, marked, elements, scores);
      var b := SeverityBounds(Severity, scores, AbsLowAsWritten);
      && RedBorders(r) == (if target == [] then 0 else 1)
      && (target != [] ==> TargetRule(target[0]) in r)
      && (forall x :: x in sheet && !IsRedBorder(x) ==> x in r)
      && |r| == |marked| + |scores|
      && forall i :: 0 <= i < |scores| ==> r[|marked| + i] == SizeRule(scores[i].0, NormalizeSize(scores[i].1, b.1, b.0, MinSize, MaxSize))
  {
    var marked := ColorTarget(ResetTarget(sheet), target);
    SizingBySeverity(marked, elements, scores);
    var b := SeverityBounds(Severity, scores, AbsLowAsWritten);
    SizeRulesAddNoBorder(marked, SeveritySizeRules(scores, b.0, b.1));
    PrefixMembers(ResetTarget(sheet), marked);
  }

  /** `node_sizing("Severity")` with scores appends exactly the severity size rules. */
  lemma SizingBySeverity(sheet: seq<Rule>, elements: seq<Element>, scores: Scores)
    requires |scores| > 0
    ensures var b := SeverityBounds(Severity, scores, AbsLowAsWritten);
      NodeSizing(Severity, sheet, elements, scores) == sheet + SeveritySizeRules(scores, b.0, b.1)
  {
  }

  /** Appending size rules keeps the red borders and every earlier rule. */
  lemma SizeRulesAddNoBorder(sheet: seq<Rule>, rules: seq<Rule>)
    requires forall i :: 0 <= i < |rules| ==> rules[i].props.borderColor == None
    ensures RedBorders(sheet + rules) == RedBorders(sheet)
    ensures forall x :: x in sheet ==> x in sheet + rules
    ensures |sheet| <= |sheet + rules| && (sheet + rules)[..|sheet|] == sheet
  {
    assert forall x :: x in rules ==> !IsRedBorder(x);
    FilterNone(rules, IsRedBorder);
    FilterConcat(sheet, rules, IsRedBorder);
    assert (sheet + rules)[..|sheet|] == sheet;
  }

  /** The selector `edge[id="..."]` of one edge. */
  predicate OtherSelector(r: Rule, edgeId: string) {
    r.selector != EdgeId(edgeId)
  }

  /** The rules of `sheet` not aimed at the edge `edgeId`, in order. */
  function OtherRules(sheet: seq<Rule>, edgeId: string): (r: seq<Rule>)
    ensures forall x :: x in r <==> x in sheet && x.selector != EdgeId(edgeId)
    ensures IsSubseq(r, sheet)
  {
    FilterIsSubseq(sheet, x => OtherSelector(x, edgeId));
    Filter(sheet, x => OtherSelector(x, edgeId))
  }

  /** `update_edge_opacity`: exactly one rule remains for the edge, the last,
      with opacity `strength / 5`; every rule for another selector is kept in order. */
  function UpdateEdgeOpacity(edgeId: string, strength: real, sheet: seq<Rule>): (r: seq<Rule>)
    ensures |r| > 0 && r[|r| - 1] == Rule(EdgeId(edgeId), NoProps.(opacity := Some(Opacity(strength))))
    ensures forall i :: 0 <= i < |r| - 1 ==> r[i].selector != EdgeId(edgeId)
    ensures forall x :: x in r[..|r| - 1] <==> x in sheet && x.selector != EdgeId(edgeId)
    ensures IsSubseq(r[..|r| - 1], sheet)
  {
    var kept := OtherRules(sheet, edgeId);
    var r := kept + [Rule(EdgeId(edgeId), NoProps.(opacity := Some(strength / 5.0)))];
    assert r[..|r| - 1] == kept;
    assert forall i :: 0 <= i < |r| - 1 ==> r[i] in kept;
    r
  }

  /** Setting a new strength replaces the previous one: only the last call counts. */
  lemma UpdateEdgeOpacityOverrides(edgeId: string, s1: real, s2: real, sheet: seq<Rule>)
    ensures UpdateEdgeOpacity(edgeId, s2, UpdateEdgeOpacity(edgeId, s1, sheet)) == UpdateEdgeOpacity(edgeId, s2, sheet)
  {
    var p := x => OtherSelector(x, edgeId);
    var kept := Filter(sheet, p);
    var last := Rule(EdgeId(edgeId), NoProps.(opacity := Some(s1 / 5.0)));
    FilterConcat(kept, [last], p);
    FilterKeepsAll(kept, p);
    assert Filter([last], p) == [];
  }
}

=== FILE: ver01.dfy ===
/** The first revision, app_ver01.py: the keyed engine of `Keyed`, a
    `graph_color` that builds a fresh out-degree stylesheet on every call,
    and a node deletion that leaves the node's edges in place. The same
    stylesheet code appears again in `generate_graph` of app_02.py. */
module Ver01 {
  import opened Seqs
  import opened Graph
  import opened Encoding
  import opened Centrality
  import opened Styles

  /** The out-degree of each key, as the reals the normalisation divides. */
  function OutValues(elements: seq<Element>, keys: seq<string>): (vals: seq<real>)
    ensures |vals| == |keys|
    ensures forall i :: 0 <= i < |keys| ==> vals[i] == OutCount(elements, keys[i]) as real
  {
    seq(|keys|, i requires 0 <= i < |keys| => OutCount(elements, keys[i]) as real)
  }

  /** The optional red-border rule for the first chosen target. */
  function TargetRules(target: seq<string>): (rules: seq<Rule>)
    ensures RedBorders(rules) == if target == [] then 0 else 1
    ensures target == [] ==> rules == []
    ensures target != [] ==> rules == [TargetRule(target[0])]
  {
    if target == [] then [] else [TargetRule(target[0])]
  }

  /** The default rules, then the shades, then the target's border. Only the
      target's rule draws a red border when the shades draw none. */
  function Assemble(shades: seq<Rule>, target: seq<string>): (sheet: seq<Rule>)
    requires forall i :: 0 <= i < |shades| ==> shades[i].props.borderColor == None
    ensures |sheet| == 2 + |shades| + (if target == [] then 0 else 1)
    ensures sheet[..2] == DefaultStyle
    ensures forall i :: 0 <= i < |shades| ==> sheet[2 + i] == shades[i]
    ensures target != [] ==> sheet[|sheet| - 1] == TargetRule(target[0])
    ensures RedBorders(sheet) == if target == [] then 0 else 1
  {
    var head := DefaultStyle + shades;
    forall x | x in head ensures !IsRedBorder(x) {
      if x !in DefaultStyle {
        var i :| 0 <= i < |shades| && shades[i] == x;
      }
    }
    FilterNone(head, IsRedBorder);
    FilterConcat(head, TargetRules(target), IsRedBorder);
    head + TargetRules(target)
  }

  /** `graph_color`: the two default rules, one background rule per key of
      the out-degree dictionary shaded by its normalised out-degree, and the
      target's red border last. Nothing of an earlier stylesheet survives. */
  function GraphColor(elements: seq<Element>, target: seq<string>): (sheet: seq<Rule>)
    ensures |sheet| == 2 + |OutDegreeKeys(elements)| + (if target == [] then 0 else 1)
    ensures sheet[..2] == DefaultStyle
    ensures forall i :: 0 <= i < |OutDegreeKeys(elements)| ==>
      sheet[2 + i].selector == NodeId(OutDegreeKeys(elements)[i]) && sheet[2 + i].props.background.Some?
    ensures var keys := OutDegreeKeys(elements); var vals := OutValues(elements, keys); var b := Bounds(vals);
      forall i :: 0 <= i < |keys| ==> sheet[2 + i] == ColorRule(keys[i], GetColor(Normalize(vals[i], b.1, b.0)))
    ensures target != [] ==> sheet[|sheet| - 1] == TargetRule(target[0])
    ensures RedBorders(sheet) == if target == [] then 0 else 1
  {
    var keys := OutDegreeKeys(elements);
    var vals := OutValues(elements, keys);
    var b := Bounds(vals);
    Assemble(ShadeRules(keys, vals, b.0, b.1), target)
  }

  /** How `graph_color` shades: when every out-degree is the same all nodes
      get rgb(86,108,255); otherwise a node with the largest out-degree gets
      rgb(0,0,255) and one with the smallest rgb(173,216,255). */
  lemma GraphColorShades(elements: seq<Element>, target: seq<string>, i: nat)
    requires i < |OutDegreeKeys(elements)|
    ensures var keys := OutDegreeKeys(elements);
      var vals := OutValues(elements, keys);
      var b := Bounds(vals);
      var shade := GraphColor(elements, target)[2 + i];
      && b.0 <= vals[i] <= b.1
      && (b.0 == b.1 ==> shade == ColorRule(keys[i], Rgb(86, 108, 255)))
      && (b.0 != b.1 && vals[i] == b.1 ==> shade == ColorRule(keys[i], Rgb(0, 0, 255)))
      && (b.0 != b.1 && vals[i] == b.0 ==> shade == ColorRule(keys[i], Rgb(173, 216, 255)))
  {
    var keys := OutDegreeKeys(elements);
    var vals := OutValues(elements, keys);
    var b := Bounds(vals);
    assert GraphColor(elements, target)[2 + i] == ShadeRules(keys, vals, b.0, b.1)[i];
    assert vals[i] in vals;
  }

  /** When every edge starts at a known id, the out-degree dictionary has
      exactly the ids as keys, so the stylesheet has one shade per distinct
      id; with distinct ids, one per id-bearing element. */
  lemma GraphColorKnownSources(elements: seq<Element>, target: seq<string>)
    requires forall e :: e in elements && e.Edge? ==> FactorExists(e.src, elements)
    ensures OutDegreeKeys(elements) == DegreeKeys(elements)
    ensures Distinct(Ids(elements)) ==>
      |GraphColor(elements, target)| == 2 + |Ids(elements)| + (if target == [] then 0 else 1)
  {
    SourcesOfEdges(elements);
    DedupAbsorbs(Ids(elements), Sources(elements));
    if Distinct(Ids(elements)) {
      DedupOfDistinct(Ids(elements));
    }
  }

  /** Keeps the elements whose id is not `name`. */
  function IdIsNot(name: string): Element -> bool {
    e => ElementId(e) != Some(name)
  }

  /** `delete_node` of app_ver01.py: the elements with that id go, and every
      other element, the node's edges included, stays in order. */
  function DeleteNode(clicked: bool, name: string, elements: seq<Element>): (r: seq<Element>)
    ensures !clicked || name == "" ==> r == elements
    ensures clicked && name != "" ==> !FactorExists(name, r)
    ensures clicked && name != "" ==> forall e :: e in r <==> e in elements && ElementId(e) != Some(name)
    ensures IsSubseq(r, elements)
  {
    if clicked && name != "" then
      FilterIsSubseq(elements, IdIsNot(name));
      Filter(elements, IdIsNot(name))
    else
      SubseqOfItself(elements);
      elements
  }

  /** Deleting a node with an edge leaves that edge pointing at nothing, so
      the degree counting of the later revisions would fail on the result. */
  lemma DeleteNodeLeavesDanglingEdge()
    ensures var elements := [Node("A", "A"), Node("B", "B"), Edge("A", "B", None)];
      && EndpointsKnown(elements)
      && Edge("A", "B", None) in DeleteNode(true, "A", elements)
      && !EndpointsKnown(DeleteNode(true, "A", elements))
  {
    var elements := [Node("A", "A"), Node("B", "B"), Edge("A", "B", None)];
    assert ElementId(elements[0]) == Some("A") && ElementId(elements[1]) == Some("B");
    var r := DeleteNode(true, "A", elements);
    assert Edge("A", "B", None) in r;
  }
}

=== FILE: ver02.dfy ===
/** The second revision, app_ver02.py: the keyed engine of `Keyed`, a
    `color_scheme` and `node_sizing` limited to the centrality schemes, a
    `graph_color` that appends to the stylesheet it is given, and a node
    deletion that takes the node's edges with it. */
module Ver02 {
  import opened Seqs
  import opened Graph
  import opened Encoding
  import opened Centrality
  import opened Styles

  /** `color_scheme` of app_ver02.py: a centrality scheme appends one
      background rule per id, shaded by the metric; any other name appends
      nothing. The degree counting runs first whatever the name, so every
      edge endpoint must be a known id. */
  function ColorScheme(kind: Scheme, sheet: seq<Rule>, elements: seq<Element>): (r: seq<Rule>)
    requires EndpointsKnown(elements)
    ensures !IsCentrality(kind) ==> r == sheet
    ensures IsCentrality(kind) ==> |r| == |sheet| + |DegreeKeys(elements)| && r[..|sheet|] == sheet
    ensures IsCentrality(kind) ==> forall i :: 0 <= i < |DegreeKeys(elements)| ==>
      r[|sheet| + i].selector == NodeId(DegreeKeys(elements)[i]) && r[|sheet| + i].props.background.Some?
  {
    if IsCentrality(kind) then
      var rules := CentralityColorRules(kind, elements);
      assert (sheet + rules)[..|sheet|] == sheet;
      sheet + rules
    else sheet
  }

  /** `normalize_size` of app_ver02.py, which has no equal-bounds guard. */
  function NormalizeSizeUnguarded(value: real, maxValue: real, minValue: real, minSize: real, maxSize: real): (size: real)
    requires maxValue != minValue
    ensures size == NormalizeSize(value, maxValue, minValue, minSize, maxSize)
  {
    (value - minValue) / (maxValue - minValue) * (maxSize - minSize) + minSize
  }

  /** Where it is defined, the unguarded size maps the bounds to 10 and 50 and
      stays between them. */
  lemma UnguardedSizeBounds(value: real, maxValue: real, minValue: real)
    requires minValue < maxValue && minValue <= value <= maxValue
    ensures NormalizeSizeUnguarded(minValue, maxValue, minValue, MinSize, MaxSize) == MinSize
    ensures NormalizeSizeUnguarded(maxValue, maxValue, minValue, MinSize, MaxSize) == MaxSize
    ensures MinSize <= NormalizeSizeUnguarded(value, maxValue, minValue, MinSize, MaxSize) <= MaxSize
  {
  }

  /** What `node_sizing` of app_ver02.py needs: the degree counting must find
      every endpoint, and a centrality scheme over at least one id must not
      give all ids the same metric, or `normalize_size` divides by zero. */
  predicate SizingDefined(kind: Scheme, elements: seq<Element>) {
    && EndpointsKnown(elements)
    && (IsCentrality(kind) && |DegreeKeys(elements)| > 0 ==>
          var b := Bounds(CentralityValues(kind, elements)); b.0 != b.1)
  }

  /** One size rule per id, from 10 for the smallest metric to 50 for the largest. */
  function UnguardedScaleRules(keys: seq<string>, vals: seq<real>, lo: real, hi: real): (rules: seq<Rule>)
    requires |keys| == |vals| && (|keys| > 0 ==> lo != hi)
    ensures |rules| == |keys|
    ensures forall i :: 0 <= i < |keys| ==> rules[i] == SizeRule(keys[i], NormalizeSize(vals[i], hi, lo, MinSize, MaxSize))
  {
    seq(|keys|, i requires 0 <= i < |keys| => SizeRule(keys[i], NormalizeSizeUnguarded(vals[i], hi, lo, MinSize, MaxSize)))
  }

  /** `node_sizing` of app_ver02.py: a centrality scheme appends one size rule
      per id; any other name appends nothing. */
  function NodeSizing(kind: Scheme, sheet: seq<Rule>, elements: seq<Element>): (r: seq<Rule>)
    requires SizingDefined(kind, elements)
    ensures !IsCentrality(kind) ==> r == sheet
    ensures IsCentrality(kind) ==> |r| == |sheet| + |DegreeKeys(elements)| && r[..|sheet|] == sheet
    ensures IsCentrality(kind) ==> forall i :: 0 <= i < |DegreeKeys(elements)| ==>
      r[|sheet| + i] == SizeRule(DegreeKeys(elements)[i],
        NormalizeSize(CentralityValues(kind, elements)[i], Bounds(CentralityValues(kind, elements)).1, Bounds(CentralityValues(kind, elements)).0, MinSize, MaxSize))
  {
    if IsCentrality(kind) then
      var vals := CentralityValues(kind, elements);
      var b := Bounds(vals);
      var rules := UnguardedScaleRules(DegreeKeys(elements), vals, b.0, b.1);
      assert (sheet + rules)[..|sheet|] == sheet;
      sheet + rules
    else sheet
  }

  /** Where `node_sizing` is defined, the id with the smallest metric gets
      size 10, the one with the largest 50, and every size lies in between. */
  lemma NodeSizingExtremes(kind: Scheme, sheet: seq<Rule>, elements: seq<Element>, i: nat)
    requires IsCentrality(kind) && SizingDefined(kind, elements) && i < |DegreeKeys(elements)|
    ensures var vals := CentralityValues(kind, elements);
      var b := Bounds(vals);
      var size := NodeSizing(kind, sheet, elements)[|sheet| + i].props.width.value;
      && (vals[i] == b.0 ==> size == MinSize)
      && (vals[i] == b.1 ==> size == MaxSize)
      && MinSize <= size <= MaxSize
  {
    var vals := CentralityValues(kind, elements);
    assert vals[i] in vals;
  }

  /** Equal out-degrees make `node_sizing` undefined: two unconnected nodes. */
  lemma EqualDegreesUndefined()
    ensures !SizingDefined(OutDegree, [Node("A", "A"), Node("B", "B")])
  {
    var elements := [Node("A", "A"), Node("B", "B")];
    assert elements[..1] == [Node("A", "A")] && elements[..1][..0] == [];
    forall k ensures OutCount(elements, k) == 0 {
      assert OutCount(elements[..1][..0], k) == 0;
      assert OutCount(elements[..1], k) == 0;
    }
    assert elements[0] in elements && ElementId(elements[0]) == Some("A");
    assert FactorExists("A", elements);
    assert "A" in Ids(elements);
    assert "A" in DegreeKeys(elements);
    var vals := CentralityValues(OutDegree, elements);
    assert forall i :: 0 <= i < |vals| ==> vals[i] == 0.0;
  }

  /** `graph_color` of app_ver02.py: out-degree colouring appended to the
      stylesheet, then the red border reset, then the target's border added.
      Exactly one red border (the target's, last) or none remains. */
  function GraphColor(sheet: seq<Rule>, elements: seq<Element>, target: seq<string>): (r: seq<Rule>)
    requires EndpointsKnown(elements)
    ensures RedBorders(r) == if target == [] then 0 else 1
    ensures target != [] ==> r[|r| - 1] == TargetRule(target[0])
    ensures forall x :: x in ColorScheme(OutDegree, sheet, elements) && !IsRedBorder(x) ==> x in r
  {
    ColorTarget(ResetTarget(ColorScheme(OutDegree, sheet, elements)), target)
  }

  /** Unlike app_ver01.py, every call grows the stylesheet by one rule per id. */
  lemma GraphColorAccumulates(sheet: seq<Rule>, elements: seq<Element>, target: seq<string>)
    requires EndpointsKnown(elements)
    ensures |ColorScheme(OutDegree, GraphColor(sheet, elements, target), elements)|
         == |GraphColor(sheet, elements, target)| + |DegreeKeys(elements)|
  {
  }

  /** Keeps the elements that neither carry the id `name` nor touch it. */
  function Unrelated(name: string): Element -> bool {
    e => ElementId(e) != Some(name) && !(e.Edge? && (e.src == name || e.tgt == name))
  }

  /** `delete_node` of app_ver02.py: the element with that id goes, and so
      does every edge from or to it; everything else stays in order. */
  function DeleteNode(clicked: bool, name: string, elements: seq<Element>): (r: seq<Element>)
    ensures !clicked || name == "" ==> r == elements
    ensures clicked && name != "" ==> !FactorExists(name, r)
    ensures clicked && name != "" ==> forall e :: e in r && e.Edge? ==> e.src != name && e.tgt != name
    ensures clicked && name != "" ==> forall e :: e in r <==>
      e in elements && ElementId(e) != Some(name) && !(e.Edge? && (e.src == name || e.tgt == name))
    ensures IsSubseq(r, elements)
  {
    if clicked && name != "" then
      FilterIsSubseq(elements, Unrelated(name));
      Filter(elements, Unrelated(name))
    else
      SubseqOfItself(elements);
      elements
  }

  /** Deleting a node keeps every other edge between nodes. */
  lemma DeleteNodeKeepsEndpoints(clicked: bool, name: string, elements: seq<Element>)
    requires EndpointsAreNodes(elements)
    ensures EndpointsAreNodes(DeleteNode(clicked, name, elements))
  {
    var r := DeleteNode(clicked, name, elements);
    if clicked && name != "" {
      forall e | e in r && e.Edge? ensures NodeExists(e.src, r) && NodeExists(e.tgt, r) {
        var a :| a in elements && a.Node? && a.id == e.src;
        var b :| b in elements && b.Node? && b.id == e.tgt;
        assert a in r && b in r;
      }
    }
  }
}
